=== FILE: README.md ===
# Hubs plugin toolchain, modelled in Dafny

This project models the pure logic of the Hubs plugin development toolchain:

- **The plugin manifest generator** (`webpack/HubsWebpackPlugin.js`). It covers three parts:
  - the resolver that decides which imports are left out of a plugin bundle and read from a global of the Hubs client (`three` → `THREE`, `@hubs/some-module` → `Hubs.someModule`);
  - the record of externalized requests;
  - the `emit` step that writes `plugin-manifest.json`, with one `{type, url, dependencies}` entry per chunk for each hook that names the chunk's entry point.
- **The webpack configuration of a plugin project** (`scripts/hubs-sdk-webpack-config.js`). It turns each hook's source files into webpack entry points named by the files' base names, and gives the manifest plugin the same hooks listing those names.
- **The three development servers**, modelled side by side as the variants of `AppConfig.Variant`:
  - `Server` is the plugin dev server, `server/HubsDevServer.js`;
  - `Sdk` is the SDK dev server, `scripts/HubsSDKDevServer.js`;
  - `Legacy` is the older root server, `HubsDevServer.js`.

  For each server the model covers:
  - the default app configuration built from the parsed `schema.toml` (feature-flag defaulting, the fixed English translations);
  - the remote configuration of a Hubs Cloud instance;
  - the environment descriptor;
  - the plugin registry and `registerPlugin`;
  - `init`, which attaches the plugin information and composes the `env:` meta tags, the `APP_CONFIG` script and the two page headers;
  - the page handler that puts a header in place of the placeholder comment;
  - the CORS proxy's headers, `Location` rewrite and target URL;
  - the routing of requests to pages, static files and the proxy, including the seven-character room routes;
  - the search for `hubs.config.js` in the working directory and its ancestors.
- **The browser's reading of the `APP_CONFIG` script**: the script-data states of the HTML tokenizer (section 13.2.5 of the HTML Living Standard), which decide where the script element ends, and the JavaScript single-quoted string literal, which decides what text `JSON.parse` receives.

JavaScript objects are ordered association lists (`Dict`), so insertion order is kept for `for ... in` and `JSON.stringify`. JSON values are the `Json` datatype. Everything that touches the outside world is an input of the model:
- the parsed TOML schema;
- the parsed credentials;
- `fetch`, as a function from a request (URL and `Authorization` header) to the response's `ok`, `statusText` and parsed body;
- `fs.existsSync`, `path.dirname`, `path.join` and `path.resolve`;
- webpack's entry points, chunks and `getPath`;
- whether a static file exists;
- `req.accepts("html")`;
- the text of a page template.

The dev servers' `init`, their page handler and the search for `hubs.config.js` are modelled as the code is written. Where that code is wrong (see "Findings"), a repaired version sits beside it: the `Repaired` build of `DevServer.Build` and `Ancestors.HubsConfigPath`.

Two places where the code is followed rather than the prose description of the system:
- The proxy rewrites the `Location` header of the incoming *request* (`req.header("location")`), not one of the upstream response.
- `loadRemoteConfig` parses the hubs-configs body before it looks at that response's status, so a failing response whose body is not JSON is reported as an invalid body (`AppConfig.SecondBodyParsedBeforeStatus`).

## Model

| member | source | states |
|---|---|---|
| Resolver.CamelCaseDashShape | webpack/HubsWebpackPlugin.js:6-8 | `camelCaseDash` never lengthens its input, and its result has no `-` followed by a lower-case ASCII letter |
| Resolver.CamelCaseDash | webpack/HubsWebpackPlugin.js:6-8 | no contract of its own: the global replace of `-x` by `X` for lower-case ASCII `x`; its properties are the `CamelCaseDash...` lemmas below |
| Resolver.CamelCaseDashFixedPoint | webpack/HubsWebpackPlugin.js:6-8 | a string is left unchanged exactly when it has no `-` followed by a lower-case letter, in both directions |
| Resolver.CamelCaseDashIdempotent | webpack/HubsWebpackPlugin.js:6-8 | rewriting twice gives the result of rewriting once |
| Resolver.CamelCaseDashAppend | webpack/HubsWebpackPlugin.js:6-8 | the global replace works piecewise across any split that does not separate a dash from the letter after it |
| Resolver.CamelCaseDashInvertsDashCase | webpack/HubsWebpackPlugin.js:6-8 | for a name without dashes, `camelCaseDash` undoes the dashed spelling (`-x` for each upper-case `X`) |
| Resolver.RequestToExternal | webpack/HubsWebpackPlugin.js:10-29 | the six listed packages get their fixed flat globals; any other request under `@hubs/` gets `Hubs.<camelCaseDash(rest)>`; a request has a binding if and only if it is one of the six or starts with `@hubs/` |
| Resolver.GlobalBindingsInjective | webpack/HubsWebpackPlugin.js:11-24 | no two different requests resolve to the same flat global |
| Resolver.HubsMemberRoundTrip | webpack/HubsWebpackPlugin.js:26-28 | a module `@hubs/` + dashed spelling of `t` binds to the member `Hubs.t` |
| Resolver.ExternalizeHubsDeps | webpack/HubsWebpackPlugin.js:38-47 | the callback gets the resolver's binding; the record only grows, gains at most the request, and holds the request afterwards if and only if it held it before or the request has a binding |
| Resolver.ExternalizeAllCollects | webpack/HubsWebpackPlugin.js:38-47 | after any run of requests, the record is the starting record plus exactly the requests that have a binding |
| Manifest.Dependencies | webpack/HubsWebpackPlugin.js:64-72 | a chunk's dependencies have no duplicates, and a request is among them if and only if it is a module of the chunk and was externalized |
| Manifest.DependenciesFirstOccurrenceOrder | webpack/HubsWebpackPlugin.js:64-72 | the dependencies follow the order of each request's first occurrence among the chunk's modules |
| Manifest.Emit | webpack/HubsWebpackPlugin.js:55-96 | the manifest copies name and version from the plugin configuration and has exactly the declared hook names, in declared order |
| Manifest.EmitPerHook | webpack/HubsWebpackPlugin.js:56-90 | the fold over entry points and chunks gives each declared hook exactly the entries of its per-hook reading: per entry point, per chunk, one entry for each time the hook names that entry point |
| Manifest.AddEntryPoints | webpack/HubsWebpackPlugin.js:62-90 | the fold over entry points keeps exactly the declared hook names; `Manifest.EmitPerHook` states its contents |
| Manifest.AddChunk | webpack/HubsWebpackPlugin.js:78-88 | one chunk's step keeps exactly the declared hook names; each hook gains the chunk's entry once per time it names the entry point (`Manifest.EntryPointEntriesCount`) |
| Manifest.UnmatchedHookIsEmpty | webpack/HubsWebpackPlugin.js:58-60 | a hook that names no entry point of the build keeps its empty list |
| Manifest.HookEntriesCount | webpack/HubsWebpackPlugin.js:62-90 | a hook's entry count is the sum over entry points of (number of chunks) × (occurrences of the entry point's name in the hook) |
| Manifest.EntryPointEntriesCount | webpack/HubsWebpackPlugin.js:78-88 | one entry point contributes (number of chunks) × (occurrences of its name) entries to a hook |
| Manifest.HookEntriesProvenance | webpack/HubsWebpackPlugin.js:78-88 | every entry of a hook comes from a chunk of an entry point that the hook names |
| Manifest.ManifestEntriesWellFormed | webpack/HubsWebpackPlugin.js:64-88 | every manifest entry is of type `js`, carries the URL of a chunk of an entry point its hook names, and has duplicate-free dependencies that were all externalized |
| Manifest.DependenciesAreBound | webpack/HubsWebpackPlugin.js:38-72 | when the record is the one built by the resolver over the build's requests, every dependency in the manifest is one of those requests and has a global binding |
| Manifest.EmitAssets | webpack/HubsWebpackPlugin.js:92-98 | the compilation gains exactly the asset `plugin-manifest.json` holding the serialized manifest; every other asset is unchanged |
| SdkWebpackConfig.LastIndexOf | scripts/hubs-sdk-webpack-config.js:20 | the index found holds the character and no later index does; none is found only when the character is absent |
| SdkWebpackConfig.BaseName | scripts/hubs-sdk-webpack-config.js:20 | `path.parse(file).name` holds no `/`, is no longer than the path, and is the path itself for a name without `/` or `.` |
| SdkWebpackConfig.EntryNames | scripts/hubs-sdk-webpack-config.js:19-23 | a hook's entry-point names are the base names of its files, one per file, in file order |
| SdkWebpackConfig.WebpackConfigFor | scripts/hubs-sdk-webpack-config.js:4-61 | the plugin configuration copies name and version and has exactly the input's hook names, each listing its files' base names in order; `publicPath` is `/` + name; the output filename is always `[name].plugin.js`; `devtool` is `source-map` if and only if the mode is `production`, and `eval-source-map` otherwise; `mode` is passed through |
| SdkWebpackConfig.EntryMatchesHookNames | scripts/hubs-sdk-webpack-config.js:16-26 | a name is a key of `entry` if and only if some hook of the plugin configuration lists it |
| SdkWebpackConfig.EntryLastFileWins | scripts/hubs-sdk-webpack-config.js:19-22 | each key of `entry` holds the resolved path of the last file with that base name, in hook-then-file order |
| SdkWebpackConfig.SharedBaseNameExample | scripts/hubs-sdk-webpack-config.js:20-21 | `src/a/index.js` under one hook and `lib/index.jsx` under a later one: the entry `index` is the second file's path |
| AppConfig.FeatureFlags | server/HubsDevServer.js:31-38 | in `features`, every schema key keeps its place; the forced-off keys become `false` whatever their type; other keys become `true` if declared boolean and `null` otherwise |
| AppConfig.SdkFlagsMatchServer | scripts/HubsSDKDevServer.js:79-86 | the SDK server defaults the feature flags exactly as the plugin dev server does |
| AppConfig.LegacyFlagsDiffer | HubsDevServer.js:31-38 | the root server agrees with the plugin dev server on every key except `disable_room_creation`, which it defaults by the boolean rule instead of forcing it off |
| AppConfig.DefaultAppConfigShape | server/HubsDevServer.js:25-47 | every schema category becomes a key of `appConfig`, holding the defaulted flags for `features` and an empty object otherwise; `translations` holds the fixed English names, replacing any category of that name |
| AppConfig.DefaultAppConfig | server/HubsDevServer.js:25-47 | no contract of its own: the local `appConfig`; `AppConfig.DefaultAppConfigShape` states its shape |
| AppConfig.CreateDefaultConfig | server/HubsDevServer.js:25-59 | the local load fails exactly when the schema cannot be read, and otherwise yields the default app configuration and the local environment |
| AppConfig.RemoteRequests | server/HubsDevServer.js:63-79 | the remote strategy makes two requests to the credentials' host under `/api/`, both with the bearer token |
| AppConfig.Credentials | server/HubsDevServer.js:63 | `host` and `token` are read from the credentials; the destructuring throws exactly on `null`, and on an object reads the two keys |
| AppConfig.General | server/HubsDevServer.js:87 | `shortlink_domain` and `thumbnail_server` are read from the body's `general`, which throws exactly when `general` is `undefined` or `null` |
| AppConfig.LoadRemoteConfig | server/HubsDevServer.js:62-100 | unreadable credentials reject with their error; otherwise the first request goes to `/api/v1/app_configs` and the second to `/api/ita/configs/hubs` on the credentials' host; a non-ok first response fails with its status text; a non-ok second response with a JSON body fails with its status text; the load succeeds exactly when both responses are ok with JSON bodies and the second has a readable `general`; then the app configuration is the first body and the environment names the host, `shortlink_domain` and `thumbnail_server` as they print |
| AppConfig.FetchRemote | server/HubsDevServer.js:62-87 | no contract of its own: the two requests and the checks of `loadRemoteConfig`; `AppConfig.LoadRemoteConfig` states its outcomes |
| AppConfig.LoadConfig | server/HubsDevServer.js:229-236 | no contract of its own: the remote strategy when credentials exist, the local one otherwise; `AppConfig.SdkConfigMatchesServer` and `DevServer.LocalInit` state what it loads |
| AppConfig.FirstFailureIgnoresSecond | server/HubsDevServer.js:73-75 | a non-ok app-configs response decides the outcome whatever the hubs-configs request returns |
| AppConfig.SecondBodyParsedBeforeStatus | server/HubsDevServer.js:81-85 | a failing hubs-configs response whose body is not JSON is reported as an invalid body, because the body is parsed first |
| AppConfig.RemoteEnvFromInstance | server/HubsDevServer.js:62-100 | an instance answering both requests with JSON, whose `general` names a shortlink domain and a thumbnail server, yields its app configuration and an environment naming the host and both servers |
| AppConfig.EnvPointsAtLocalhost | server/HubsDevServer.js:49-57 | under either strategy, `HUBS_SERVER` is `localhost:<port>`, `CORS_PROXY_SERVER` is `localhost:<port>/cors-proxy`, `NON_CORS_PROXY_DOMAINS` is `localhost` and `IS_MOZ` is `false` |
| AppConfig.LocalEnvPointsAtLocalhost | scripts/HubsSDKDevServer.js:97-105 | the local environment has distinct keys and points at `localhost:<port>` |
| AppConfig.RemoteEnvPointsAtLocalhost | scripts/HubsSDKDevServer.js:137-145 | the remote environment has distinct keys and points at `localhost:<port>` |
| AppConfig.LegacyEnvFixedPort | HubsDevServer.js:89-97 | the root server loads the same configuration whatever port it is given, and its environment names port 8080 |
| AppConfig.SdkConfigMatchesServer | scripts/HubsSDKDevServer.js:60-148 | under either strategy, the SDK server loads exactly the configuration the plugin dev server loads |
| Registry.DefEntries | server/HubsDevServer.js:151-158 | one entry per definition, in order, each with URL `/<name>.plugin.js` and global `HubsPlugin_<name>` |
| Registry.BuildPlugins | server/HubsDevServer.js:144-162 | without plugin definitions the registry is empty; otherwise it has exactly the definition keys, in order, each holding one entry per definition |
| Registry.BuildPluginsEntries | server/HubsDevServer.js:148-162 | each hook key of the configuration reads back its entries, and each entry's URL and global derive from its plugin's name alone |
| Registry.PluginsJson | server/HubsDevServer.js:238 | no contract of its own: the registry as the JSON value assigned to `appConfig.plugins`; `DevServer.AttachPlugins` states where it goes |
| Registry.PluginEntriesLastWins | server/HubsDevServer.js:160 | a name is a bundler entry if and only if some definition carries it; the last such definition's resolved path wins; the entries have distinct names |
| Registry.RegisterPlugin | server/HubsDevServer.js:212-227 | one entry is appended to `plugins[key]`, the list being created when the key is new; `options` is kept if and only if it is truthy; every other key is unchanged; keys stay distinct |
| Registry.RegisterPluginCounts | server/HubsDevServer.js:212-227 | registering grows exactly one list by exactly one entry, and adds a key only when the key is new |
| Dict.Put | server/HubsDevServer.js:238 | assignment to a JavaScript object: the key reads back the value, every other key is unchanged, an existing key keeps its place and a new key is appended |
| Dict.PutAllLastWins | scripts/hubs-sdk-webpack-config.js:21 | after a run of assignments the last assignment to a key wins, and other keys keep their values |
| Ancestors.FindFileInAncestors | server/HubsDevServer.js:102-119 | the search (with the counter advancing) returns only a path that exists, in one of the first `maxDepth` directories on the way up |
| Ancestors.FindFileInAncestorsNone | server/HubsDevServer.js:102-119 | repaired (`depth++`): the search finds nothing if and only if none of the first `maxDepth` directories has the file |
| Ancestors.Probe | server/HubsDevServer.js:106-113 | the search with the counter advancing finds only an existing file, in one of the first `rounds` directories up |
| Ancestors.SearchAsWritten | server/HubsDevServer.js:102-119 | no contract of its own: the loop as written, bounded by fuel; `Ancestors.AsWrittenIsProbe` states what it computes |
| Ancestors.ProbeNearest | server/HubsDevServer.js:106-111 | the nearest directory that has the file wins |
| Ancestors.HubsConfigPath | server/HubsDevServer.js:123-127 | with the search repaired: a truthy `hubsConfigPath` option is used as given; otherwise the constructor fails exactly when none of the four nearest directories has `hubs.config.js` |
| Ancestors.HubsConfigPathAsWritten | server/HubsDevServer.js:102-127 | as written: a truthy option is used as given; otherwise the constructor never throws, and within the rounds run it finds `hubs.config.js` exactly when some directory on the way up, however far, has it |
| Ancestors.AsWrittenIsProbe | server/HubsDevServer.js:102-119 | once entered, the loop as written is the search with the counter advancing, run for every round allowed: the nearest directory with the file, or still running |
| Ancestors.AsWrittenSearchesBeyondBound | server/HubsDevServer.js:115 | with `hubs.config.js` only in the fifth directory up, the constructor as written finds it where the four-directory search throws |
| Ancestors.AsWrittenNeverGivesUp | server/HubsDevServer.js:106-116 | the loop as written never ends by its bound once entered: it either finds an existing file or is still running |
| Ancestors.AsWrittenMissingFileRunsOn | server/HubsDevServer.js:115 | from any start directory with no `hubs.config.js` in it or any ancestor, the loop as written is still running after any number of rounds, where the corrected search reports nothing |
| Pages.MetaTags | server/HubsDevServer.js:240-246 | one `env:` meta tag per environment key, in key order, with the key lower-cased |
| Pages.MetaTagRoundTrip | server/HubsDevServer.js:243 | a tag reads back as the lower-cased key and the value, for keys and values without a double quote |
| Pages.PageHeaderInjective | server/HubsDevServer.js:252-262 | two headers with the same meta block and script are equal if and only if their base-assets paths and titles are equal |
| Pages.PageHeaderEndsWithScript | server/HubsDevServer.js:252-262 | the `APP_CONFIG` script closes each header |
| Pages.RenderPage | server/HubsDevServer.js:305-310 | repaired: the header replaces the first placeholder only, taken literally; a template without the placeholder is served unchanged |
| Pages.RenderPageAt | server/HubsDevServer.js:308 | repaired: a template whose first placeholder follows `before` is served as `before`, the header, and the rest |
| Pages.RenderPageAgrees | server/HubsDevServer.js:308 | for a header without `$`, the handler as written renders the same page as the corrected one |
| Pages.RenderPageAsWritten | server/HubsDevServer.js:305-310 | no contract of its own: `html.replace` with `$` patterns expanded; `Pages.RenderPageAgrees` and `Pages.RenderPageAsWrittenDropsHeader` state what it renders |
| Pages.SubstitutionLiteral | server/HubsDevServer.js:308 | a replacement string without `$` is inserted literally |
| Pages.RenderPageAsWrittenDropsHeader | server/HubsDevServer.js:308 | a header holding `$&` puts the placeholder back in place of itself, so the page does not come out as intended |
| Pages.JsEscapeNoLessThan | server/HubsDevServer.js:248 | the escaped text holds no `<`, so it cannot close the script element |
| Pages.JsEscapeRoundTrip | server/HubsDevServer.js:248 | the escaped text, followed by a closing quote, reads back as the original text and ends just before that quote |
| Pages.AppConfigScript | server/HubsDevServer.js:248 | repaired: the script's literal closes where intended and hands `JSON.parse` exactly the JSON text of the app configuration, and the literal holds no `<` |
| Pages.LiteralSafeRoundTrip | server/HubsDevServer.js:248 | text without a backslash, single quote or line break, followed by a closing quote, reads back as itself |
| Pages.JsEscapeIdentity | server/HubsDevServer.js:248 | such text without a `<` is left unchanged by the escape |
| Pages.AppConfigScriptAsWrittenSafe | server/HubsDevServer.js:248 | when the JSON text has no backslash, single quote, line break or `<`, the script as written equals the repaired script, ends at its own end tag, and hands `JSON.parse` exactly that text |
| Pages.AppConfigScriptAsWritten | server/HubsDevServer.js:248 | no contract of its own: the script with the raw `JSON.stringify` text spliced in; the `Pages.AppConfigScriptAsWritten...` lemmas state what it delivers |
| Pages.EmbeddedText | server/HubsDevServer.js:248 | no contract of its own: what the browser hands `JSON.parse` from the script, nothing unless the element ends at the script's own end tag and the literal closes where intended; the script lemmas state its value |
| Pages.EndsAtOwnTag | server/HubsDevServer.js:248 | a script of the intended shape whose literal holds no `<` ends at its own end tag |
| Pages.AppConfigScriptAsWrittenCarries | server/HubsDevServer.js:248 | for JSON text with no backslash, single quote or line break, the script as written hands `JSON.parse` exactly that text if and only if the element ends at its own end tag, and nothing otherwise |
| Pages.AppConfigScriptAsWrittenRunsOn | server/HubsDevServer.js:248 | a configuration string `<!--<script>` followed by plain characters without `<` or `-` is safe for the literal, yet the tokenizer enters the double-escaped state and the element does not end at the script's own end tag, so `JSON.parse` gets nothing |
| Pages.AppConfigScriptAsWrittenKeepsTagText | server/HubsDevServer.js:248 | a configuration string of plain characters whose only `<` begins `</script`, at its end (so the closing `"` of the JSON string follows) or followed by a character that neither ends a tag name nor is a letter (such as `!`), does not end the element, and the script as written hands `JSON.parse` exactly its JSON text |
| Pages.AppConfigScriptAsWrittenClosedEarly | server/HubsDevServer.js:248 | a configuration string of plain characters whose first `<` begins `</script` (in any case) followed by a space, `/` or `>` (for instance `</script>`; the other tag-name ends are control characters, which `JSON.stringify` escapes) is safe for the literal, yet the tokenizer ends the script element at that tag, inside the literal, so `JSON.parse` gets nothing |
| Pages.AppConfigScriptAsWrittenEndsEarly | server/HubsDevServer.js:248 | a configuration string holding `'` ends the literal of the script as written early, so `JSON.parse` gets no JSON text |
| Pages.AppConfigScriptAsWrittenLosesEscape | server/HubsDevServer.js:248 | a configuration string holding `"` reaches `JSON.parse`, from the script as written, as text other than its JSON |
| HtmlScript.ScanPlain | server/HubsDevServer.js:248 | text without `<` leaves the tokenizer in the script data state |
| HtmlScript.ScanEndTag | server/HubsDevServer.js:248 | in the script data state, `</script` in any case followed by a tag-name end ends the element there |
| HtmlScript.ScanNotEndTag | server/HubsDevServer.js:248 | `</script` followed by a character that neither ends a tag name, nor is a letter, nor is `<` returns the tokenizer to the script data state without ending the element |
| HtmlScript.ScanDoubleEscapeOpen | server/HubsDevServer.js:248 | from the script data state, `<!--<script>` puts the tokenizer in the double-escaped state |
| HtmlScript.ScanDoubleEscapedClose | server/HubsDevServer.js:248 | in the double-escaped state, a closing `</script>` does not end the element |
| Proxy.Target | server/HubsDevServer.js:295 | the upstream URL is the path with its first `/cors-proxy/` removed, and the path itself when the prefix does not occur |
| Proxy.TargetCaseSensitive | server/HubsDevServer.js:275-295 | the route matches `/CORS-PROXY/...`, but only the exact spelling of the prefix is removed |
| Proxy.Handle | server/HubsDevServer.js:275-303 | the six CORS headers come first, in order, with distinct names, and the only other header is `Location`; it is set exactly when the request carries a non-empty one, to `https://localhost:<port>/cors-proxy/` + value; `OPTIONS` gets an empty answer, and any other method forwards itself to the target URL |
| Proxy.RedirectComesBack | server/HubsDevServer.js:286-295 | a rewritten `Location` is the dev server's origin, `/cors-proxy/` and the original location, and a request for that path is forwarded to the original location |
| Proxy.CorsHeadersFacts | scripts/HubsSDKDevServer.js:215-223 | the fixed CORS headers have distinct names and do not include `Location` |
| Proxy.LegacyLocationFixed | HubsDevServer.js:216-220 | the root server rewrites `Location` to `https://localhost:8080/cors-proxy/` whatever port it is given |
| Routes.HubHeaders | server/HubsDevServer.js:326-330 | the hub headers are exactly `hub-name` (the app name) and `hub-entity-type` (the page kind); `Routes.HubPage` sets them only when Node accepts both values (tab, U+0020 to U+007E, U+0080 to U+00FF) and answers 500 otherwise |
| Routes.SpokeRoute | server/HubsDevServer.js:312-323 | the spoke routes answer only `GET` or `HEAD` at or below `/spoke`, with the spoke index page or the named spoke file, and always answer a request below `/spoke/` that accepts HTML |
| Routes.HubsPage | server/HubsDevServer.js:326-340 | the named hubs pages are hubs pages; only the index, scene and avatar pages carry hub headers, naming the app name, and only outside the root server; a 500 comes only from an app name that is no valid header value |
| Routes.Route | server/HubsDevServer.js:275-346 | a request is proxied exactly when its path starts with `/cors-proxy/`; any other answer is to a `GET` or `HEAD`; a 500 comes only from an app name that is no valid header value, outside the root server; a page with headers names the app name |
| Routes.IndexPageHeaders | server/HubsDevServer.js:326-332 | `GET /` gets `index.html` with the `hub` headers when the app name is a valid header value and a 500 otherwise, such as for a name with a character above U+00FF; the root server serves it without hub headers |
| Routes.OnlyGetAndHeadAnswered | server/HubsDevServer.js:275-346 | apart from the proxy, which takes every method, a request that is neither `GET` nor `HEAD` is answered by no route |
| Routes.SpokeFallthrough | scripts/HubsSDKDevServer.js:251-262 | below `/spoke/`, a request gets the spoke page or a spoke file exactly when it is a `GET` or `HEAD` that accepts HTML, names the index, or names an existing file; any other request falls through to the hubs routes |
| Routes.RoomRouteExamples | scripts/HubsSDKDevServer.js:283-285 | `/abc1234` is a room code and `/abc123` is not; `/abcdefgh` matches the plugin dev server's second room route but not the SDK server's; `/abc1234/x` matches both |
| Routes.RoomRoutesOverlap | server/HubsDevServer.js:345-346 | in the plugin dev server every room code also matches the second route; in the SDK server the two routes never overlap, and its second route is narrower than the plugin dev server's |
| Routes.RoomCodeRouted | server/HubsDevServer.js:343-346 | a room-code path that no earlier route or static file takes gets `hub.html` with the `room` hub headers when the app name is a valid header value, and a 500 otherwise |
| Routes.FallsToRoomRoutes | server/HubsDevServer.js:341-346 | a `GET` or `HEAD` request that no earlier route or static file takes is answered by the room routes exactly when one of them matches, with the room page when the app name is a valid header value and a 500 otherwise, and is otherwise not handled |
| Routes.RoomCodeScenario | server/HubsDevServer.js:345 | with no static file in the way, `GET /abc1234` is a room page, or a 500 when the app name is no valid header value |
| Routes.ShortCodeNotHandled | scripts/HubsSDKDevServer.js:284-285 | `GET /abc123` is answered by no route of the plugin or SDK server |
| Routes.DiscordShadowsRoom | server/HubsDevServer.js:337 | `/discord` is also a room code, but the discord page is registered first and takes it |
| Routes.LegacyCatchAll | HubsDevServer.js:255-272 | the root server leaves a request unhandled exactly when it is not for the proxy, no spoke route, named page or static file takes it, and it is not a `GET` or `HEAD` accepting HTML; no page it serves carries hub headers |
| DevServer.AttachPlugins | server/HubsDevServer.js:238 | the plugin dev server puts the registry under `plugins`, the SDK server puts `["/plugin-manifest.json"]` under `pluginManifests`, and the root server attaches nothing; every other key is unchanged; a `null` or primitive configuration makes `init` throw |
| DevServer.Init | server/HubsDevServer.js:229-262 | `init` rejects with the load's error, then with the plugin assignment's; otherwise it builds the headers from the loaded configuration with the plugins attached |
| DevServer.EnglishNames | server/HubsDevServer.js:250 | with the local translations the names are `Spoke` and `Hubs`; without `translations` the read of `en` throws, and on a non-object configuration the first read that meets `undefined` or `null` throws |
| DevServer.BuildHeaders | server/HubsDevServer.js:240-262 | both headers share the meta block and the build's `APP_CONFIG` script (as written, the raw `JSON.stringify` splice); the hubs header has base path `https://localhost:<port>/` and the app name as title; the spoke header has `.../spoke/` and the editor name; the hub name is the app name; it fails exactly when the names cannot be read |
| DevServer.LocalInit | server/HubsDevServer.js:232-262 | in either build, with the local strategy `init` always succeeds: the hub name is `Hubs`, the spoke page is titled `Spoke` and ends with the build's script, and the environment is the local one |
| DevServer.MissingTranslationsRejected | server/HubsDevServer.js:250 | an object app configuration without `translations` makes `init` reject on reading `en` |
| DevServer.NonObjectConfigRejected | server/HubsDevServer.js:238-250 | a non-object app configuration is rejected by the plugin assignment, or by the read of `translations` or `en` |
| DevServer.LocalMetaTagsRoundTrip | server/HubsDevServer.js:240-246 | with the local strategy every `env:` meta tag reads back as its lower-cased key and its value |
| DevServer.ServePage | server/HubsDevServer.js:305-310 | a page is produced exactly for page outcomes, and a template without the placeholder is served unchanged; the repaired build puts the header literally in place of the first placeholder |
| DevServer.ServePageBuildsAgree | server/HubsDevServer.js:308 | for a header without `$`, the page handler as written serves the same page as the repaired one |
| DevServer.ServedPageCarriesConfig | server/HubsDevServer.js:229-310 | as written: after a successful `init`, a page whose header has no `$`, for a configuration whose JSON text has no backslash, single quote, line break or `<`, has the header, ending with the raw script, in place of its placeholder, and that script hands `JSON.parse` exactly the JSON text |
| DevServer.RepairedPageCarriesConfig | server/HubsDevServer.js:229-310 | repaired: after a successful `init`, every served page has the header, ending with the escaped script, in place of its placeholder, and that script hands `JSON.parse` exactly the configuration's JSON text |
| Text.ReplaceFirst | server/HubsDevServer.js:308 | `replace` with a string pattern changes the leftmost occurrence only, and leaves a string without one unchanged |
| Json.Stringify | server/HubsDevServer.js:248 | no contract of its own: `JSON.stringify`; `Json.StringifyPrintable` states a property of it |
| Json.StringifyPrintable | server/HubsDevServer.js:248 | `JSON.stringify` escapes every control character, so its text never holds a raw line break, whatever the value |
| Text.NatToStringRoundTrip | server/HubsDevServer.js:50 | the decimal rendering of the port is made of digits only and reads back as the port |

## Left out

- Reading files and parsing TOML or JSON are left out: the parsed schema, the parsed credentials and each response's parsed body are inputs, with `None` when the read or parse fails.
- The network is left out: `fetch` is an input function from request to response, a response is its `ok`, `statusText` and body, and the proxy's forwarded request is named by `Proxy.Forward`. Streaming the answer and the proxy's error logging are plumbing.
- `createHTTPSConfig`, certificate generation and `listen` are left out: they are file-system I/O and a foreign crypto library.
- The `cors()` middleware answers `OPTIONS` itself before any route sees it. Express's middleware chain is not modelled, so `Proxy.Handle` models only the route's own handler. The `Date` header added to `HEAD` responses is the wall clock.
- Express matches strings with its own path-to-regexp compiler. The model writes out the matching of the routes used (case-insensitive, optional trailing slash, prefix for `*`) and does not model the compiler itself. Query strings and percent-decoding are outside the model.
- `serve-static` is the predicate `isStatic`; its own rules (dot-files, directory redirects) are not modelled.
- JavaScript places integer-like keys first when it orders an object's keys. The model keeps plain insertion order, and no key the toolchain builds is integer-like.
- Case mapping covers ASCII letters only.
- `Json` numbers are integers; floating-point values are not modelled.
- `path.parse` is modelled as the last segment up to its last dot, with a leading dot and the segment `..` kept whole. Windows separators and trailing slashes are not covered.
- The constructor's `Object.assign` of options (port default 8081, cache and client paths) is not modelled: the port is a parameter. `hubsPath` and `spokePath` are assumed set, so their routes are always registered.
- `registerPlugin`'s `type` and `url` are taken as strings. The JavaScript function accepts any value.
- `Pages.EscapeValue`: octal escapes, line continuations, `\u{...}` and lone surrogates give no value; the JSON text never contains them after escaping.
- `Pages.MetaTagRoundTrip` holds only for keys and values without a double quote. The meta tags splice values unescaped, as written, and a remote host value with `"` would break its tag. This is recorded, not corrected.
- The SDK server reads the hub name at request time (scripts/HubsSDKDevServer.js:266), while the plugin dev server reads it from `this.config`. Both read the same configuration after `init`, so both are modelled by the hub name `init` computes.
- Routes.HubHeaders: `res.header` given an array value is not modelled; the hub name is the app name as it prints. Of Node's header validation only the character check is modelled (`Routes.HeaderValue`); a value Node refuses gives `ServerError`, standing for Express's default 500 answer.
- The command-line tool (scripts/hubs-sdk.js), the React page (pages/index.js) and the root webpack.config.js are not part of this model. They are wiring, UI and a call to a `registerPlugin` that the root server does not define.
- The webpack `module.rules` and `output.path` of scripts/hubs-sdk-webpack-config.js are not modelled. They are loader configuration and a resolved file path. That file requires `./HubsSDKWebpackPlugin`, which is not part of this model. `Manifest` (webpack/HubsWebpackPlugin.js) stands in for it, and that the two match is not established.
- `Ancestors.SearchAsWritten` bounds the loop as written by `fuel`, and `Ancestors.HubsConfigPathAsWritten` passes that bound on, because the loop does not terminate when the file is absent. The fuel bound leaves out only the non-terminating run itself, which `Ancestors.AsWrittenMissingFileRunsOn` exhibits for every fuel.
- Ancestors.HubsConfigPath models the constructor with the search repaired (`depth++`), not as written: its four-directory bound and its throw are what the code intends. The code as written is `Ancestors.HubsConfigPathAsWritten`.
- DevServer.ServedPageCarriesConfig promises that the page carries the configuration, for the code as written, only when the header has no `$` and the JSON text has no backslash, single quote, line break or `<`. JSON text with a `<` that neither ends the element nor opens an escape is carried too (`Pages.AppConfigScriptAsWrittenKeepsTagText`), but the exact condition is not stated.
- Pages.AppConfigScriptAsWrittenSafe likewise promises nothing for JSON text holding `<`; `Pages.AppConfigScriptAsWrittenCarries` states the general case in terms of where the tokenizer ends the element.
- Registry.RegisterPlugin: keys that `this.plugins` inherits from `Object.prototype` are not modelled. For `constructor`, `toString` or `hasOwnProperty`, the source finds the inherited function, skips creating the list and throws at `.push`, where the model appends a new key. For `__proto__` the source replaces the object's prototype.
- Dict.Put models a plain own-property assignment. Inherited keys and the `__proto__` setter of JavaScript objects are not modelled.
- `HtmlScript` models the script-data states of the tokenizer from the character after `<script>` on. The NULL character, the end of the file, the preprocessing of CR LF pairs and the position of the script in the whole page are not modelled; a script whose element does not end within it (`None`) stands for an element that runs on past the script.
- DevServer.RepairedPageCarriesConfig promises an intact configuration for every page, but only of the repaired build, not of the code as written.

## Findings

| source | as written | input that shows it | evidently intended | confidence | as-written member | corrected member |
|---|---|---|---|---|---|---|
| server/HubsDevServer.js:115 | each round that misses increments `maxDepth` instead of `depth`, so the loop's bound never stops it | no `hubs.config.js` in the working directory or any ancestor, and no `hubsConfigPath` option: the search keeps calling `path.dirname` on `/` forever instead of returning `null` | `depth++`: probe the start directory and its three nearest ancestors, then return `null` so the constructor throws "Couldn't find hubs.config.js" | high, not executed | Ancestors.AsWrittenMissingFileRunsOn, Ancestors.AsWrittenSearchesBeyondBound | Ancestors.FindFileInAncestorsNone, Ancestors.HubsConfigPath |
| server/HubsDevServer.js:248 | the `JSON.stringify` text is spliced unescaped into a single-quoted JavaScript literal | an app configuration holding the string `'` (the literal ends early and `JSON.parse` is not handed the JSON), or the string `"` (its escape `\"` is consumed by the literal and `JSON.parse` receives `"""`), or the string `</script>` (the HTML parser ends the script element inside the literal and `JSON.parse` never runs), or the string `<!--<script>` (the tokenizer enters the double-escaped state and the element does not end at its own end tag) | the text escaped for a single-quoted literal inside a script element, so that `JSON.parse` receives exactly the JSON text | high, not executed | Pages.AppConfigScriptAsWrittenEndsEarly, Pages.AppConfigScriptAsWrittenClosedEarly, Pages.AppConfigScriptAsWrittenRunsOn | Pages.AppConfigScript, DevServer.RepairedPageCarriesConfig |
| server/HubsDevServer.js:308 | `html.replace(placeholder, header)` interprets `$` patterns in the header | a header holding `$&`, which a configuration string holding those two characters is enough for: the placeholder comment is put back in place of that part of the header | the header inserted literally, as with a replacement function | medium, not executed | Pages.RenderPageAsWrittenDropsHeader | Pages.RenderPage, DevServer.RepairedPageCarriesConfig |

=== FILE: ancestors.dfy ===
/**
  `findFileInAncestors` of server/HubsDevServer.js and the constructor's use of it to locate
  hubs.config.js. The file system is the predicate `isFile` (`fs.existsSync`); `path.join` and `path.dirname`
  are the functions `join` and `dirname`.
 */
module Ancestors {
  import opened Wrappers

  const ConfigFileName: string := "hubs.config.js"

  /** The default bound: the start directory and its three nearest ancestors. */
  const DefaultMaxDepth: int := 4

  /** `dirname` applied `k` times. */
  function Ancestor(dir: string, k: nat, dirname: string -> string): string
    decreases k
  {
    if k == 0 then dir else Ancestor(dirname(dir), k - 1, dirname)
  }

  /** How a search ends when it can run only `fuel` more rounds. */
  datatype Search = Found(path: string) | NotFound | OutOfFuel

  /**
    The loop as written: every round that misses raises the bound `maxDepth` instead of the
    counter `depth`, so the bound never ends the loop once it has started. `fuel` bounds the
    number of rounds.
   */
  function SearchAsWritten(dir: string, fileName: string, depth: int, maxDepth: int, fuel: nat,
                           dirname: string -> string, join: (string, string) -> string, isFile: string -> bool): Search
    decreases fuel
  {
    if depth >= maxDepth then NotFound
    else if isFile(join(dir, fileName)) then Found(join(dir, fileName))
    else if fuel == 0 then OutOfFuel
    else SearchAsWritten(dirname(dir), fileName, depth, maxDepth + 1, fuel - 1, dirname, join, isFile)
  }

  /** Once the loop is entered, the loop as written never gives up, however many rounds it runs. */
  lemma {:induction false} AsWrittenNeverGivesUp(dir: string, fileName: string, depth: int, maxDepth: int, fuel: nat,
                                                 dirname: string -> string, join: (string, string) -> string, isFile: string -> bool)
    requires depth < maxDepth
    ensures SearchAsWritten(dir, fileName, depth, maxDepth, fuel, dirname, join, isFile) != NotFound
    ensures SearchAsWritten(dir, fileName, depth, maxDepth, fuel, dirname, join, isFile).Found? ==>
              isFile(SearchAsWritten(dir, fileName, depth, maxDepth, fuel, dirname, join, isFile).path)
    decreases fuel
  {
    if !isFile(join(dir, fileName)) && fuel > 0 {
      AsWrittenNeverGivesUp(dirname(dir), fileName, depth, maxDepth + 1, fuel - 1, dirname, join, isFile);
    }
  }

  /**
    Once the loop is entered, the loop as written is the search with the counter advancing run
    for every round the fuel allows, whatever the bound: it finds the nearest directory that
    has the file, and otherwise is still running.
   */
  lemma {:induction false} AsWrittenIsProbe(dir: string, fileName: string, depth: int, maxDepth: int, fuel: nat,
                                             dirname: string -> string, join: (string, string) -> string, isFile: string -> bool)
    requires depth < maxDepth
    ensures var p := Probe(dir, fileName, fuel + 1, dirname, join, isFile);
            SearchAsWritten(dir, fileName, depth, maxDepth, fuel, dirname, join, isFile) ==
              if p.Some? then Found(p.value) else OutOfFuel
    decreases fuel
  {
    if !isFile(join(dir, fileName)) && fuel > 0 {
      AsWrittenIsProbe(dirname(dir), fileName, depth, maxDepth + 1, fuel - 1, dirname, join, isFile);
    }
  }

  /**
    With the file in no directory on the way up from any start directory, and the default
    bound, the loop as written is still running after any number of rounds, where four rounds
    should have given up.
   */
  lemma AsWrittenMissingFileRunsOn(dir: string, fuel: nat, dirname: string -> string, join: (string, string) -> string,
                                   isFile: string -> bool)
    requires forall k: nat :: !isFile(join(Ancestor(dir, k, dirname), ConfigFileName))
    ensures SearchAsWritten(dir, ConfigFileName, 0, DefaultMaxDepth, fuel, dirname, join, isFile) == OutOfFuel
    ensures FindFileInAncestors(dir, ConfigFileName, DefaultMaxDepth, dirname, join, isFile) == None
  {
    AsWrittenIsProbe(dir, ConfigFileName, 0, DefaultMaxDepth, fuel, dirname, join, isFile);
    ProbeNone(dir, ConfigFileName, fuel + 1, dirname, join, isFile);
    ProbeNone(dir, ConfigFileName, DefaultMaxDepth, dirname, join, isFile);
  }

  /**
    The remaining `rounds` of the loop with the counter advancing, starting at `dir`: the first
    probe that hits.
   */
  function Probe(dir: string, fileName: string, rounds: int,
                 dirname: string -> string, join: (string, string) -> string, isFile: string -> bool): (r: Option<string>)
    ensures r.Some? ==> isFile(r.value)
    ensures r.Some? ==> exists k: nat :: k < rounds && r.value == join(Ancestor(dir, k, dirname), fileName)
    decreases rounds
  {
    if rounds <= 0 then None
    else if isFile(join(dir, fileName)) then
      assert Ancestor(dir, 0, dirname) == dir;
      Some(join(dir, fileName))
    else
      var r := Probe(dirname(dir), fileName, rounds - 1, dirname, join, isFile);
      if r.Some? then
        var k: nat :| k < rounds - 1 && r.value == join(Ancestor(dirname(dir), k, dirname), fileName);
        assert Ancestor(dir, k + 1, dirname) == Ancestor(dirname(dir), k, dirname);
        r
      else r
  }

  /**
    `findFileInAncestors(rootDir, fileName, maxDepth)` with the counter advancing: the file in
    the nearest of the first `maxDepth` directories on the way up that has it, if any.
   */
  function FindFileInAncestors(rootDir: string, fileName: string, maxDepth: int,
                               dirname: string -> string, join: (string, string) -> string, isFile: string -> bool): (r: Option<string>)
    ensures r.Some? ==> isFile(r.value)
    ensures r.Some? ==> exists k: nat :: k < maxDepth && r.value == join(Ancestor(rootDir, k, dirname), fileName)
  {
    Probe(rootDir, fileName, maxDepth, dirname, join, isFile)
  }

  /** The search finds nothing only when none of the first `rounds` directories has the file. */
  lemma {:induction false} ProbeNone(dir: string, fileName: string, rounds: int,
                                     dirname: string -> string, join: (string, string) -> string, isFile: string -> bool)
    ensures Probe(dir, fileName, rounds, dirname, join, isFile).None? <==>
            forall k: nat :: k < rounds ==> !isFile(join(Ancestor(dir, k, dirname), fileName))
    decreases rounds
  {
    if rounds > 0 {
      assert Ancestor(dir, 0, dirname) == dir;
      if !isFile(join(dir, fileName)) {
        ProbeNone(dirname(dir), fileName, rounds - 1, dirname, join, isFile);
        var r := Probe(dirname(dir), fileName, rounds - 1, dirname, join, isFile);
        assert Probe(dir, fileName, rounds, dirname, join, isFile) == r;
        if r.None? {
          forall k: nat | k < rounds ensures !isFile(join(Ancestor(dir, k, dirname), fileName)) {
            if k > 0 {
              assert Ancestor(dir, k, dirname) == Ancestor(dirname(dir), k - 1, dirname);
              assert !isFile(join(Ancestor(dirname(dir), k - 1, dirname), fileName));
            }
          }
        } else {
          var j: nat :| j < rounds - 1 && isFile(join(Ancestor(dirname(dir), j, dirname), fileName));
          assert Ancestor(dir, j + 1, dirname) == Ancestor(dirname(dir), j, dirname);
        }
      }
    }
  }

  lemma FindFileInAncestorsNone(rootDir: string, fileName: string, maxDepth: int,
                                dirname: string -> string, join: (string, string) -> string, isFile: string -> bool)
    ensures FindFileInAncestors(rootDir, fileName, maxDepth, dirname, join, isFile).None? <==>
            forall k: nat :: k < maxDepth ==> !isFile(join(Ancestor(rootDir, k, dirname), fileName))
  {
    ProbeNone(rootDir, fileName, maxDepth, dirname, join, isFile);
  }

  /** The nearest directory wins: the search stops at the first of the directories that has the file. */
  lemma {:induction false} ProbeNearest(dir: string, fileName: string, rounds: int,
                                        dirname: string -> string, join: (string, string) -> string, isFile: string -> bool,
                                        k: nat)
    requires k < rounds && isFile(join(Ancestor(dir, k, dirname), fileName))
    requires forall j: nat :: j < k ==> !isFile(join(Ancestor(dir, j, dirname), fileName))
    ensures Probe(dir, fileName, rounds, dirname, join, isFile) == Some(join(Ancestor(dir, k, dirname), fileName))
    decreases rounds
  {
    assert Ancestor(dir, 0, dirname) == dir;
    if k > 0 {
      assert !isFile(join(Ancestor(dir, 0, dirname), fileName));
      assert Ancestor(dir, k, dirname) == Ancestor(dirname(dir), k - 1, dirname);
      forall j: nat | j < k - 1 ensures !isFile(join(Ancestor(dirname(dir), j, dirname), fileName)) {
        assert Ancestor(dir, j + 1, dirname) == Ancestor(dirname(dir), j, dirname);
      }
      ProbeNearest(dirname(dir), fileName, rounds - 1, dirname, join, isFile, k - 1);
    }
  }

  /**
    The constructor's `hubs.config.js`: the `hubsConfigPath` option when it is truthy,
    otherwise the search from the working directory; failing both, the constructor throws.
   */
  function HubsConfigPath(option: Option<string>, cwd: string,
                          dirname: string -> string, join: (string, string) -> string, isFile: string -> bool): (r: Result<string, string>)
    ensures option.Some? && option.value != "" ==> r == Success(option.value)
    ensures (option.None? || option.value == "") ==>
              (r.Failure? <==> forall k: nat :: k < DefaultMaxDepth ==> !isFile(join(Ancestor(cwd, k, dirname), ConfigFileName)))
  {
    FindFileInAncestorsNone(cwd, ConfigFileName, DefaultMaxDepth, dirname, join, isFile);
    if option.Some? && option.value != "" then Success(option.value)
    else match FindFileInAncestors(cwd, ConfigFileName, DefaultMaxDepth, dirname, join, isFile)
      case Some(path) => Success(path)
      case None => Failure("Couldn't find hubs.config.js")
  }

  /**
    The constructor as written: the `hubsConfigPath` option when it is truthy, otherwise the
    loop as written from the working directory, run for at most `fuel` rounds. `NotFound`
    would be the constructor's throw, which the loop as written never reaches: it finds the
    file in the nearest directory on the way up that has it, however far up, or is still
    running.
   */
  function HubsConfigPathAsWritten(option: Option<string>, cwd: string, fuel: nat,
                                   dirname: string -> string, join: (string, string) -> string, isFile: string -> bool): (r: Search)
    ensures option.Some? && option.value != "" ==> r == Found(option.value)
    ensures r != NotFound
    ensures (option.None? || option.value == "") ==>
              (r.Found? <==> exists k: nat :: k <= fuel && isFile(join(Ancestor(cwd, k, dirname), ConfigFileName)))
    ensures (option.None? || option.value == "") && r.Found? ==> isFile(r.path)
  {
    if option.Some? && option.value != "" then Found(option.value)
    else
      AsWrittenIsProbe(cwd, ConfigFileName, 0, DefaultMaxDepth, fuel, dirname, join, isFile);
      ProbeNone(cwd, ConfigFileName, fuel + 1, dirname, join, isFile);
      SearchAsWritten(cwd, ConfigFileName, 0, DefaultMaxDepth, fuel, dirname, join, isFile)
  }

  /**
    A hubs.config.js only in the fifth directory on the way up: the constructor as written
    finds it, where the four-directory search it was meant to be throws.
   */
  lemma AsWrittenSearchesBeyondBound(cwd: string, dirname: string -> string, join: (string, string) -> string, isFile: string -> bool)
    requires forall k: nat :: k < DefaultMaxDepth ==> !isFile(join(Ancestor(cwd, k, dirname), ConfigFileName))
    requires isFile(join(Ancestor(cwd, DefaultMaxDepth, dirname), ConfigFileName))
    ensures HubsConfigPathAsWritten(None, cwd, DefaultMaxDepth, dirname, join, isFile) ==
            Found(join(Ancestor(cwd, DefaultMaxDepth, dirname), ConfigFileName))
    ensures HubsConfigPath(None, cwd, dirname, join, isFile).Failure?
  {
    AsWrittenIsProbe(cwd, ConfigFileName, 0, DefaultMaxDepth, DefaultMaxDepth, dirname, join, isFile);
    ProbeNearest(cwd, ConfigFileName, DefaultMaxDepth + 1, dirname, join, isFile, DefaultMaxDepth);
  }
}

=== FILE: app_config.dfy ===
/**
  `createDefaultConfig` and `loadRemoteConfig`, which the three dev servers share almost word
  for word: the application configuration and environment descriptor, built either from the
  parsed schema.toml (local strategy) or from a Hubs Cloud instance (remote strategy).
  Reading files, parsing TOML and fetching are inputs: the parsed schema (absent when it could
  not be read or parsed), the parsed credentials, and `fetch`, which gives each request's
  response as its `ok`, `statusText` and parsed body (absent when the body is not JSON).
 */
module AppConfig {
  import opened Wrappers
  import opened Text
  import opened Dict
  import opened Json

  /**
    The three dev servers: server/HubsDevServer.js (`Server`), scripts/HubsSDKDevServer.js
    (`Sdk`) and the older HubsDevServer.js at the repository root (`Legacy`).
   */
  datatype Variant = Server | Sdk | Legacy

  /** One key of a schema category; `typ` is its declared `type` when that is a string. */
  datatype FieldSchema = FieldSchema(typ: Option<string>)

  type Category = Dict<FieldSchema>

  /** The parsed schema.toml: category name to its keys. */
  type Schema = Dict<Category>

  /** Why `init` rejects. */
  datatype InitError =
    | SchemaUnavailable            // schema.toml unreadable or not valid TOML
    | CredentialsUnavailable       // the credentials file unreadable or not JSON
    | FetchFailed(statusText: string)
    | InvalidBody                  // a response body that is not JSON
    | TypeError(property: string)  // a property read from undefined or null

  datatype Response = Response(ok: bool, statusText: string, body: Option<Json>)

  /** Where the configuration comes from: the credentials file exists or it does not. */
  datatype Source =
    | Local(schema: Option<Schema>)
    | Remote(credentials: Option<Json>, fetch: Request -> Response)

  datatype Loaded = Loaded(appConfig: Json, env: Dict<string>)

  /** The feature keys a variant turns off whatever their type. */
  function ForcedOff(v: Variant): set<string> {
    if v == Legacy then {"require_account_for_join"} else {"require_account_for_join", "disable_room_creation"}
  }

  /**
    The `features` category: every schema key keeps its place; the forced-off keys become
    `false`, other keys declared boolean become `true`, and the rest `null`.
   */
  function FeatureFlags(v: Variant, category: Category): (flags: Dict<Json>)
    ensures Keys(flags) == Keys(category)
    ensures forall i :: 0 <= i < |flags| && flags[i].0 in ForcedOff(v) ==> flags[i].1 == JBool(false)
    ensures forall i :: 0 <= i < |flags| && flags[i].0 !in ForcedOff(v) ==>
              flags[i].1 == (if category[i].1.typ == Some("boolean") then JBool(true) else JNull)
  {
    seq(|category|, i requires 0 <= i < |category| =>
      var key := category[i].0;
      if key == "require_account_for_join" || (v != Legacy && key == "disable_room_creation") then (key, JBool(false))
      else (key, if category[i].1.typ == Some("boolean") then JBool(true) else JNull))
  }

  /** The SDK server defaults feature flags exactly as the plugin dev server does. */
  lemma SdkFlagsMatchServer(category: Category)
    ensures FeatureFlags(Sdk, category) == FeatureFlags(Server, category)
  {
  }

  /**
    The root server forces only `require_account_for_join` off: its flags agree with the
    plugin dev server's everywhere except at `disable_room_creation`, which it defaults like any
    other key instead of turning off.
   */
  lemma LegacyFlagsDiffer(category: Category)
    ensures |FeatureFlags(Legacy, category)| == |FeatureFlags(Server, category)|
    ensures forall i :: 0 <= i < |category| ==>
              (FeatureFlags(Legacy, category)[i].1 != FeatureFlags(Server, category)[i].1 <==>
               category[i].0 == "disable_room_creation")
    ensures forall i :: 0 <= i < |category| && category[i].0 == "disable_room_creation" ==>
              FeatureFlags(Legacy, category)[i].1 == (if category[i].1.typ == Some("boolean") then JBool(true) else JNull)
  {
  }

  /** The fixed English translations of the local strategy. */
  const Translations: Json :=
    JObject([("en", JObject([("app-name", JString("Hubs")), ("editor-name", JString("Spoke"))]))])

  function CategoryConfig(v: Variant, name: string, category: Category): Json {
    if name == "features" then JObject(FeatureFlags(v, category)) else JObject([])
  }

  /** `appConfig` of the local strategy: one object per schema category, then the translations. */
  function DefaultAppConfig(v: Variant, schema: Schema): Dict<Json> {
    var categories := seq(|schema|, i requires 0 <= i < |schema| => (schema[i].0, CategoryConfig(v, schema[i].0, schema[i].1)));
    Put(categories, "translations", Translations)
  }

  /**
    Every schema category is a key of the local `appConfig`, holding the defaulted flags for
    `features` and an empty object otherwise; `translations` comes last with the fixed English
    strings, replacing a schema category of that name.
   */
  lemma DefaultAppConfigShape(v: Variant, schema: Schema)
    requires Distinct(schema)
    ensures Distinct(DefaultAppConfig(v, schema))
    ensures Get(DefaultAppConfig(v, schema), "translations") == Some(Translations)
    ensures forall i :: 0 <= i < |schema| && schema[i].0 != "translations" ==>
              Get(DefaultAppConfig(v, schema), schema[i].0) == Some(CategoryConfig(v, schema[i].0, schema[i].1))
    ensures Keys(DefaultAppConfig(v, schema)) ==
              if "translations" in Keys(schema) then Keys(schema) else Keys(schema) + ["translations"]
  {
    var categories := seq(|schema|, i requires 0 <= i < |schema| => (schema[i].0, CategoryConfig(v, schema[i].0, schema[i].1)));
    assert Keys(categories) == Keys(schema);
    assert Distinct(categories);
    forall i | 0 <= i < |schema| && schema[i].0 != "translations"
      ensures Get(DefaultAppConfig(v, schema), schema[i].0) == Some(CategoryConfig(v, schema[i].0, schema[i].1))
    {
      GetAt(categories, i);
    }
  }

  /** The text of the port inside a URL: the root server always says 8080. */
  function PortText(v: Variant, port: nat): string {
    if v == Legacy then "8080" else NatToString(port)
  }

  /** `env` of the local strategy. */
  function LocalEnv(v: Variant, port: nat): Dict<string> {
    [("HUBS_SERVER", "localhost:" + PortText(v, port)),
     ("RETICULUM_SERVER", "dev.reticulum.io"),
     ("SHORTLINK_DOMAIN", "hubs.link"),
     ("CORS_PROXY_SERVER", "localhost:" + PortText(v, port) + "/cors-proxy"),
     ("THUMBNAIL_SERVER", "nearspark-dev.reticulum.io"),
     ("NON_CORS_PROXY_DOMAINS", "localhost"),
     ("IS_MOZ", "false")]
  }

  /** `env` of the remote strategy; the remote values are given as they print. */
  function RemoteEnv(v: Variant, port: nat, host: string, shortlinkDomain: string, thumbnailServer: string): Dict<string> {
    [("HUBS_SERVER", "localhost:" + PortText(v, port)),
     ("IS_MOZ", "false"),
     ("RETICULUM_SERVER", host),
     ("SHORTLINK_DOMAIN", shortlinkDomain),
     ("CORS_PROXY_SERVER", "localhost:" + PortText(v, port) + "/cors-proxy"),
     ("THUMBNAIL_SERVER", thumbnailServer),
     ("NON_CORS_PROXY_DOMAINS", "localhost")]
  }

  /** A property read whose TypeError becomes an `init` rejection. */
  function Read(v: Value, key: string): (r: Result<Value, InitError>)
    ensures r.Failure? <==> Property(v, key).Failure?
    ensures r.Success? ==> r.value == Property(v, key).value
  {
    match Property(v, key)
    case Success(x) => Success(x)
    case Failure(k) => Failure(TypeError(k))
  }

  /** `createDefaultConfig`. */
  function CreateDefaultConfig(v: Variant, schema: Option<Schema>, port: nat): (r: Result<Loaded, InitError>)
    ensures r.Failure? <==> schema.None?
    ensures r.Success? ==> r.value == Loaded(JObject(DefaultAppConfig(v, schema.value)), LocalEnv(v, port))
  {
    match schema
    case None => Failure(SchemaUnavailable)
    case Some(s) => Success(Loaded(JObject(DefaultAppConfig(v, s)), LocalEnv(v, port)))
  }

  /** A request of the remote strategy: its URL and `Authorization` header. */
  datatype Request = Request(url: string, authorization: string)

  /** The two requests of the remote strategy, to the credentials' host with its bearer token. */
  function RemoteRequests(host: Value, token: Value): (rs: seq<Request>)
    ensures |rs| == 2
    ensures rs[0].authorization == rs[1].authorization == "Bearer " + TemplateString(token)
    ensures StartsWith(rs[0].url, "https://" + TemplateString(host) + "/api/")
    ensures StartsWith(rs[1].url, "https://" + TemplateString(host) + "/api/")
  {
    var base := "https://" + TemplateString(host);
    [Request(base + "/api/v1/app_configs", "Bearer " + TemplateString(token)),
     Request(base + "/api/ita/configs/hubs", "Bearer " + TemplateString(token))]
  }

  /** What the remote strategy takes from the instance, as the values print. */
  datatype RemoteSettings = RemoteSettings(appConfig: Json, host: string, shortlinkDomain: string, thumbnailServer: string)

  /** `host` and `token` of the credentials, read by one destructuring that throws on `null`. */
  function Credentials(credentials: Option<Json>): (r: Result<(Value, Value), InitError>)
    ensures credentials.None? ==> r == Failure(CredentialsUnavailable)
    ensures credentials.Some? ==> (r.Failure? <==> credentials.value.JNull?)
    ensures r.Success? ==>
              r.value == (Property(credentials, "host").value, Property(credentials, "token").value) &&
              (credentials.value.JObject? ==> r.value == (Get(credentials.value.fields, "host"), Get(credentials.value.fields, "token")))
  {
    if credentials.None? then Failure(CredentialsUnavailable)
    else
      var host :- Read(credentials, "host");
      // `token` is read by the same destructuring; it fails exactly when `host` does
      Success((host, Property(credentials, "token").value))
  }

  /**
    `shortlink_domain` and `thumbnail_server` of the hubs-configs body's `general`: the
    destructuring throws when `general` is `undefined` or `null`.
   */
  function General(body: Value): (r: Result<(Value, Value), InitError>)
    ensures r.Success? <==>
              Property(body, "general").Success? && Property(body, "general").value.Some? &&
              !Property(body, "general").value.value.JNull?
    ensures r.Success? ==>
              var general := Property(body, "general").value;
              r.value == (Property(general, "shortlink_domain").value, Property(general, "thumbnail_server").value)
  {
    var general :- Read(body, "general");
    var shortlinkDomain :- Read(general, "shortlink_domain");
    // the same object is read again, so this read cannot throw
    var thumbnailServer := Property(general, "thumbnail_server").value;
    Success((shortlinkDomain, thumbnailServer))
  }

  /**
    The reads of `loadRemoteConfig`: the first request's status is checked before its body is
    read; the second request's body is read before its status is checked.
   */
  function FetchRemote(credentials: Option<Json>, fetch: Request -> Response): Result<RemoteSettings, InitError> {
    var c :- Credentials(credentials);
    var requests := RemoteRequests(c.0, c.1);
    var appConfigs := fetch(requests[0]);
    if !appConfigs.ok then Failure(FetchFailed(appConfigs.statusText))
    else if appConfigs.body.None? then Failure(InvalidBody)
    else
      var hubsConfigs := fetch(requests[1]);
      if hubsConfigs.body.None? then Failure(InvalidBody)
      else if !hubsConfigs.ok then Failure(FetchFailed(hubsConfigs.statusText))
      else
        var general :- General(hubsConfigs.body);
        Success(RemoteSettings(appConfigs.body.value, TemplateString(c.0), TemplateString(general.0), TemplateString(general.1)))
  }

  /**
    `loadRemoteConfig`: the instance's app configuration from the first request, and an
    environment naming the credentials' host and the second response's `general` settings.
   */
  function LoadRemoteConfig(v: Variant, credentials: Option<Json>, fetch: Request -> Response, port: nat)
    : (r: Result<Loaded, InitError>)
    ensures Credentials(credentials).Failure? ==> r == Failure(Credentials(credentials).error)
    ensures Credentials(credentials).Success? ==>
              var host := Credentials(credentials).value.0;
              var requests := RemoteRequests(host, Credentials(credentials).value.1);
              var first := fetch(requests[0]);
              var second := fetch(requests[1]);
              (r.Success? <==> first.ok && first.body.Some? && second.ok && second.body.Some? && General(second.body).Success?) &&
              (!first.ok ==> r == Failure(FetchFailed(first.statusText))) &&
              (first.ok && first.body.Some? && second.body.Some? && !second.ok ==> r == Failure(FetchFailed(second.statusText))) &&
              (r.Success? ==>
                 r.value.appConfig == first.body.value &&
                 r.value.env == RemoteEnv(v, port, TemplateString(host), TemplateString(General(second.body).value.0),
                                          TemplateString(General(second.body).value.1)))
  {
    match FetchRemote(credentials, fetch)
    case Failure(e) => Failure(e)
    case Success(remote) =>
      Success(Loaded(remote.appConfig, RemoteEnv(v, port, remote.host, remote.shortlinkDomain, remote.thumbnailServer)))
  }

  /** The strategy chosen by whether the credentials file exists. */
  function LoadConfig(v: Variant, source: Source, port: nat): Result<Loaded, InitError> {
    match source
    case Local(schema) => CreateDefaultConfig(v, schema, port)
    case Remote(credentials, fetch) => LoadRemoteConfig(v, credentials, fetch, port)
  }

  /** What every environment descriptor says about the dev server itself. */
  predicate PointsAtLocalhost(env: Dict<string>, v: Variant, port: nat) {
    |env| == 7 && Distinct(env) &&
    Get(env, "HUBS_SERVER") == Some("localhost:" + PortText(v, port)) &&
    Get(env, "CORS_PROXY_SERVER") == Some("localhost:" + PortText(v, port) + "/cors-proxy") &&
    Get(env, "NON_CORS_PROXY_DOMAINS") == Some("localhost") &&
    Get(env, "IS_MOZ") == Some("false")
  }

  lemma LocalEnvPointsAtLocalhost(v: Variant, port: nat)
    ensures PointsAtLocalhost(LocalEnv(v, port), v, port)
  {
    var env := LocalEnv(v, port);
    DistinctByHeads(env, "HRSCTNI");
    GetAt(env, 0);
    GetAt(env, 3);
    GetAt(env, 5);
    GetAt(env, 6);
  }

  lemma RemoteEnvPointsAtLocalhost(v: Variant, port: nat, host: string, shortlinkDomain: string, thumbnailServer: string)
    ensures PointsAtLocalhost(RemoteEnv(v, port, host, shortlinkDomain, thumbnailServer), v, port)
  {
    var env := RemoteEnv(v, port, host, shortlinkDomain, thumbnailServer);
    DistinctByHeads(env, "HIRSCTN");
    GetAt(env, 0);
    GetAt(env, 1);
    GetAt(env, 4);
    GetAt(env, 6);
  }

  /**
    Under either strategy the dev server's own endpoints point at `localhost:<port>`, and the
    CORS proxy at `localhost:<port>/cors-proxy`.
   */
  lemma EnvPointsAtLocalhost(v: Variant, source: Source, port: nat)
    requires LoadConfig(v, source, port).Success?
    ensures PointsAtLocalhost(LoadConfig(v, source, port).value.env, v, port)
  {
    match source
    case Local(_) => LocalEnvPointsAtLocalhost(v, port);
    case Remote(credentials, fetch) =>
      var remote := FetchRemote(credentials, fetch).value;
      RemoteEnvPointsAtLocalhost(v, port, remote.host, remote.shortlinkDomain, remote.thumbnailServer);
  }

  /** The root server's environment names port 8080 whatever port it is given. */
  lemma LegacyEnvFixedPort(source: Source, port: nat, otherPort: nat)
    ensures LoadConfig(Legacy, source, port) == LoadConfig(Legacy, source, otherPort)
    ensures LoadConfig(Legacy, source, port).Success? ==>
              PointsAtLocalhost(LoadConfig(Legacy, source, port).value.env, Legacy, 8080)
  {
    assert PortText(Legacy, port) == PortText(Legacy, otherPort) == PortText(Legacy, 8080);
    if LoadConfig(Legacy, source, port).Success? {
      EnvPointsAtLocalhost(Legacy, source, port);
    }
    match source
    case Local(schema) =>
      assert LocalEnv(Legacy, port) == LocalEnv(Legacy, otherPort);
    case Remote(credentials, fetch) =>
      if FetchRemote(credentials, fetch).Success? {
        var remote := FetchRemote(credentials, fetch).value;
        assert RemoteEnv(Legacy, port, remote.host, remote.shortlinkDomain, remote.thumbnailServer) ==
               RemoteEnv(Legacy, otherPort, remote.host, remote.shortlinkDomain, remote.thumbnailServer);
      }
  }

  /** The SDK server loads exactly the configuration the plugin dev server loads, under either strategy. */
  lemma SdkConfigMatchesServer(source: Source, port: nat)
    ensures LoadConfig(Sdk, source, port) == LoadConfig(Server, source, port)
  {
    assert PortText(Sdk, port) == PortText(Server, port);
    match source
    case Local(schema) =>
      assert LocalEnv(Sdk, port) == LocalEnv(Server, port);
      if schema.Some? {
        SdkDefaultsMatchServer(schema.value);
      }
    case Remote(credentials, fetch) =>
      match FetchRemote(credentials, fetch)
      case Failure(_) =>
      case Success(remote) =>
        assert RemoteEnv(Sdk, port, remote.host, remote.shortlinkDomain, remote.thumbnailServer) ==
               RemoteEnv(Server, port, remote.host, remote.shortlinkDomain, remote.thumbnailServer);
  }

  lemma SdkDefaultsMatchServer(schema: Schema)
    ensures DefaultAppConfig(Sdk, schema) == DefaultAppConfig(Server, schema)
  {
    var sdk := seq(|schema|, i requires 0 <= i < |schema| => (schema[i].0, CategoryConfig(Sdk, schema[i].0, schema[i].1)));
    var server := seq(|schema|, i requires 0 <= i < |schema| => (schema[i].0, CategoryConfig(Server, schema[i].0, schema[i].1)));
    forall i | 0 <= i < |schema| ensures sdk[i] == server[i] {
      SdkFlagsMatchServer(schema[i].1);
    }
    assert sdk == server;
  }

  /**
    When the app-configs response is not ok, nothing about the hubs-configs response matters:
    the load fails with the first response's status text.
   */
  lemma FirstFailureIgnoresSecond(v: Variant, credentials: Option<Json>, fetch: Request -> Response,
                                  other: Request -> Response, port: nat)
    requires Credentials(credentials).Success?
    requires var c := Credentials(credentials).value;
             var first := RemoteRequests(c.0, c.1)[0];
             !fetch(first).ok && other(first) == fetch(first)
    ensures LoadRemoteConfig(v, credentials, fetch, port) == LoadRemoteConfig(v, credentials, other, port)
    ensures LoadRemoteConfig(v, credentials, fetch, port).Failure?
  {
  }

  /** The credentials of an instance at `host` with token `t`. */
  function HostCredentials(host: string): Option<Json> {
    Some(JObject([("host", JString(host)), ("token", JString("t"))]))
  }

  /**
    A failing hubs-configs response whose body is not JSON is reported as an invalid body, not
    as the failed fetch: the body is parsed before the status is looked at.
   */
  lemma SecondBodyParsedBeforeStatus(v: Variant, host: string, appConfig: Json, statusText: string, port: nat)
    ensures var appConfigsUrl := "https://" + host + "/api/v1/app_configs";
            var fetch := (q: Request) => if q.url == appConfigsUrl then Response(true, "OK", Some(appConfig))
                                         else Response(false, statusText, None);
            LoadRemoteConfig(v, HostCredentials(host), fetch, port) == Failure(InvalidBody)
  {
    var requests := RemoteRequests(Some(JString(host)), Some(JString("t")));
    assert requests[0].url == "https://" + host + "/api/v1/app_configs";
    RemoteUrlsDiffer(host);
  }

  /** The two request URLs differ whatever the host. */
  lemma RemoteUrlsDiffer(host: string)
    ensures "https://" + host + "/api/v1/app_configs" != "https://" + host + "/api/ita/configs/hubs"
  {
    var prefix := "https://" + host + "/api/";
    assert ("https://" + host + "/api/v1/app_configs")[|prefix|] == 'v';
    assert ("https://" + host + "/api/ita/configs/hubs")[|prefix|] == 'i';
  }

  /**
    The instance at `host` answering both requests with JSON whose `general` names a shortlink
    domain and a thumbnail server: the environment names all three.
   */
  lemma RemoteEnvFromInstance(v: Variant, host: string, appConfig: Json, shortlinkDomain: string, thumbnailServer: string, port: nat)
    ensures var general := JObject([("shortlink_domain", JString(shortlinkDomain)), ("thumbnail_server", JString(thumbnailServer))]);
            var fetch := (q: Request) => if q.url == "https://" + host + "/api/v1/app_configs" then Response(true, "OK", Some(appConfig))
                                         else Response(true, "OK", Some(JObject([("general", general)])));
            LoadRemoteConfig(v, HostCredentials(host), fetch, port) ==
              Success(Loaded(appConfig, RemoteEnv(v, port, host, shortlinkDomain, thumbnailServer)))
  {
    var general := JObject([("shortlink_domain", JString(shortlinkDomain)), ("thumbnail_server", JString(thumbnailServer))]);
    var requests := RemoteRequests(Some(JString(host)), Some(JString("t")));
    HostCredentialsRead(host);
    assert requests[0].url == "https://" + host + "/api/v1/app_configs";
    assert requests[1].url == "https://" + host + "/api/ita/configs/hubs";
    RemoteUrlsDiffer(host);
    GeneralRead(shortlinkDomain, thumbnailServer);
  }

  lemma HostCredentialsRead(host: string)
    ensures Credentials(HostCredentials(host)) == Success((Some(JString(host)), Some(JString("t"))))
  {
    var fields := [("host", JString(host)), ("token", JString("t"))];
    DistinctByHeads(fields, "ht");
    GetAt(fields, 0);
    GetAt(fields, 1);
  }

  lemma GeneralRead(shortlinkDomain: string, thumbnailServer: string)
    ensures var general := JObject([("shortlink_domain", JString(shortlinkDomain)), ("thumbnail_server", JString(thumbnailServer))]);
            General(Some(JObject([("general", general)]))) == Success((Some(JString(shortlinkDomain)), Some(JString(thumbnailServer))))
  {
    var fields := [("shortlink_domain", JString(shortlinkDomain)), ("thumbnail_server", JString(thumbnailServer))];
    DistinctByHeads(fields, "st");
    GetAt(fields, 0);
    GetAt(fields, 1);
    var outer := [("general", JObject(fields))];
    DistinctByHeads(outer, "g");
    GetAt(outer, 0);
  }
}

=== FILE: dev_server.dfy ===
/**
  `init` of the three dev servers: load the configuration, attach the plugin information to
  the app configuration, and build the header block the hubs and spoke pages receive in place
  of their placeholder comment. Also the page handler that splices a header into a page.
 */
module DevServer {
  import opened Wrappers
  import opened Text
  import opened Dict
  import opened Json
  import AppConfig
  import Registry
  import Pages
  import Routes

  /** The SDK server's single plugin manifest. */
  const ManifestUrl: string := "/plugin-manifest.json"

  /** What `init` leaves behind for the routes: the page headers and the app name of the hub headers. */
  datatype Initialized = Initialized(
    appConfig: Json,
    env: Dict<string>,
    spokeHeader: string,
    hubsHeader: string,
    hubName: string)

  /**
    The plugin information each server puts into the app configuration: the registry under
    `plugins` in the plugin dev server, the manifest list under `pluginManifests` in the SDK
    server, nothing in the root server. The assignment is strict-mode code, so on `null` or a
    primitive it throws.
   */
  function AttachPlugins(v: AppConfig.Variant, appConfig: Json, plugins: Registry.Plugins): (r: Result<Json, AppConfig.InitError>)
    ensures v == AppConfig.Legacy ==> r == Success(appConfig)
    ensures v != AppConfig.Legacy ==> (r.Success? <==> appConfig.JObject? || appConfig.JArray?)
    ensures v != AppConfig.Legacy && appConfig.JArray? ==> r == Success(appConfig)
    ensures appConfig.JObject? && r.Success? ==>
              r.value.JObject? &&
              (v == AppConfig.Server ==> Get(r.value.fields, "plugins") == Some(Registry.PluginsJson(plugins))) &&
              (v == AppConfig.Sdk ==> Get(r.value.fields, "pluginManifests") == Some(JArray([JString(ManifestUrl)])))
    ensures appConfig.JObject? && r.Success? ==>
              forall k :: k != AttachedKey(v) ==> Get(r.value.fields, k) == Get(appConfig.fields, k)
  {
    var attached := match v
      case Server => SetProperty(appConfig, "plugins", Registry.PluginsJson(plugins))
      case Sdk => SetProperty(appConfig, "pluginManifests", JArray([JString(ManifestUrl)]))
      case Legacy => Success(appConfig);
    match attached
    case Success(j) => Success(j)
    case Failure(key) => Failure(AppConfig.TypeError(key))
  }

  /** The key `AttachPlugins` writes; the root server writes none. */
  function AttachedKey(v: AppConfig.Variant): string {
    match v
    case Server => "plugins"
    case Sdk => "pluginManifests"
    case Legacy => ""
  }

  /** `https://localhost:<port>/`, the base-assets path of the hubs pages; the spoke pages add `spoke/`. */
  function AssetsBase(v: AppConfig.Variant, port: nat): string {
    "https://localhost:" + AppConfig.PortText(v, port) + "/"
  }

  /**
    `appConfig.translations.en`, then its `editor-name` and `app-name`: each read throws on
    `undefined` or `null`.
   */
  function EnglishNames(appConfig: Json): (r: Result<(Value, Value), AppConfig.InitError>)
    ensures appConfig.JObject? && Get(appConfig.fields, "translations") == Some(AppConfig.Translations) ==>
              r == Success((Some(JString("Spoke")), Some(JString("Hubs"))))
    ensures appConfig.JObject? && Get(appConfig.fields, "translations") == None ==> r == Failure(AppConfig.TypeError("en"))
    ensures !appConfig.JObject? ==> r == Failure(AppConfig.TypeError(if appConfig.JNull? then "translations" else "en"))
  {
    var translations :- AppConfig.Read(Some(appConfig), "translations");
    var en :- AppConfig.Read(translations, "en");
    var editorName :- AppConfig.Read(en, "editor-name");
    // the same object is read again, so this read cannot throw
    var appName := Property(en, "app-name").value;
    Success((editorName, appName))
  }

  /**
    The two builds of `init` and the page handler: the code as written, which splices the JSON
    text into the script's quotes raw and hands the header to `replace` as a replacement
    pattern, and the repaired code, which escapes the text and inserts the header literally.
   */
  datatype Build = AsWritten | Repaired

  /** The `APP_CONFIG` script a build puts at the end of each header. */
  function ConfigScript(b: Build, appConfig: Json): string {
    match b
    case AsWritten => Pages.AppConfigScriptAsWritten(appConfig)
    case Repaired => Pages.AppConfigScript(appConfig)
  }

  /** The two page headers and the hub name, from the finished app configuration and the environment. */
  function BuildHeaders(b: Build, v: AppConfig.Variant, port: nat, appConfig: Json, env: Dict<string>): (r: Result<Initialized, AppConfig.InitError>)
    ensures r.Failure? <==> EnglishNames(appConfig).Failure?
    ensures r.Failure? ==> r.error == EnglishNames(appConfig).error
    ensures r.Success? ==> r.value.appConfig == appConfig && r.value.env == env
    ensures r.Success? ==> r.value.hubName == TemplateString(EnglishNames(appConfig).value.1)
    ensures r.Success? ==>
              var script := ConfigScript(b, appConfig);
              var meta := Pages.MetaBlock(env);
              r.value.hubsHeader == Pages.PageHeader(meta, AssetsBase(v, port), r.value.hubName, script) &&
              r.value.spokeHeader == Pages.PageHeader(meta, AssetsBase(v, port) + "spoke/",
                                                      TemplateString(EnglishNames(appConfig).value.0), script)
  {
    var names :- EnglishNames(appConfig);
    var meta := Pages.MetaBlock(env);
    var script := ConfigScript(b, appConfig);
    var base := AssetsBase(v, port);
    Success(Initialized(
      appConfig,
      env,
      Pages.PageHeader(meta, base + "spoke/", TemplateString(names.0), script),
      Pages.PageHeader(meta, base, TemplateString(names.1), script),
      TemplateString(names.1)))
  }

  /** `init`: every step that can throw turns into the error it rejects with. */
  function Init(b: Build, v: AppConfig.Variant, port: nat, plugins: Registry.Plugins, source: AppConfig.Source): (r: Result<Initialized, AppConfig.InitError>)
    ensures AppConfig.LoadConfig(v, source, port).Failure? ==> r == Failure(AppConfig.LoadConfig(v, source, port).error)
    ensures AppConfig.LoadConfig(v, source, port).Success? ==>
              var loaded := AppConfig.LoadConfig(v, source, port).value;
              match AttachPlugins(v, loaded.appConfig, plugins)
              case Failure(e) => r == Failure(e)
              case Success(appConfig) => r == BuildHeaders(b, v, port, appConfig, loaded.env)
  {
    var loaded :- AppConfig.LoadConfig(v, source, port);
    var appConfig :- AttachPlugins(v, loaded.appConfig, plugins);
    BuildHeaders(b, v, port, appConfig, loaded.env)
  }

  /**
    With the local strategy `init` always succeeds, whatever the schema and the plugins: the
    hubs pages are titled "Hubs" (which the hub headers also carry) and the spoke pages "Spoke".
   */
  lemma LocalInit(b: Build, v: AppConfig.Variant, port: nat, plugins: Registry.Plugins, schema: AppConfig.Schema)
    ensures var r := Init(b, v, port, plugins, AppConfig.Local(Some(schema)));
            r.Success? && r.value.hubName == "Hubs" && r.value.env == AppConfig.LocalEnv(v, port) &&
            r.value.spokeHeader == Pages.PageHeader(Pages.MetaBlock(r.value.env), AssetsBase(v, port) + "spoke/", "Spoke",
                                                    ConfigScript(b, r.value.appConfig))
  {
    var fields := AppConfig.DefaultAppConfig(v, schema);
    LocalLoad(v, port, schema);
    var appConfig := AttachedTranslations(v, fields, plugins);
    NamedHeaders(b, v, port, appConfig, AppConfig.LocalEnv(v, port));
  }

  /** With the English names of the local translations, the pages are titled "Hubs" and "Spoke". */
  lemma NamedHeaders(b: Build, v: AppConfig.Variant, port: nat, appConfig: Json, env: Dict<string>)
    requires EnglishNames(appConfig) == Success((Some(JString("Spoke")), Some(JString("Hubs"))))
    ensures var r := BuildHeaders(b, v, port, appConfig, env);
            r.Success? && r.value.hubName == "Hubs" && r.value.env == env && r.value.appConfig == appConfig &&
            r.value.spokeHeader == Pages.PageHeader(Pages.MetaBlock(env), AssetsBase(v, port) + "spoke/", "Spoke",
                                                    ConfigScript(b, appConfig))
  {
    assert TemplateString(Some(JString("Spoke"))) == "Spoke" && TemplateString(Some(JString("Hubs"))) == "Hubs";
  }

  lemma LocalLoad(v: AppConfig.Variant, port: nat, schema: AppConfig.Schema)
    ensures AppConfig.LoadConfig(v, AppConfig.Local(Some(schema)), port) ==
            Success(AppConfig.Loaded(JObject(AppConfig.DefaultAppConfig(v, schema)), AppConfig.LocalEnv(v, port)))
  {
  }

  /** Attaching the plugin information keeps the local translations readable. */
  lemma AttachedTranslations(v: AppConfig.Variant, fields: Dict<Json>, plugins: Registry.Plugins) returns (appConfig: Json)
    requires Get(fields, "translations") == Some(AppConfig.Translations)
    ensures AttachPlugins(v, JObject(fields), plugins) == Success(appConfig)
    ensures EnglishNames(appConfig) == Success((Some(JString("Spoke")), Some(JString("Hubs"))))
  {
    appConfig := AttachPlugins(v, JObject(fields), plugins).value;
    assert "translations" != AttachedKey(v);
  }

  /**
    An app configuration without `translations` (an instance that serves none) makes `init`
    reject with a TypeError on reading `en`.
   */
  lemma MissingTranslationsRejected(b: Build, v: AppConfig.Variant, port: nat, plugins: Registry.Plugins, source: AppConfig.Source)
    requires AppConfig.LoadConfig(v, source, port).Success?
    requires AppConfig.LoadConfig(v, source, port).value.appConfig.JObject?
    requires "translations" !in Keys(AppConfig.LoadConfig(v, source, port).value.appConfig.fields)
    ensures Init(b, v, port, plugins, source) == Failure(AppConfig.TypeError("en"))
  {
    var loaded := AppConfig.LoadConfig(v, source, port).value;
    var attached := AttachPlugins(v, loaded.appConfig, plugins);
    assert Get(loaded.appConfig.fields, "translations") == None;
    assert attached.Success?;
    assert "translations" != AttachedKey(v);
    assert Get(attached.value.fields, "translations") == None;
  }

  /**
    An app configuration that is not an object is rejected: by the plugin assignment in the
    two plugin servers (except on an array, which takes the property), otherwise by the read of
    `translations` on `null` or of `en` on anything else.
   */
  lemma NonObjectConfigRejected(b: Build, v: AppConfig.Variant, port: nat, plugins: Registry.Plugins, source: AppConfig.Source)
    requires AppConfig.LoadConfig(v, source, port).Success?
    requires !AppConfig.LoadConfig(v, source, port).value.appConfig.JObject?
    ensures var appConfig := AppConfig.LoadConfig(v, source, port).value.appConfig;
            Init(b, v, port, plugins, source) ==
              Failure(AppConfig.TypeError(
                if v != AppConfig.Legacy && !appConfig.JArray? then AttachedKey(v)
                else if appConfig.JNull? then "translations"
                else "en"))
  {
  }

  /**
    With the local strategy every env meta tag of the page headers reads back as its key in
    lower case and its value.
   */
  lemma LocalMetaTagsRoundTrip(v: AppConfig.Variant, port: nat)
    ensures var env := AppConfig.LocalEnv(v, port);
            forall i :: 0 <= i < |env| ==>
              Pages.ParseMetaTag(Pages.MetaTags(env)[i]) == Some((Lower(env[i].0), env[i].1))
  {
    var env := AppConfig.LocalEnv(v, port);
    LocalEnvUnquoted(v, port);
    forall i | 0 <= i < |env|
      ensures Pages.ParseMetaTag(Pages.MetaTags(env)[i]) == Some((Lower(env[i].0), env[i].1))
    {
      Pages.MetaTagRoundTrip(env[i].0, env[i].1);
    }
  }

  /** No key or value of the local environment holds a double quote. */
  lemma LocalEnvUnquoted(v: AppConfig.Variant, port: nat)
    ensures var env := AppConfig.LocalEnv(v, port);
            forall i :: 0 <= i < |env| ==> '"' !in env[i].0 && '"' !in env[i].1
  {
    var env := AppConfig.LocalEnv(v, port);
    var text := AppConfig.PortText(v, port);
    PortTextUnquoted(v, port);
    LocalhostUnquoted(text);
    LocalEnvKeysUnquoted(v, port);
    assert forall i :: 0 <= i < |env| ==> '"' !in env[i].0;
  }

  /** The port as it prints holds digits only. */
  lemma PortTextUnquoted(v: AppConfig.Variant, port: nat)
    ensures '"' !in AppConfig.PortText(v, port)
  {
    if v != AppConfig.Legacy {
      NatToStringRoundTrip(port);
      forall k | 0 <= k < |NatToString(port)| ensures NatToString(port)[k] != '"' {
        assert IsDigit(NatToString(port)[k]);
      }
    }
  }

  lemma LocalhostUnquoted(text: string)
    requires '"' !in text
    ensures '"' !in "localhost:" + text && '"' !in "localhost:" + text + "/cors-proxy"
  {
  }

  lemma LocalEnvKeysUnquoted(v: AppConfig.Variant, port: nat)
    ensures forall k :: k in Keys(AppConfig.LocalEnv(v, port)) ==> '"' !in k
  {
  }

  /** The header a site's pages receive. */
  function HeaderOf(init: Initialized, site: Routes.Site): string {
    if site == Routes.Spoke then init.spokeHeader else init.hubsHeader
  }

  /**
    The page handler of a route: the page file with the header of its site in place of the
    first placeholder; as written the header goes through `replace` as a replacement pattern.
   */
  function ServePage(b: Build, init: Initialized, outcome: Routes.Outcome, template: string): (page: Option<string>)
    ensures page.Some? <==> outcome.Page?
    ensures outcome.Page? && (forall j :: !OccursAt(template, Pages.Placeholder, j)) ==> page == Some(template)
    ensures outcome.Page? && b == Repaired ==>
              forall i :: FirstOccurrence(template, Pages.Placeholder, i) ==>
                page == Some(template[..i] + HeaderOf(init, outcome.site) + template[i + |Pages.Placeholder|..])
  {
    match outcome
    case Page(site, _, _) =>
      var header := HeaderOf(init, site);
      Some(if b == AsWritten then Pages.RenderPageAsWritten(template, header) else Pages.RenderPage(template, header))
    case _ => None
  }

  /** Without a dollar sign in the header, both builds serve the same page. */
  lemma ServePageBuildsAgree(init: Initialized, outcome: Routes.Outcome, template: string)
    requires outcome.Page? ==> '$' !in HeaderOf(init, outcome.site)
    ensures ServePage(AsWritten, init, outcome, template) == ServePage(Repaired, init, outcome, template)
  {
    if outcome.Page? {
      Pages.RenderPageAgrees(template, HeaderOf(init, outcome.site));
    }
  }

  /**
    Every page the repaired build serves after a successful `init` carries the app
    configuration: the header in place of the placeholder ends with the script, and that script
    hands `JSON.parse` exactly the JSON text of the configuration.
   */
  lemma RepairedPageCarriesConfig(v: AppConfig.Variant, port: nat, plugins: Registry.Plugins, source: AppConfig.Source,
                                  outcome: Routes.Outcome, before: string, after: string)
    requires Init(Repaired, v, port, plugins, source).Success? && outcome.Page?
    requires forall j :: 0 <= j < |before| ==> !OccursAt(before + Pages.Placeholder, Pages.Placeholder, j)
    ensures var init := Init(Repaired, v, port, plugins, source).value;
            var script := Pages.AppConfigScript(init.appConfig);
            (exists header :: ServePage(Repaired, init, outcome, before + Pages.Placeholder + after) ==
                                Some(before + header + script + after)) &&
            Pages.EmbeddedText(script) == Some(Stringify(init.appConfig))
  {
    var init := Init(Repaired, v, port, plugins, source).value;
    InitBuildsHeaders(Repaired, v, port, plugins, source);
    HeaderEndsWithScript(Repaired, v, port, init, outcome.site);
    var front :| HeaderOf(init, outcome.site) == front + ConfigScript(Repaired, init.appConfig);
    ServedPageFromHeader(Repaired, init, outcome, before, after, front);
  }

  /**
    The code as written serves the same after a successful `init` when the header holds no
    dollar sign and the JSON text needs no escape inside a single-quoted literal and holds no
    `<`. When a condition fails the configuration can be lost: see
    `Pages.AppConfigScriptAsWrittenEndsEarly`, `Pages.AppConfigScriptAsWrittenClosedEarly`,
    `Pages.AppConfigScriptAsWrittenRunsOn` and `Pages.RenderPageAsWrittenDropsHeader`.
   */
  lemma ServedPageCarriesConfig(v: AppConfig.Variant, port: nat, plugins: Registry.Plugins, source: AppConfig.Source,
                                outcome: Routes.Outcome, before: string, after: string)
    requires Init(AsWritten, v, port, plugins, source).Success? && outcome.Page?
    requires forall j :: 0 <= j < |before| ==> !OccursAt(before + Pages.Placeholder, Pages.Placeholder, j)
    requires var init := Init(AsWritten, v, port, plugins, source).value;
             '$' !in HeaderOf(init, outcome.site) &&
             Pages.LiteralSafe(Stringify(init.appConfig)) && '<' !in Stringify(init.appConfig)
    ensures var init := Init(AsWritten, v, port, plugins, source).value;
            var script := Pages.AppConfigScriptAsWritten(init.appConfig);
            (exists header :: ServePage(AsWritten, init, outcome, before + Pages.Placeholder + after) ==
                                Some(before + header + script + after)) &&
            Pages.EmbeddedText(script) == Some(Stringify(init.appConfig))
  {
    var init := Init(AsWritten, v, port, plugins, source).value;
    InitBuildsHeaders(AsWritten, v, port, plugins, source);
    HeaderEndsWithScript(AsWritten, v, port, init, outcome.site);
    var front :| HeaderOf(init, outcome.site) == front + ConfigScript(AsWritten, init.appConfig);
    ServedPageFromHeader(AsWritten, init, outcome, before, after, front);
    Pages.AppConfigScriptAsWrittenSafe(init.appConfig);
  }

  lemma ServedPageFromHeader(b: Build, init: Initialized, outcome: Routes.Outcome, before: string, after: string, front: string)
    requires outcome.Page? && HeaderOf(init, outcome.site) == front + ConfigScript(b, init.appConfig)
    requires b == AsWritten ==> '$' !in HeaderOf(init, outcome.site)
    requires forall j :: 0 <= j < |before| ==> !OccursAt(before + Pages.Placeholder, Pages.Placeholder, j)
    ensures ServePage(b, init, outcome, before + Pages.Placeholder + after) ==
            Some(before + front + ConfigScript(b, init.appConfig) + after)
  {
    var header := HeaderOf(init, outcome.site);
    var template := before + Pages.Placeholder + after;
    Pages.RenderPageAt(before, after, header);
    if b == AsWritten {
      Pages.RenderPageAgrees(template, header);
    }
    assert ServePage(b, init, outcome, template) == Some(Pages.RenderPage(template, header));
    assert before + header + after == before + front + ConfigScript(b, init.appConfig) + after;
  }

  /** A successful `init` is the headers built from its own app configuration and environment. */
  lemma InitBuildsHeaders(b: Build, v: AppConfig.Variant, port: nat, plugins: Registry.Plugins, source: AppConfig.Source)
    requires Init(b, v, port, plugins, source).Success?
    ensures var init := Init(b, v, port, plugins, source).value;
            BuildHeaders(b, v, port, init.appConfig, init.env) == Success(init)
  {
    var loaded := AppConfig.LoadConfig(v, source, port).value;
    var appConfig := AttachPlugins(v, loaded.appConfig, plugins).value;
    assert Init(b, v, port, plugins, source) == BuildHeaders(b, v, port, appConfig, loaded.env);
  }

  /** Each header `BuildHeaders` produces ends with the build's app configuration script. */
  lemma HeaderEndsWithScript(b: Build, v: AppConfig.Variant, port: nat, init: Initialized, site: Routes.Site)
    requires BuildHeaders(b, v, port, init.appConfig, init.env) == Success(init)
    ensures exists front :: HeaderOf(init, site) == front + ConfigScript(b, init.appConfig)
  {
    var script := ConfigScript(b, init.appConfig);
    var meta := Pages.MetaBlock(init.env);
    var base := if site == Routes.Spoke then AssetsBase(v, port) + "spoke/" else AssetsBase(v, port);
    var title := if site == Routes.Spoke then TemplateString(EnglishNames(init.appConfig).value.0) else init.hubName;
    Pages.PageHeaderEndsWithScript(meta, base, title, script);
  }
}

=== FILE: dict.dfy ===
/**
  A plain JavaScript object with string keys, as an association list: the keys keep their
  insertion order (which `for ... in` and `JSON.stringify` follow), assigning to an existing key
  replaces its value in place, and assigning to a new key appends it.
 */
module Dict {
  import opened Wrappers

  type Dict<V> = seq<(string, V)>

  function Keys<V>(d: Dict<V>): (ks: seq<string>)
    ensures |ks| == |d|
    ensures forall i :: 0 <= i < |d| ==> ks[i] == d[i].0
  {
    seq(|d|, i requires 0 <= i < |d| => d[i].0)
  }

  /** No key appears twice, as in every object the source builds. */
  predicate Distinct<V>(d: Dict<V>) {
    forall i, j :: 0 <= i < j < |d| ==> d[i].0 != d[j].0
  }

  /** The position of `k` in `d`, if `k` is a key of `d`. */
  function Find<V>(d: Dict<V>, k: string): (r: Option<nat>)
    ensures r.Some? ==> r.value < |d| && d[r.value].0 == k
    ensures r.Some? ==> forall j :: 0 <= j < r.value ==> d[j].0 != k
    ensures r.None? <==> k !in Keys(d)
  {
    if |d| == 0 then None
    else if d[0].0 == k then Some(0)
    else match Find(d[1..], k)
      case None => None
      case Some(i) => Some(i + 1)
  }

  /** `d[k]`, or `None` for `undefined`. */
  function Get<V>(d: Dict<V>, k: string): (r: Option<V>)
    ensures r.Some? <==> k in Keys(d)
  {
    match Find(d, k)
    case None => None
    case Some(i) => Some(d[i].1)
  }

  /** In an object without repeated keys, each key reads back the value stored beside it. */
  lemma GetAt<V>(d: Dict<V>, i: nat)
    requires Distinct(d) && i < |d|
    ensures Get(d, d[i].0) == Some(d[i].1)
  {
    assert d[i].0 in Keys(d);
  }

  /** Keys that start with pairwise different characters are distinct. */
  lemma DistinctByHeads<V>(d: Dict<V>, heads: string)
    requires |heads| == |d|
    requires forall i, j :: 0 <= i < j < |heads| ==> heads[i] != heads[j]
    requires forall i :: 0 <= i < |d| ==> |d[i].0| > 0 && d[i].0[0] == heads[i]
    ensures Distinct(d)
  {
  }

  /** `d[k] = v`. */
  function Put<V>(d: Dict<V>, k: string, v: V): (r: Dict<V>)
    ensures Get(r, k) == Some(v)
    ensures forall k' :: k' != k ==> Get(r, k') == Get(d, k')
    ensures Keys(r) == if k in Keys(d) then Keys(d) else Keys(d) + [k]
    ensures Distinct(d) ==> Distinct(r)
  {
    match Find(d, k)
    case Some(i) =>
      PutInPlace(d, i, k, v);
      d[i := (k, v)]
    case None =>
      PutAppended(d, k, v);
      d + [(k, v)]
  }

  /** Assigning to an existing key replaces its value where it stands. */
  lemma PutInPlace<V>(d: Dict<V>, i: nat, k: string, v: V)
    requires Find(d, k) == Some(i)
    ensures var r := d[i := (k, v)];
            Get(r, k) == Some(v) && (forall k' :: k' != k ==> Get(r, k') == Get(d, k')) &&
            Keys(r) == Keys(d) && (Distinct(d) ==> Distinct(r))
  {
    var r := d[i := (k, v)];
    forall k' | k' != k ensures Find(r, k') == Find(d, k') {
      FindUnchanged(d, i, v, k');
    }
    assert Keys(r) == Keys(d);
  }

  /** Assigning to a new key appends it. */
  lemma PutAppended<V>(d: Dict<V>, k: string, v: V)
    requires Find(d, k) == None
    ensures var r := d + [(k, v)];
            Get(r, k) == Some(v) && (forall k' :: k' != k ==> Get(r, k') == Get(d, k')) &&
            Keys(r) == Keys(d) + [k] && (Distinct(d) ==> Distinct(r))
  {
    var r := d + [(k, v)];
    forall k' | k' != k ensures Get(r, k') == Get(d, k') {
      FindAppend(d, k, v, k');
    }
    FindAppend(d, k, v, k);
    assert Keys(r) == Keys(d) + [k];
  }

  lemma {:induction false} FindUnchanged<V>(d: Dict<V>, i: nat, v: V, k': string)
    requires i < |d| && d[i].0 != k'
    ensures Find(d[i := (d[i].0, v)], k') == Find(d, k')
    decreases |d|
  {
    if d[0].0 != k' && i > 0 {
      FindUnchanged(d[1..], i - 1, v, k');
      FindUnchangedStep(d, i, v, k');
    }
  }

  lemma FindUnchangedStep<V>(d: Dict<V>, i: nat, v: V, k': string)
    requires 0 < i < |d| && d[i].0 != k' && d[0].0 != k'
    requires Find(d[1..][i - 1 := (d[i].0, v)], k') == Find(d[1..], k')
    ensures Find(d[i := (d[i].0, v)], k') == Find(d, k')
  {
    var r := d[i := (d[i].0, v)];
    assert r[1..] == d[1..][i - 1 := (d[i].0, v)];
    assert r[0] == d[0];
  }

  lemma {:induction false} FindAppend<V>(d: Dict<V>, k: string, v: V, k': string)
    requires k !in Keys(d)
    ensures k' != k ==> Find(d + [(k, v)], k') == Find(d, k')
    ensures Find(d + [(k, v)], k) == Some(|d|)
    decreases |d|
  {
    if |d| > 0 {
      assert k !in Keys(d[1..]);
      FindAppend(d[1..], k, v, k');
      FindAppendStep(d, k, v, k');
    }
  }

  lemma FindAppendStep<V>(d: Dict<V>, k: string, v: V, k': string)
    requires |d| > 0 && k !in Keys(d)
    requires k' != k ==> Find(d[1..] + [(k, v)], k') == Find(d[1..], k')
    requires Find(d[1..] + [(k, v)], k) == Some(|d| - 1)
    ensures k' != k ==> Find(d + [(k, v)], k') == Find(d, k')
    ensures Find(d + [(k, v)], k) == Some(|d|)
  {
    var r := d + [(k, v)];
    assert r[1..] == d[1..] + [(k, v)];
    assert r[0] == d[0] && d[0].0 != k;
    FindFront(r, k);
    if k' != k {
      FindFront(r, k');
      FindFront(d, k');
    }
  }

  /** `Find` on a non-empty list, one step at a time. */
  lemma FindFront<V>(d: Dict<V>, k: string)
    requires |d| > 0
    ensures Find(d, k) == if d[0].0 == k then Some(0)
                          else match Find(d[1..], k) case None => None case Some(i) => Some(i + 1)
  {
  }

  /** The value of the last pair of `ps` whose key is `k`. */
  function LastValue<V>(ps: seq<(string, V)>, k: string): Option<V> {
    if |ps| == 0 then None
    else if ps[|ps| - 1].0 == k then Some(ps[|ps| - 1].1)
    else LastValue(ps[..|ps| - 1], k)
  }

  /** Some pair of `ps` has key `k` exactly when a last such pair exists. */
  lemma {:induction false} LastValueExists<V>(ps: seq<(string, V)>, k: string)
    ensures LastValue(ps, k).Some? <==> exists p :: p in ps && p.0 == k
    ensures LastValue(ps, k).Some? ==> (k, LastValue(ps, k).value) in ps
    decreases |ps|
  {
    if |ps| > 0 {
      var front := ps[..|ps| - 1];
      LastValueExists(front, k);
      assert ps == front + [ps[|ps| - 1]];
      assert forall p :: p in ps <==> p in front || p == ps[|ps| - 1];
    }
  }

  /** The assignments `d[ps[0].0] = ps[0].1; d[ps[1].0] = ps[1].1; ...` in order. */
  function PutAll<V>(d: Dict<V>, ps: seq<(string, V)>): Dict<V>
    decreases |ps|
  {
    if |ps| == 0 then d
    else Put(PutAll(d, ps[..|ps| - 1]), ps[|ps| - 1].0, ps[|ps| - 1].1)
  }

  /** After a run of assignments the last assignment to a key wins; other keys keep their values. */
  lemma {:induction false} PutAllLastWins<V>(d: Dict<V>, ps: seq<(string, V)>, k: string)
    ensures Get(PutAll(d, ps), k) == if LastValue(ps, k).Some? then LastValue(ps, k) else Get(d, k)
    ensures Distinct(d) ==> Distinct(PutAll(d, ps))
    decreases |ps|
  {
    if |ps| > 0 {
      PutAllLastWins(d, ps[..|ps| - 1], k);
    }
  }
}

=== FILE: html_script.dfy ===
/**
  The part of the HTML tokenizer that decides where a script element ends: the script data
  states of section 13.2.5 of the HTML Living Standard, from the script data state (13.2.5.4)
  through the script data double escape end state (13.2.5.29). A `<!--` puts the tokenizer in
  the escaped states, where a `<script` followed by a tag-name end starts the double-escaped
  states; there `</script` does not end the element but leaves them. The element ends at the
  first `</script`, in any case, followed by a tag-name end, that the tokenizer meets outside
  the double-escaped states.
 */
module HtmlScript {
  import opened Wrappers
  import opened Text

  /** The name of the end tag that ends a script element, lower-cased. */
  const TagName: string := "script"

  /** `</script` as it must read once lower-cased. */
  const EndTagStart: string := "</script"

  predicate IsAsciiAlpha(c: char) { IsLowerAscii(c) || IsUpperAscii(c) }

  /**
    The characters that end a tag name: tab, line feed, form feed, space, `/` and `>`. A
    carriage return reaches the tokenizer as a line feed.
   */
  predicate EndsTagName(c: char) {
    c == '\t' || c == '\n' || c == '\U{C}' || c == '\r' || c == ' ' || c == '/' || c == '>'
  }

  /**
    The script data states. `at` is the index of the `<` a possible end tag starts with, and
    `name` the lower-cased letters of a tag name read so far.
   */
  datatype State =
    | Data
    | LessThan(at: nat)
    | EndTagOpen(at: nat)
    | EndTagName(at: nat, name: string)
    | EscapeStart
    | EscapeStartDash
    | Escaped
    | EscapedDash
    | EscapedDashDash
    | EscapedLessThan(at: nat)
    | EscapedEndTagOpen(at: nat)
    | EscapedEndTagName(at: nat, name: string)
    | DoubleEscapeStart(name: string)
    | DoubleEscaped
    | DoubleEscapedDash
    | DoubleEscapedDashDash
    | DoubleEscapedLessThan
    | DoubleEscapeEnd(name: string)

  /** The script data state's reading of `c`, at index `i`. */
  function AfterData(c: char, i: nat): State {
    if c == '<' then LessThan(i) else Data
  }

  /** The script data escaped state's reading of `c`. */
  function AfterEscaped(c: char, i: nat): State {
    if c == '-' then EscapedDash else if c == '<' then EscapedLessThan(i) else Escaped
  }

  /** The script data double escaped state's reading of `c`. */
  function AfterDoubleEscaped(c: char): State {
    if c == '-' then DoubleEscapedDash else if c == '<' then DoubleEscapedLessThan else DoubleEscaped
  }

  /** An end tag named `script` meets the character that ends its name: the element ends. */
  predicate EndsElement(st: State, c: char) {
    (st.EndTagName? || st.EscapedEndTagName?) && st.name == TagName && EndsTagName(c)
  }

  /**
    The state after the character `c` at index `i`; "reconsume in" a state is that state's
    reading of `c`. A state and character that `EndsElement` accepts never get here.
   */
  function Next(st: State, c: char, i: nat): State {
    match st
    case Data => AfterData(c, i)
    case LessThan(at) => if c == '/' then EndTagOpen(at) else if c == '!' then EscapeStart else AfterData(c, i)
    case EndTagOpen(at) => if IsAsciiAlpha(c) then EndTagName(at, [LowerChar(c)]) else AfterData(c, i)
    case EndTagName(at, name) => if IsAsciiAlpha(c) then EndTagName(at, name + [LowerChar(c)]) else AfterData(c, i)
    case EscapeStart => if c == '-' then EscapeStartDash else AfterData(c, i)
    case EscapeStartDash => if c == '-' then EscapedDashDash else AfterData(c, i)
    case Escaped => AfterEscaped(c, i)
    case EscapedDash => if c == '-' then EscapedDashDash else AfterEscaped(c, i)
    case EscapedDashDash => if c == '-' then EscapedDashDash else if c == '>' then Data else AfterEscaped(c, i)
    case EscapedLessThan(at) =>
      if c == '/' then EscapedEndTagOpen(at)
      else if IsAsciiAlpha(c) then DoubleEscapeStart([LowerChar(c)])
      else AfterEscaped(c, i)
    case EscapedEndTagOpen(at) => if IsAsciiAlpha(c) then EscapedEndTagName(at, [LowerChar(c)]) else AfterEscaped(c, i)
    case EscapedEndTagName(at, name) =>
      if IsAsciiAlpha(c) then EscapedEndTagName(at, name + [LowerChar(c)]) else AfterEscaped(c, i)
    case DoubleEscapeStart(name) =>
      if EndsTagName(c) then (if name == TagName then DoubleEscaped else Escaped)
      else if IsAsciiAlpha(c) then DoubleEscapeStart(name + [LowerChar(c)])
      else AfterEscaped(c, i)
    case DoubleEscaped => AfterDoubleEscaped(c)
    case DoubleEscapedDash => if c == '-' then DoubleEscapedDashDash else AfterDoubleEscaped(c)
    case DoubleEscapedDashDash =>
      if c == '-' then DoubleEscapedDashDash else if c == '>' then Data else AfterDoubleEscaped(c)
    case DoubleEscapedLessThan => if c == '/' then DoubleEscapeEnd("") else AfterDoubleEscaped(c)
    case DoubleEscapeEnd(name) =>
      if EndsTagName(c) then (if name == TagName then Escaped else DoubleEscaped)
      else if IsAsciiAlpha(c) then DoubleEscapeEnd(name + [LowerChar(c)])
      else AfterDoubleEscaped(c)
  }

  /**
    The index of the `<` of the end tag that ends the element, reading `s` from index `i` in
    state `st`; `None` when `s` runs out first.
   */
  function Scan(s: string, i: nat, st: State): (r: Option<nat>)
    decreases |s| - i
  {
    if i >= |s| then None
    else if EndsElement(st, s[i]) then Some(st.at)
    else Scan(s, i + 1, Next(st, s[i], i))
  }

  /**
    Where a script element whose text starts at index `from` of `s` ends: the index of the `<`
    of its end tag, or `None` when the element runs on past the end of `s`.
   */
  function ElementEnd(s: string, from: nat): Option<nat> {
    Scan(s, from, Data)
  }

  /** `</script`, in any case, and a character that ends the tag name, at index `j`. */
  predicate EndTagAt(s: string, j: nat) {
    j + |EndTagStart| < |s| && Lower(s[j..j + |EndTagStart|]) == EndTagStart && EndsTagName(s[j + |EndTagStart|])
  }

  /** Text without `<` leaves the script data state as it is. */
  lemma {:induction false} ScanPlain(s: string, i: nat, j: nat)
    requires i <= j <= |s| && forall k :: i <= k < j ==> s[k] != '<'
    ensures Scan(s, i, Data) == Scan(s, j, Data)
    decreases j - i
  {
    if i < j {
      assert Next(Data, s[i], i) == Data;
      ScanPlain(s, i + 1, j);
    }
  }

  /** One character of a `</script` read in any case. */
  lemma LowerAt(s: string, j: nat, p: nat)
    requires j + |EndTagStart| <= |s| && Lower(s[j..j + |EndTagStart|]) == EndTagStart && p < |EndTagStart|
    ensures LowerChar(s[j + p]) == EndTagStart[p]
    ensures 2 <= p ==> IsAsciiAlpha(s[j + p])
  {
    assert Lower(s[j..j + |EndTagStart|])[p] == LowerChar(s[j..j + |EndTagStart|][p]);
  }

  /** `</script`, in any case, read in the script data state, is an end tag named `script`. */
  lemma ScanEndTagName(s: string, j: nat)
    requires j + |EndTagStart| <= |s| && Lower(s[j..j + |EndTagStart|]) == EndTagStart
    ensures Scan(s, j, Data) == Scan(s, j + |EndTagStart|, EndTagName(j, TagName))
  {
    LowerAt(s, j, 0);
    LowerAt(s, j, 1);
    LowerAt(s, j, 2);
    LowerAt(s, j, 3);
    LowerAt(s, j, 4);
    LowerAt(s, j, 5);
    LowerAt(s, j, 6);
    LowerAt(s, j, 7);
    assert [LowerChar(s[j + 2])] == "s";
    assert "s" + [LowerChar(s[j + 3])] == "sc";
    assert "sc" + [LowerChar(s[j + 4])] == "scr";
    assert "scr" + [LowerChar(s[j + 5])] == "scri";
    assert "scri" + [LowerChar(s[j + 6])] == "scrip";
    assert "scrip" + [LowerChar(s[j + 7])] == TagName;
    assert Scan(s, j, Data) == Scan(s, j + 1, LessThan(j));
    assert Scan(s, j + 1, LessThan(j)) == Scan(s, j + 2, EndTagOpen(j));
    assert Scan(s, j + 2, EndTagOpen(j)) == Scan(s, j + 3, EndTagName(j, "s"));
    assert Scan(s, j + 3, EndTagName(j, "s")) == Scan(s, j + 4, EndTagName(j, "sc"));
    assert Scan(s, j + 4, EndTagName(j, "sc")) == Scan(s, j + 5, EndTagName(j, "scr"));
    assert Scan(s, j + 5, EndTagName(j, "scr")) == Scan(s, j + 6, EndTagName(j, "scri"));
    assert Scan(s, j + 6, EndTagName(j, "scri")) == Scan(s, j + 7, EndTagName(j, "scrip"));
    assert Scan(s, j + 7, EndTagName(j, "scrip")) == Scan(s, j + 8, EndTagName(j, TagName));
  }

  /** In the script data state, an end tag at `j` ends the element there. */
  lemma ScanEndTag(s: string, j: nat)
    requires EndTagAt(s, j)
    ensures Scan(s, j, Data) == Some(j)
  {
    ScanEndTagName(s, j);
  }

  /**
    `</script` followed by a character that neither ends the tag name, continues it, nor opens
    another tag is text: the script data state resumes after it.
   */
  lemma ScanNotEndTag(s: string, j: nat)
    requires j + |EndTagStart| < |s| && Lower(s[j..j + |EndTagStart|]) == EndTagStart
    requires var c := s[j + |EndTagStart|]; !EndsTagName(c) && !IsAsciiAlpha(c) && c != '<'
    ensures Scan(s, j, Data) == Scan(s, j + |EndTagStart| + 1, Data)
  {
    ScanEndTagName(s, j);
  }

  /** `</script>` as written is an end tag. */
  lemma EndTagLiteral(s: string, j: nat)
    requires j + 9 <= |s| && s[j..j + 9] == "</script>"
    ensures EndTagAt(s, j)
  {
    assert s[j..j + |EndTagStart|] == s[j..j + 9][..8];
    assert "</script>"[..8] == EndTagStart;
    LowerNoUpper(EndTagStart);
    assert s[j + |EndTagStart|] == s[j..j + 9][8];
  }

  /** `<!--<script>` read in the script data state leads to the double-escaped state. */
  lemma ScanDoubleEscapeOpen(s: string, i: nat)
    requires i + 12 <= |s| && s[i..i + 12] == "<!--<script>"
    ensures Scan(s, i, Data) == Scan(s, i + 12, DoubleEscaped)
  {
    forall k | 0 <= k < 12 ensures s[i + k] == "<!--<script>"[k] {
      assert s[i..i + 12][k] == s[i + k];
    }
    assert Scan(s, i, Data) == Scan(s, i + 1, LessThan(i));
    assert Scan(s, i + 1, LessThan(i)) == Scan(s, i + 2, EscapeStart);
    assert Scan(s, i + 2, EscapeStart) == Scan(s, i + 3, EscapeStartDash);
    assert Scan(s, i + 3, EscapeStartDash) == Scan(s, i + 4, EscapedDashDash);
    assert Scan(s, i + 4, EscapedDashDash) == Scan(s, i + 5, EscapedLessThan(i + 4));
    assert "s" + "c" == "sc" && "sc" + "r" == "scr" && "scr" + "i" == "scri" && "scri" + "p" == "scrip";
    assert "scrip" + "t" == TagName;
    assert Scan(s, i + 5, EscapedLessThan(i + 4)) == Scan(s, i + 6, DoubleEscapeStart("s"));
    assert Scan(s, i + 6, DoubleEscapeStart("s")) == Scan(s, i + 7, DoubleEscapeStart("sc"));
    assert Scan(s, i + 7, DoubleEscapeStart("sc")) == Scan(s, i + 8, DoubleEscapeStart("scr"));
    assert Scan(s, i + 8, DoubleEscapeStart("scr")) == Scan(s, i + 9, DoubleEscapeStart("scri"));
    assert Scan(s, i + 9, DoubleEscapeStart("scri")) == Scan(s, i + 10, DoubleEscapeStart("scrip"));
    assert Scan(s, i + 10, DoubleEscapeStart("scrip")) == Scan(s, i + 11, DoubleEscapeStart(TagName));
    assert Scan(s, i + 11, DoubleEscapeStart(TagName)) == Scan(s, i + 12, DoubleEscaped);
  }

  /** Text without `-` or `<` leaves the double-escaped state as it is. */
  lemma {:induction false} ScanDoubleEscapedPlain(s: string, i: nat, j: nat)
    requires i <= j <= |s| && forall k :: i <= k < j ==> s[k] != '<' && s[k] != '-'
    ensures Scan(s, i, DoubleEscaped) == Scan(s, j, DoubleEscaped)
    decreases j - i
  {
    if i < j {
      assert Next(DoubleEscaped, s[i], i) == DoubleEscaped;
      ScanDoubleEscapedPlain(s, i + 1, j);
    }
  }

  /**
    In the double-escaped state a closing `</script>` at the very end only returns the
    tokenizer to the escaped state: the element does not end within `s`.
   */
  lemma ScanDoubleEscapedClose(s: string, i: nat)
    requires i + 9 == |s| && s[i..] == "</script>"
    ensures Scan(s, i, DoubleEscaped) == None
  {
    forall k | 0 <= k < 9 ensures s[i + k] == "</script>"[k] {
      assert s[i..][k] == s[i + k];
    }
    assert Scan(s, i, DoubleEscaped) == Scan(s, i + 1, DoubleEscapedLessThan);
    assert Scan(s, i + 1, DoubleEscapedLessThan) == Scan(s, i + 2, DoubleEscapeEnd(""));
    assert "" + "s" == "s" && "s" + "c" == "sc" && "sc" + "r" == "scr" && "scr" + "i" == "scri";
    assert "scri" + "p" == "scrip" && "scrip" + "t" == TagName;
    assert Scan(s, i + 2, DoubleEscapeEnd("")) == Scan(s, i + 3, DoubleEscapeEnd("s"));
    assert Scan(s, i + 3, DoubleEscapeEnd("s")) == Scan(s, i + 4, DoubleEscapeEnd("sc"));
    assert Scan(s, i + 4, DoubleEscapeEnd("sc")) == Scan(s, i + 5, DoubleEscapeEnd("scr"));
    assert Scan(s, i + 5, DoubleEscapeEnd("scr")) == Scan(s, i + 6, DoubleEscapeEnd("scri"));
    assert Scan(s, i + 6, DoubleEscapeEnd("scri")) == Scan(s, i + 7, DoubleEscapeEnd("scrip"));
    assert Scan(s, i + 7, DoubleEscapeEnd("scrip")) == Scan(s, i + 8, DoubleEscapeEnd(TagName));
    assert Scan(s, i + 8, DoubleEscapeEnd(TagName)) == Scan(s, i + 9, Escaped);
  }
}

=== FILE: json.dfy ===
/**
  JSON values as the dev server handles them (parsed response bodies, the application
  configuration it builds), and the JavaScript operations it applies to them: truthiness,
  conversion to text in template literals, property reads (including destructuring), property
  assignment in strict-mode code, and `JSON.stringify`.
 */
module Json {
  import opened Wrappers
  import opened Text
  import opened Dict

  /** Numbers are integers here; objects keep their key order. */
  datatype Json =
    | JNull
    | JBool(b: bool)
    | JNumber(n: int)
    | JString(s: string)
    | JArray(items: seq<Json>)
    | JObject(fields: Dict<Json>)

  /** A JavaScript value: `None` stands for `undefined`. */
  type Value = Option<Json>

  /** JavaScript truthiness: `undefined`, `null`, `false`, `0` and `""` are falsy. */
  predicate Truthy(v: Value) {
    match v
    case None => false
    case Some(JNull) => false
    case Some(JBool(b)) => b
    case Some(JNumber(n)) => n != 0
    case Some(JString(s)) => s != ""
    case Some(JArray(_)) => true
    case Some(JObject(_)) => true
  }

  /** `String(j)`: how a value prints inside a template literal or an HTTP header. */
  function ToText(j: Json): string
    decreases j
  {
    match j
    case JNull => "null"
    case JBool(b) => if b then "true" else "false"
    case JNumber(n) => IntToString(n)
    case JString(s) => s
    case JObject(_) => "[object Object]"
    case JArray(items) =>
      // Array.prototype.join prints null elements as empty strings
      Join(seq(|items|, i requires 0 <= i < |items| => if items[i].JNull? then "" else ToText(items[i])), ",")
  }

  /** `${v}`, where `undefined` prints as "undefined". */
  function TemplateString(v: Value): string {
    match v
    case None => "undefined"
    case Some(j) => ToText(j)
  }

  /**
    `v[key]`, also as read by `const { key } = v`: reading from `undefined` or `null` throws a
    TypeError (the failure names the key), an object yields its own property, and any other
    value has no such property here.
   */
  function Property(v: Value, key: string): (r: Result<Value, string>)
    ensures r.Failure? <==> v.None? || v == Some(JNull)
    ensures v.Some? && v.value.JObject? ==> r == Success(Get(v.value.fields, key))
    ensures v.Some? && !v.value.JObject? && !v.value.JNull? ==> r == Success(None)
  {
    match v
    case None => Failure(key)
    case Some(JNull) => Failure(key)
    case Some(JObject(fields)) => Success(Get(fields, key))
    case Some(_) => Success(None)
  }

  /**
    `target[key] = value` in strict-mode code: an object gets the key (in place or appended);
    an array takes it as a property `JSON.stringify` does not print; on `null` or a primitive
    it throws a TypeError.
   */
  function SetProperty(target: Json, key: string, value: Json): (r: Result<Json, string>)
    ensures r.Success? <==> target.JObject? || target.JArray?
    ensures target.JObject? ==> r == Success(JObject(Put(target.fields, key, value)))
    ensures target.JArray? ==> r == Success(target)
  {
    match target
    case JObject(fields) => Success(JObject(Put(fields, key, value)))
    case JArray(_) => Success(target)
    case _ => Failure(key)
  }

  function HexDigit(d: nat): char
    requires d < 16
  {
    if d < 10 then DigitChar(d) else ('a' as int + d - 10) as char
  }

  /** How `JSON.stringify` writes one character inside a string literal. */
  function QuoteChar(c: char): string {
    if c == '"' then "\\\""
    else if c == '\\' then "\\\\"
    else if c == '\U{8}' then "\\b"
    else if c == '\U{C}' then "\\f"
    else if c == '\n' then "\\n"
    else if c == '\r' then "\\r"
    else if c == '\t' then "\\t"
    else if (c as int) < 0x20 then "\\u00" + [HexDigit(c as int / 16), HexDigit(c as int % 16)]
    else [c]
  }

  function QuoteString(s: string): string {
    if |s| == 0 then "" else QuoteChar(s[0]) + QuoteString(s[1..])
  }

  /** Printable text without `"` or a backslash is written as it is. */
  lemma {:induction false} QuoteStringPlain(s: string)
    requires forall i :: 0 <= i < |s| ==> s[i] as int >= 0x20 && s[i] != '"' && s[i] != '\\'
    ensures QuoteString(s) == s
    decreases |s|
  {
    if |s| > 0 {
      QuoteStringPlain(s[1..]);
      assert QuoteChar(s[0]) == [s[0]];
      assert s == [s[0]] + s[1..];
    }
  }

  /** `JSON.stringify(j)`. */
  function Stringify(j: Json): string
    decreases j
  {
    match j
    case JNull => "null"
    case JBool(b) => if b then "true" else "false"
    case JNumber(n) => IntToString(n)
    case JString(s) => "\"" + QuoteString(s) + "\""
    case JArray(items) =>
      "[" + Join(seq(|items|, i requires 0 <= i < |items| => Stringify(items[i])), ",") + "]"
    case JObject(fields) =>
      "{" + Join(seq(|fields|, i requires 0 <= i < |fields| =>
                       "\"" + QuoteString(fields[i].0) + "\":" + Stringify(fields[i].1)), ",") + "}"
  }

  /** Text without control characters below U+0020, line breaks among them. */
  predicate Printable(s: string) {
    forall i :: 0 <= i < |s| ==> s[i] as int >= 0x20
  }

  lemma PrintableConcat(a: string, b: string)
    ensures Printable(a + b) <==> Printable(a) && Printable(b)
  {
    if Printable(a) && Printable(b) {
      forall i | 0 <= i < |a + b| ensures (a + b)[i] as int >= 0x20 {
        if i >= |a| { assert (a + b)[i] == b[i - |a|]; }
      }
    }
    if Printable(a + b) {
      forall i | 0 <= i < |a| ensures a[i] as int >= 0x20 {
        assert (a + b)[i] == a[i];
      }
      forall i | 0 <= i < |b| ensures b[i] as int >= 0x20 {
        assert (a + b)[|a| + i] == b[i];
      }
    }
  }

  lemma {:induction false} QuoteStringPrintable(s: string)
    ensures Printable(QuoteString(s))
    decreases |s|
  {
    if |s| > 0 {
      QuoteStringPrintable(s[1..]);
      assert Printable(QuoteChar(s[0]));
      PrintableConcat(QuoteChar(s[0]), QuoteString(s[1..]));
    }
  }

  lemma {:induction false} JoinPrintable(parts: seq<string>, sep: string)
    requires Printable(sep) && forall k :: 0 <= k < |parts| ==> Printable(parts[k])
    ensures Printable(Join(parts, sep))
    decreases |parts|
  {
    if |parts| > 1 {
      JoinPrintable(parts[1..], sep);
      PrintableConcat(parts[0], sep);
      PrintableConcat(parts[0] + sep, Join(parts[1..], sep));
    }
  }

  /**
    `JSON.stringify` escapes every control character, so its text never holds a raw line break
    or other character below U+0020, whatever the value.
   */
  lemma {:induction false} StringifyPrintable(j: Json)
    ensures Printable(Stringify(j))
    decreases j
  {
    match j
    case JNull =>
    case JBool(b) =>
    case JNumber(n) =>
      NatToStringRoundTrip(if n < 0 then -n else n);
      PrintableConcat("-", NatToString(if n < 0 then -n else n));
    case JString(s) =>
      QuoteStringPrintable(s);
      PrintableConcat("\"", QuoteString(s));
      PrintableConcat("\"" + QuoteString(s), "\"");
    case JArray(items) =>
      var parts := seq(|items|, i requires 0 <= i < |items| => Stringify(items[i]));
      forall k | 0 <= k < |parts| ensures Printable(parts[k]) {
        StringifyPrintable(items[k]);
      }
      JoinPrintable(parts, ",");
      PrintableConcat("[", Join(parts, ","));
      PrintableConcat("[" + Join(parts, ","), "]");
    case JObject(fields) =>
      var parts := seq(|fields|, i requires 0 <= i < |fields| =>
                         "\"" + QuoteString(fields[i].0) + "\":" + Stringify(fields[i].1));
      forall k | 0 <= k < |parts| ensures Printable(parts[k]) {
        StringifyPrintable(fields[k].1);
        QuoteStringPrintable(fields[k].0);
        PrintableConcat("\"", QuoteString(fields[k].0));
        PrintableConcat("\"" + QuoteString(fields[k].0), "\":");
        PrintableConcat("\"" + QuoteString(fields[k].0) + "\":", Stringify(fields[k].1));
      }
      JoinPrintable(parts, ",");
      PrintableConcat("{", Join(parts, ","));
      PrintableConcat("{" + Join(parts, ","), "}");
  }
}

=== FILE: manifest.dfy ===
/**
  The manifest-building `emit` step of webpack/HubsWebpackPlugin.js. The build graph is an
  input: the compilation's entry points in iteration order, each with its chunks, each chunk
  with the `userRequest` of its modules in `modulesIterable` order. The served URL of a chunk
  (`compilation.getPath` on the output filename template) is the function `urlOf`.
 */
module Manifest {
  import opened Wrappers
  import opened Dict
  import opened Json
  import Resolver

  const ManifestAssetName: string := "plugin-manifest.json"

  datatype Chunk = Chunk(name: string, modules: seq<string>)

  datatype EntryPoint = EntryPoint(name: string, chunks: seq<Chunk>)

  /** `{type: "js", url, dependencies}`. */
  datatype HookEntry = HookEntry(kind: string, url: string, dependencies: seq<string>)

  /** The plugin's configuration: the hooks map each hook name to entry-point names. */
  datatype PluginConfig = PluginConfig(name: string, version: string, hooks: Dict<seq<string>>)

  datatype PluginManifest = PluginManifest(name: string, version: string, hooks: Dict<seq<HookEntry>>)

  predicate NoDuplicates(s: seq<string>) {
    forall i, j :: 0 <= i < j < |s| ==> s[i] != s[j]
  }

  /** The position of the first occurrence of `x` in `s`. */
  function IndexOf(s: seq<string>, x: string): (k: nat)
    requires x in s
    ensures k < |s| && s[k] == x
    ensures forall j :: 0 <= j < k ==> s[j] != x
  {
    if s[0] == x then 0 else 1 + IndexOf(s[1..], x)
  }

  /**
    The dependencies of one chunk: its module requests that were externalized, each once,
    collected in a `Set` as the modules are visited.
   */
  function Dependencies(externalized: set<string>, modules: seq<string>): (deps: seq<string>)
    ensures NoDuplicates(deps)
    ensures forall x :: x in deps <==> x in modules && x in externalized
    decreases |modules|
  {
    if |modules| == 0 then []
    else
      var prior := Dependencies(externalized, modules[..|modules| - 1]);
      var m := modules[|modules| - 1];
      assert forall x :: x in modules <==> x in modules[..|modules| - 1] || x == m by {
        assert modules == modules[..|modules| - 1] + [m];
      }
      if m in externalized && m !in prior then prior + [m] else prior
  }

  lemma IndexOfPrefix(s: seq<string>, x: string, n: nat)
    requires n <= |s| && x in s[..n]
    ensures IndexOf(s, x) == IndexOf(s[..n], x)
  {
    var k := IndexOf(s[..n], x);
    assert s[k] == x;
    var k' := IndexOf(s, x);
    assert s[..n][k'] == x by {
      assert k' <= k;
    }
  }

  /** The dependencies follow the order in which each request first occurs among the modules. */
  lemma {:induction false} DependenciesFirstOccurrenceOrder(externalized: set<string>, modules: seq<string>)
    ensures forall i, j :: 0 <= i < j < |Dependencies(externalized, modules)| ==>
              IndexOf(modules, Dependencies(externalized, modules)[i]) < IndexOf(modules, Dependencies(externalized, modules)[j])
    decreases |modules|
  {
    if |modules| > 0 {
      var n := |modules| - 1;
      var front := modules[..n];
      var prior := Dependencies(externalized, front);
      var m := modules[n];
      DependenciesFirstOccurrenceOrder(externalized, front);
      var deps := Dependencies(externalized, modules);
      forall i, j | 0 <= i < j < |deps| ensures IndexOf(modules, deps[i]) < IndexOf(modules, deps[j]) {
        assert deps[i] == prior[i] && prior[i] in front;
        IndexOfPrefix(modules, deps[i], n);
        if j < |prior| {
          assert deps[j] == prior[j] && prior[j] in front;
          IndexOfPrefix(modules, deps[j], n);
        } else {
          assert deps[j] == m && m !in front;
          assert IndexOf(modules, m) == n by {
            assert forall k :: 0 <= k < n ==> modules[k] == front[k];
          }
          assert IndexOf(modules, deps[i]) == IndexOf(front, prior[i]) < |front|;
        }
      }
    }
  }

  /** The entry a chunk contributes to each hook it serves. */
  function ChunkEntry(urlOf: Chunk -> string, externalized: set<string>, chunk: Chunk): HookEntry {
    HookEntry("js", urlOf(chunk), Dependencies(externalized, chunk.modules))
  }

  function Repeat(e: HookEntry, n: nat): (r: seq<HookEntry>)
    ensures |r| == n && forall i :: 0 <= i < n ==> r[i] == e
  {
    seq(n, _ => e)
  }

  /** The number of occurrences of `x` in `names`. */
  function Count(names: seq<string>, x: string): (c: nat)
    ensures c == 0 <==> x !in names
  {
    if |names| == 0 then 0 else (if names[0] == x then 1 else 0) + Count(names[1..], x)
  }

  /** `hooks[hookName] = []` for every declared hook name. */
  function EmptyHooks(declared: Dict<seq<string>>): (r: Dict<seq<HookEntry>>)
    ensures Keys(r) == Keys(declared)
    ensures forall i :: 0 <= i < |r| ==> r[i].1 == []
  {
    seq(|declared|, i requires 0 <= i < |declared| => (declared[i].0, []))
  }

  /**
    The innermost loops for one chunk of entry point `epName`: each hook's list gets the entry
    once per occurrence of `epName` among that hook's declared entry-point names. The lists are
    addressed by position, as the hooks object has the declared keys in the declared order.
   */
  function AddChunk(hooks: Dict<seq<HookEntry>>, declared: Dict<seq<string>>, epName: string, entry: HookEntry)
    : (r: Dict<seq<HookEntry>>)
    requires Keys(hooks) == Keys(declared)
    ensures Keys(r) == Keys(declared)
  {
    seq(|hooks|, i requires 0 <= i < |hooks| => (hooks[i].0, hooks[i].1 + Repeat(entry, Count(declared[i].1, epName))))
  }

  /** The loop over the chunks of one entry point. */
  function AddChunks(hooks: Dict<seq<HookEntry>>, declared: Dict<seq<string>>, urlOf: Chunk -> string,
                     externalized: set<string>, epName: string, chunks: seq<Chunk>): (r: Dict<seq<HookEntry>>)
    requires Keys(hooks) == Keys(declared)
    ensures Keys(r) == Keys(declared)
    decreases |chunks|
  {
    if |chunks| == 0 then hooks
    else
      var next := AddChunk(hooks, declared, epName, ChunkEntry(urlOf, externalized, chunks[0]));
      AddChunks(next, declared, urlOf, externalized, epName, chunks[1..])
  }

  /** The loop over the compilation's entry points. */
  function AddEntryPoints(hooks: Dict<seq<HookEntry>>, declared: Dict<seq<string>>, urlOf: Chunk -> string,
                          externalized: set<string>, eps: seq<EntryPoint>): (r: Dict<seq<HookEntry>>)
    requires Keys(hooks) == Keys(declared)
    ensures Keys(r) == Keys(declared)
    decreases |eps|
  {
    if |eps| == 0 then hooks
    else
      var next := AddChunks(hooks, declared, urlOf, externalized, eps[0].name, eps[0].chunks);
      AddEntryPoints(next, declared, urlOf, externalized, eps[1..])
  }

  /** The manifest of one build. */
  function Emit(config: PluginConfig, eps: seq<EntryPoint>, urlOf: Chunk -> string, externalized: set<string>)
    : (m: PluginManifest)
    ensures m.name == config.name && m.version == config.version
    ensures Keys(m.hooks) == Keys(config.hooks)
  {
    PluginManifest(config.name, config.version,
                   AddEntryPoints(EmptyHooks(config.hooks), config.hooks, urlOf, externalized, eps))
  }

  // ----- The per-hook reading of the manifest -----

  /** The entries of one entry point for a hook declaring `names`: per chunk, one per occurrence. */
  function EntryPointEntries(names: seq<string>, urlOf: Chunk -> string, externalized: set<string>,
                             epName: string, chunks: seq<Chunk>): seq<HookEntry>
    decreases |chunks|
  {
    if |chunks| == 0 then []
    else Repeat(ChunkEntry(urlOf, externalized, chunks[0]), Count(names, epName))
         + EntryPointEntries(names, urlOf, externalized, epName, chunks[1..])
  }

  /**
    The entries a hook declaring `names` receives, read hook by hook: entry point after entry
    point, chunk after chunk, one entry per occurrence of the entry point's name in `names`.
   */
  function HookEntries(names: seq<string>, urlOf: Chunk -> string, externalized: set<string>,
                       eps: seq<EntryPoint>): seq<HookEntry>
    decreases |eps|
  {
    if |eps| == 0 then []
    else EntryPointEntries(names, urlOf, externalized, eps[0].name, eps[0].chunks)
         + HookEntries(names, urlOf, externalized, eps[1..])
  }

  lemma {:induction false} AddChunksPerHook(hooks: Dict<seq<HookEntry>>, declared: Dict<seq<string>>,
                                            urlOf: Chunk -> string, externalized: set<string>,
                                            epName: string, chunks: seq<Chunk>)
    requires Keys(hooks) == Keys(declared)
    ensures var r := AddChunks(hooks, declared, urlOf, externalized, epName, chunks);
            forall i :: 0 <= i < |r| ==>
              r[i].1 == hooks[i].1 + EntryPointEntries(declared[i].1, urlOf, externalized, epName, chunks)
    decreases |chunks|
  {
    if |chunks| > 0 {
      var next := AddChunk(hooks, declared, epName, ChunkEntry(urlOf, externalized, chunks[0]));
      AddChunksPerHook(next, declared, urlOf, externalized, epName, chunks[1..]);
      var r := AddChunks(hooks, declared, urlOf, externalized, epName, chunks);
      forall i | 0 <= i < |r|
        ensures r[i].1 == hooks[i].1 + EntryPointEntries(declared[i].1, urlOf, externalized, epName, chunks)
      {
        var e := Repeat(ChunkEntry(urlOf, externalized, chunks[0]), Count(declared[i].1, epName));
        var rest := EntryPointEntries(declared[i].1, urlOf, externalized, epName, chunks[1..]);
        assert r[i].1 == (hooks[i].1 + e) + rest;
        assert (hooks[i].1 + e) + rest == hooks[i].1 + (e + rest);
      }
    }
  }

  lemma {:induction false} AddEntryPointsPerHook(hooks: Dict<seq<HookEntry>>, declared: Dict<seq<string>>,
                                                 urlOf: Chunk -> string, externalized: set<string>,
                                                 eps: seq<EntryPoint>)
    requires Keys(hooks) == Keys(declared)
    ensures var r := AddEntryPoints(hooks, declared, urlOf, externalized, eps);
            forall i :: 0 <= i < |r| ==> r[i].1 == hooks[i].1 + HookEntries(declared[i].1, urlOf, externalized, eps)
    decreases |eps|
  {
    if |eps| > 0 {
      var next := AddChunks(hooks, declared, urlOf, externalized, eps[0].name, eps[0].chunks);
      AddChunksPerHook(hooks, declared, urlOf, externalized, eps[0].name, eps[0].chunks);
      AddEntryPointsPerHook(next, declared, urlOf, externalized, eps[1..]);
      var r := AddEntryPoints(hooks, declared, urlOf, externalized, eps);
      forall i | 0 <= i < |r|
        ensures r[i].1 == hooks[i].1 + HookEntries(declared[i].1, urlOf, externalized, eps)
      {
        var e := EntryPointEntries(declared[i].1, urlOf, externalized, eps[0].name, eps[0].chunks);
        var rest := HookEntries(declared[i].1, urlOf, externalized, eps[1..]);
        assert r[i].1 == (hooks[i].1 + e) + rest;
        assert (hooks[i].1 + e) + rest == hooks[i].1 + (e + rest);
      }
    }
  }

  /**
    The fold over the build graph gives every declared hook exactly the entries of its per-hook
    reading, under its own name and in the declared order of hook names.
   */
  lemma EmitPerHook(config: PluginConfig, eps: seq<EntryPoint>, urlOf: Chunk -> string, externalized: set<string>)
    ensures var m := Emit(config, eps, urlOf, externalized);
            |m.hooks| == |config.hooks| &&
            forall i :: 0 <= i < |m.hooks| ==>
              m.hooks[i] == (config.hooks[i].0, HookEntries(config.hooks[i].1, urlOf, externalized, eps))
  {
    var m := Emit(config, eps, urlOf, externalized);
    AddEntryPointsPerHook(EmptyHooks(config.hooks), config.hooks, urlOf, externalized, eps);
    assert Keys(m.hooks) == Keys(config.hooks);
    forall i | 0 <= i < |m.hooks|
      ensures m.hooks[i] == (config.hooks[i].0, HookEntries(config.hooks[i].1, urlOf, externalized, eps))
    {
      assert Keys(m.hooks)[i] == Keys(config.hooks)[i];
      assert EmptyHooks(config.hooks)[i].1 == [];
      var entries := HookEntries(config.hooks[i].1, urlOf, externalized, eps);
      assert m.hooks[i].1 == [] + entries;
      assert [] + entries == entries;
    }
  }

  /** A hook none of whose declared names is an entry point of the build gets an empty list. */
  lemma {:induction false} UnmatchedHookIsEmpty(names: seq<string>, urlOf: Chunk -> string,
                                                externalized: set<string>, eps: seq<EntryPoint>)
    requires forall k :: 0 <= k < |eps| ==> eps[k].name !in names
    ensures HookEntries(names, urlOf, externalized, eps) == []
    decreases |eps|
  {
    if |eps| > 0 {
      EntryPointEntriesCount(names, urlOf, externalized, eps[0].name, eps[0].chunks);
      UnmatchedHookIsEmpty(names, urlOf, externalized, eps[1..]);
    }
  }

  lemma {:induction false} EntryPointEntriesCount(names: seq<string>, urlOf: Chunk -> string, externalized: set<string>,
                                                  epName: string, chunks: seq<Chunk>)
    ensures |EntryPointEntries(names, urlOf, externalized, epName, chunks)| == |chunks| * Count(names, epName)
    decreases |chunks|
  {
    if |chunks| > 0 {
      EntryPointEntriesCount(names, urlOf, externalized, epName, chunks[1..]);
      assert |chunks| * Count(names, epName) == Count(names, epName) + (|chunks| - 1) * Count(names, epName);
    }
  }

  /** Σ over entry points of (number of chunks) × (occurrences of the entry point's name). */
  function ExpectedCount(names: seq<string>, eps: seq<EntryPoint>): nat
    decreases |eps|
  {
    if |eps| == 0 then 0 else |eps[0].chunks| * Count(names, eps[0].name) + ExpectedCount(names, eps[1..])
  }

  /** A hook gets one entry per chunk of each matching entry point per occurrence of its name. */
  lemma {:induction false} HookEntriesCount(names: seq<string>, urlOf: Chunk -> string,
                                            externalized: set<string>, eps: seq<EntryPoint>)
    ensures |HookEntries(names, urlOf, externalized, eps)| == ExpectedCount(names, eps)
    decreases |eps|
  {
    if |eps| > 0 {
      EntryPointEntriesCount(names, urlOf, externalized, eps[0].name, eps[0].chunks);
      HookEntriesCount(names, urlOf, externalized, eps[1..]);
    }
  }

  /** Every entry of a hook is the entry of a chunk of an entry point the hook declares. */
  lemma {:induction false} HookEntriesProvenance(names: seq<string>, urlOf: Chunk -> string,
                                                 externalized: set<string>, eps: seq<EntryPoint>, e: HookEntry)
    requires e in HookEntries(names, urlOf, externalized, eps)
    ensures exists k, c :: 0 <= k < |eps| && 0 <= c < |eps[k].chunks| && eps[k].name in names &&
                           e == ChunkEntry(urlOf, externalized, eps[k].chunks[c])
    decreases |eps|
  {
    var first := EntryPointEntries(names, urlOf, externalized, eps[0].name, eps[0].chunks);
    if e in first {
      var c := EntryPointEntriesProvenance(names, urlOf, externalized, eps[0].name, eps[0].chunks, e);
      assert eps[0].chunks[c] == eps[0].chunks[c];
    } else {
      HookEntriesProvenance(names, urlOf, externalized, eps[1..], e);
      var k, c :| 0 <= k < |eps[1..]| && 0 <= c < |eps[1..][k].chunks| && eps[1..][k].name in names &&
                  e == ChunkEntry(urlOf, externalized, eps[1..][k].chunks[c]);
      assert eps[k + 1] == eps[1..][k];
    }
  }

  lemma {:induction false} EntryPointEntriesProvenance(names: seq<string>, urlOf: Chunk -> string, externalized: set<string>,
                                                       epName: string, chunks: seq<Chunk>, e: HookEntry)
    returns (c: nat)
    requires e in EntryPointEntries(names, urlOf, externalized, epName, chunks)
    ensures c < |chunks| && epName in names && e == ChunkEntry(urlOf, externalized, chunks[c])
    decreases |chunks|
  {
    var here := Repeat(ChunkEntry(urlOf, externalized, chunks[0]), Count(names, epName));
    if e in here {
      c := 0;
    } else {
      c := EntryPointEntriesProvenance(names, urlOf, externalized, epName, chunks[1..], e);
      c := c + 1;
    }
  }

  /**
    Every entry of the manifest is a `js` entry whose dependencies are distinct requests the
    resolver externalized and that occur among the modules of the entry's chunk.
   */
  lemma ManifestEntriesWellFormed(config: PluginConfig, eps: seq<EntryPoint>, urlOf: Chunk -> string,
                                  externalized: set<string>, i: nat, e: HookEntry)
    requires i < |Emit(config, eps, urlOf, externalized).hooks|
    requires e in Emit(config, eps, urlOf, externalized).hooks[i].1
    ensures e.kind == "js"
    ensures NoDuplicates(e.dependencies)
    ensures forall d :: d in e.dependencies ==> d in externalized
    ensures exists k, c :: 0 <= k < |eps| && 0 <= c < |eps[k].chunks| && eps[k].name in config.hooks[i].1 &&
                           e.url == urlOf(eps[k].chunks[c]) &&
                           (forall d :: d in e.dependencies <==> d in eps[k].chunks[c].modules && d in externalized)
  {
    EmitPerHook(config, eps, urlOf, externalized);
    HookEntriesProvenance(config.hooks[i].1, urlOf, externalized, eps, e);
  }

  /**
    When the record of externalized requests is the one the resolver built over the build's
    requests, every dependency in the manifest has a global binding.
   */
  lemma DependenciesAreBound(config: PluginConfig, eps: seq<EntryPoint>, urlOf: Chunk -> string,
                             requests: seq<string>, i: nat, e: HookEntry, d: string)
    requires var ext := Resolver.ExternalizeAll({}, requests);
             i < |Emit(config, eps, urlOf, ext).hooks| && e in Emit(config, eps, urlOf, ext).hooks[i].1
    requires d in e.dependencies
    ensures Resolver.RequestToExternal(d).Some?
    ensures d in requests
  {
    var ext := Resolver.ExternalizeAll({}, requests);
    ManifestEntriesWellFormed(config, eps, urlOf, ext, i, e);
    Resolver.ExternalizeAllCollects({}, requests);
  }

  // ----- Serialization -----

  function EntryJson(e: HookEntry): Json {
    JObject([("type", JString(e.kind)), ("url", JString(e.url)),
             ("dependencies", JArray(seq(|e.dependencies|, i requires 0 <= i < |e.dependencies| => JString(e.dependencies[i]))))])
  }

  function ManifestJson(m: PluginManifest): Json {
    JObject([("name", JString(m.name)), ("version", JString(m.version)),
             ("hooks", JObject(seq(|m.hooks|, i requires 0 <= i < |m.hooks| =>
                          (m.hooks[i].0, JArray(seq(|m.hooks[i].1|, j requires 0 <= j < |m.hooks[i].1| => EntryJson(m.hooks[i].1[j])))))))])
  }

  /**
    The end of the `emit` tap: the serialized manifest becomes the asset `plugin-manifest.json`;
    the compilation's other assets are untouched.
   */
  function EmitAssets(assets: map<string, string>, config: PluginConfig, eps: seq<EntryPoint>,
                      urlOf: Chunk -> string, externalized: set<string>): (r: map<string, string>)
    ensures r.Keys == assets.Keys + {ManifestAssetName}
    ensures forall k :: k in assets && k != ManifestAssetName ==> r[k] == assets[k]
    ensures r[ManifestAssetName] == Stringify(ManifestJson(Emit(config, eps, urlOf, externalized)))
  {
    assets[ManifestAssetName := Stringify(ManifestJson(Emit(config, eps, urlOf, externalized)))]
  }
}

=== FILE: pages.dfy ===
/**
  Page composition in the dev servers' `init` and page handler: the `env:` meta tags, the
  script that publishes `APP_CONFIG`, the header block put into each page, and the substitution
  of that block for the META_TAGS placeholder of a page template.
 */
module Pages {
  import opened Wrappers
  import opened Text
  import opened Dict
  import opened Json
  import opened HtmlScript

  /** The comment each page template carries where the header block goes. */
  const Placeholder: string := "<!-- DO NOT REMOVE/EDIT THIS COMMENT - META_TAGS -->"

  const MetaPrefix: string := "<meta name=\"env:"
  const MetaMiddle: string := "\" content=\""
  const MetaEnd: string := "\">"

  /** The meta tag of one environment entry; the key is lower-cased, the value spliced as it is. */
  function MetaTag(key: string, value: string): string {
    MetaPrefix + Lower(key) + MetaMiddle + value + MetaEnd
  }

  /** One meta tag per environment key, in key order. */
  function MetaTags(env: Dict<string>): (tags: seq<string>)
    ensures |tags| == |env|
    ensures forall i :: 0 <= i < |env| ==> tags[i] == MetaTag(env[i].0, env[i].1)
  {
    seq(|env|, i requires 0 <= i < |env| => MetaTag(env[i].0, env[i].1))
  }

  /** The position of the first `c` in `s`. */
  function IndexOfChar(s: string, c: char): (r: Option<nat>)
    ensures r.Some? ==> r.value < |s| && s[r.value] == c && c !in s[..r.value]
    ensures r.None? ==> c !in s
  {
    if |s| == 0 then None
    else if s[0] == c then Some(0)
    else match IndexOfChar(s[1..], c)
      case None => None
      case Some(i) => assert s[..i + 1] == [s[0]] + s[1..][..i]; Some(i + 1)
  }

  /**
    How a reader of the page recovers an environment entry from its tag: the name up to the
    first double quote, the content up to the next one.
   */
  function ParseMetaTag(tag: string): Option<(string, string)> {
    if !StartsWith(tag, MetaPrefix) then None
    else
      var rest := tag[|MetaPrefix|..];
      match IndexOfChar(rest, '"')
      case None => None
      case Some(i) =>
        var tail := rest[i..];
        if !StartsWith(tail, MetaMiddle) then None
        else
          var content := tail[|MetaMiddle|..];
          match IndexOfChar(content, '"')
          case None => None
          case Some(j) => if content[j..] == MetaEnd then Some((rest[..i], content[..j])) else None
  }

  lemma LowerKeepsQuotes(s: string)
    ensures '"' in Lower(s) <==> '"' in s
  {
    if '"' in s {
      var i :| 0 <= i < |s| && s[i] == '"';
      assert Lower(s)[i] == '"';
    }
  }

  /** The first `c` of `a + x` is the head of `x` when `a` has none. */
  lemma {:induction false} IndexOfCharAppend(a: string, x: string, c: char)
    requires c !in a && |x| > 0 && x[0] == c
    ensures IndexOfChar(a + x, c) == Some(|a|)
    decreases |a|
  {
    if |a| == 0 {
      assert a + x == x;
    } else {
      assert (a + x)[0] == a[0];
      assert (a + x)[1..] == a[1..] + x;
      IndexOfCharAppend(a[1..], x, c);
    }
  }

  /**
    A tag reads back as the lower-cased key and the value, for keys and values without a double
    quote.
   */
  lemma MetaTagRoundTrip(key: string, value: string)
    requires '"' !in key && '"' !in value
    ensures ParseMetaTag(MetaTag(key, value)) == Some((Lower(key), value))
  {
    LowerKeepsQuotes(key);
    var name := Lower(key);
    assert MetaTag(key, value) == MetaPrefix + (name + (MetaMiddle + (value + MetaEnd)));
    ParseMetaTagOf(MetaTag(key, value), name, value);
  }

  lemma ParseMetaTagOf(tag: string, name: string, value: string)
    requires '"' !in name && '"' !in value
    requires tag == MetaPrefix + (name + (MetaMiddle + (value + MetaEnd)))
    ensures ParseMetaTag(tag) == Some((name, value))
  {
    var content := value + MetaEnd;
    var tail := MetaMiddle + content;
    var rest := name + tail;
    StartsWithConcat(MetaPrefix, rest);
    IndexOfCharAppend(name, tail, '"');
    StartsWithConcat(name, tail);
    StartsWithConcat(MetaMiddle, content);
    IndexOfCharAppend(value, MetaEnd, '"');
    StartsWithConcat(value, MetaEnd);
  }

  /** The env meta tags of one page header, one per line. */
  function MetaBlock(env: Dict<string>): string {
    Join(MetaTags(env), "\n")
  }

  /** The header block shared by the two pages apart from its base-assets path and title. */
  function PageHeader(metaBlock: string, basePath: string, title: string, script: string): string {
    "\n      " + metaBlock + "\n      <meta name=\"env:base_assets_path\" content=\"" +
    (basePath + ("\">\n      <title>" + (title + ("</title>\n      " + script))))
  }

  /** The script closes the header block. */
  lemma PageHeaderEndsWithScript(meta: string, base: string, title: string, script: string)
    ensures PageHeader(meta, base, title, script) == PageHeader(meta, base, title, "") + script
  {
    var tail := "</title>\n      ";
    assert tail + script == (tail + "") + script;
    assert title + (tail + script) == (title + (tail + "")) + script;
    var mid := "\">\n      <title>";
    assert mid + (title + (tail + script)) == (mid + (title + (tail + ""))) + script;
    assert base + (mid + (title + (tail + script))) == (base + (mid + (title + (tail + "")))) + script;
  }

  /** Two headers with the same meta tags and script are equal exactly when base path and title are. */
  lemma PageHeaderInjective(meta: string, base1: string, title1: string, base2: string, title2: string, script: string)
    requires '"' !in base1 && '"' !in base2 && '<' !in title1 && '<' !in title2
    ensures PageHeader(meta, base1, title1, script) == PageHeader(meta, base2, title2, script) <==>
            base1 == base2 && title1 == title2
  {
    if PageHeader(meta, base1, title1, script) == PageHeader(meta, base2, title2, script) {
      var p := "\n      " + meta + "\n      <meta name=\"env:base_assets_path\" content=\"";
      var t1 := title1 + ("</title>\n      " + script);
      var t2 := title2 + ("</title>\n      " + script);
      var s1 := base1 + ("\">\n      <title>" + t1);
      var s2 := base2 + ("\">\n      <title>" + t2);
      assert s1 == (p + s1)[|p|..];
      assert s2 == (p + s2)[|p|..];
      QuoteSplit(base1, base2, "\">\n      <title>" + t1, "\">\n      <title>" + t2, '"');
      var q := "\">\n      <title>";
      assert q + t1 == s1[|base1|..];
      assert q + t2 == s2[|base2|..];
      assert t1 == (q + t1)[|q|..];
      assert t2 == (q + t2)[|q|..];
      QuoteSplit(title1, title2, "</title>\n      " + script, "</title>\n      " + script, '<');
    }
  }

  /** Two strings free of `c`, each followed by a text starting with `c`, split a common string alike. */
  lemma QuoteSplit(a: string, b: string, x: string, y: string, c: char)
    requires c !in a && c !in b && |x| > 0 && |y| > 0 && x[0] == c && y[0] == c
    requires a + x == b + y
    ensures a == b
  {
    IndexOfCharAppend(a, x, c);
    IndexOfCharAppend(b, y, c);
    assert a == (a + x)[..|a|];
    assert b == (b + y)[..|b|];
  }

  /**
    What `replace` makes of a replacement string when the pattern is a string: `$$` is a dollar
    sign, `$&` the matched text, `` $` `` the text before the match, `$'` the text after it; any
    other `$` stands for itself.
   */
  function Substitution(rep: string, matched: string, before: string, after: string): string
    decreases |rep|
  {
    if |rep| == 0 then ""
    else if rep[0] == '$' && |rep| >= 2 && rep[1] in "$&`'" then
      (if rep[1] == '$' then "$" else if rep[1] == '&' then matched else if rep[1] == '`' then before else after)
      + Substitution(rep[2..], matched, before, after)
    else [rep[0]] + Substitution(rep[1..], matched, before, after)
  }

  /** A replacement without a dollar sign is taken literally. */
  lemma {:induction false} SubstitutionLiteral(rep: string, matched: string, before: string, after: string)
    requires '$' !in rep
    ensures Substitution(rep, matched, before, after) == rep
    decreases |rep|
  {
    if |rep| > 0 {
      assert '$' !in rep[1..];
      SubstitutionLiteral(rep[1..], matched, before, after);
    }
  }

  /** The page handler as written: `html.replace(Placeholder, header)`, dollar patterns included. */
  function RenderPageAsWritten(template: string, header: string): string {
    match FindFirst(template, Placeholder)
    case None => template
    case Some(i) =>
      template[..i] + Substitution(header, Placeholder, template[..i], template[i + |Placeholder|..]) +
      template[i + |Placeholder|..]
  }

  /** The leftmost occurrence is unique. */
  lemma FirstOccurrenceUnique(s: string, pat: string, i: int, j: int)
    requires FirstOccurrence(s, pat, i) && FirstOccurrence(s, pat, j)
    ensures i == j
  {
  }

  /**
    A header holding `$&` (a configuration string with those two characters is enough) puts the
    placeholder back instead of itself: the page comes out as the bare template.
   */
  lemma RenderPageAsWrittenDropsHeader(before: string, after: string)
    requires forall j :: 0 <= j < |before| ==> !OccursAt(before + Placeholder, Placeholder, j)
    ensures var template := before + Placeholder + after;
            RenderPageAsWritten(template, "$&") == template &&
            RenderPage(template, "$&") == before + "$&" + after
  {
    var template := before + Placeholder + after;
    PlaceholderFirstAt(before, after);
    var i := FindFirst(template, Placeholder).value;
    FirstOccurrenceUnique(template, Placeholder, i, |before|);
    DollarAmpersand(Placeholder, before, after);
    RenderPageAt(before, after, "$&");
  }

  /** `$&` in a replacement stands for the matched text. */
  lemma DollarAmpersand(matched: string, before: string, after: string)
    ensures Substitution("$&", matched, before, after) == matched
  {
    assert Substitution("$&", matched, before, after) == matched + Substitution("", matched, before, after);
  }

  /** The first placeholder of `before + Placeholder + after` follows `before` when `before` holds none. */
  lemma PlaceholderFirstAt(before: string, after: string)
    requires forall j :: 0 <= j < |before| ==> !OccursAt(before + Placeholder, Placeholder, j)
    ensures var template := before + Placeholder + after;
            FirstOccurrence(template, Placeholder, |before|) &&
            template[..|before|] == before && template[|before| + |Placeholder|..] == after
  {
    var template := before + Placeholder + after;
    assert template == (before + Placeholder) + after;
    assert OccursAt(template, Placeholder, |before|) by {
      assert template[|before|..|before| + |Placeholder|] == Placeholder;
    }
    forall j | 0 <= j < |before| ensures !OccursAt(template, Placeholder, j) {
      assert template[j..j + |Placeholder|] == (before + Placeholder)[j..j + |Placeholder|];
      assert OccursAt(template, Placeholder, j) == OccursAt(before + Placeholder, Placeholder, j);
    }
    assert template[..|before|] == before;
    assert template[|before| + |Placeholder|..] == after;
  }

  /**
    The page handler: the header block in place of the first placeholder, taken literally; a
    template without the placeholder is served unchanged.
   */
  function RenderPage(template: string, header: string): (page: string)
    ensures (forall j :: !OccursAt(template, Placeholder, j)) ==> page == template
    ensures forall i :: FirstOccurrence(template, Placeholder, i) ==>
              page == template[..i] + header + template[i + |Placeholder|..]
  {
    ReplaceFirst(template, Placeholder, header)
  }

  /** A template whose first placeholder follows `before` is served as `before`, the header, and the rest. */
  lemma RenderPageAt(before: string, after: string, header: string)
    requires forall j :: 0 <= j < |before| ==> !OccursAt(before + Placeholder, Placeholder, j)
    ensures RenderPage(before + Placeholder + after, header) == before + header + after
  {
    PlaceholderFirstAt(before, after);
  }

  /** Without a dollar sign in the header, the page handler as written renders the same page. */
  lemma RenderPageAgrees(template: string, header: string)
    requires '$' !in header
    ensures RenderPageAsWritten(template, header) == RenderPage(template, header)
  {
    match FindFirst(template, Placeholder)
    case None =>
    case Some(i) =>
      SubstitutionLiteral(header, Placeholder, template[..i], template[i + |Placeholder|..]);
  }

  const ScriptOpen: string := "<script>"
  const ScriptCall: string := "window.APP_CONFIG = JSON.parse('"
  const ScriptClose: string := "</script>"

  /** The script up to the opening quote of the literal, and from its closing quote on. */
  const ScriptPrefix: string := ScriptOpen + ScriptCall
  const ScriptSuffix: string := "');" + ScriptClose

  /** `init`'s `APP_CONFIG` script as written: the JSON text spliced into the quotes as it is. */
  function AppConfigScriptAsWritten(appConfig: Json): string {
    ScriptPrefix + Stringify(appConfig) + ScriptSuffix
  }

  /** The value of a hexadecimal digit. */
  function HexValue(c: char): Option<nat> {
    if '0' <= c <= '9' then Some(c as int - '0' as int)
    else if 'a' <= c <= 'f' then Some(c as int - 'a' as int + 10)
    else if 'A' <= c <= 'F' then Some(c as int - 'A' as int + 10)
    else None
  }

  function HexNumber(s: string): Option<nat>
    decreases |s|
  {
    if |s| == 0 then Some(0)
    else
      match HexValue(s[|s| - 1])
      case None => None
      case Some(d) =>
        match HexNumber(s[..|s| - 1])
        case None => None
        case Some(n) => Some(n * 16 + d)
  }

  /**
    The character an escape sequence of a JavaScript string literal stands for, given the text
    after the backslash, and the length of the sequence after the backslash. Escapes outside
    this set (octal digits, line continuations, `\u{...}`, lone surrogates) give `None`.
   */
  function EscapeValue(u: string): (r: Option<(char, nat)>)
    requires |u| >= 1
    ensures r.Some? ==> 1 <= r.value.1 <= |u|
  {
    var c := u[0];
    if c == 'n' then Some(('\n', 1))
    else if c == 'r' then Some(('\r', 1))
    else if c == 't' then Some(('\t', 1))
    else if c == 'b' then Some(('\U{8}', 1))
    else if c == 'f' then Some(('\U{C}', 1))
    else if c == 'v' then Some(('\U{B}', 1))
    else if c == '\'' || c == '"' || c == '\\' || c == '<' then Some((c, 1))
    else if c == 'x' then
      if |u| < 3 then None
      else match HexNumber(u[1..3])
        case None => None
        case Some(n) => if n < 0x100 then Some((n as char, 3)) else None
    else if c == 'u' then
      if |u| < 5 then None
      else match HexNumber(u[1..5])
        case None => None
        case Some(n) => if n < 0xD800 || 0xE000 <= n < 0x11_0000 then Some((n as char, 5)) else None
    else None
  }

  /**
    A single-quoted JavaScript string literal, read from just after its opening quote: its
    value and the position of the closing quote. An unescaped line break, a missing closing
    quote or an escape outside `EscapeValue` give `None`.
   */
  function Unquote(t: string): (r: Option<(string, nat)>)
    ensures r.Some? ==> r.value.1 < |t| && t[r.value.1] == '\''
    decreases |t|, 1
  {
    if |t| == 0 then None
    else if t[0] == '\'' then Some(("", 0))
    else if t[0] == '\n' || t[0] == '\r' then None
    else if t[0] != '\\' then
      match Unquote(t[1..])
      case None => None
      case Some(p) => Some(([t[0]] + p.0, p.1 + 1))
    else UnquoteEscape(t)
  }

  /** The rest of a literal that continues with a backslash. */
  function UnquoteEscape(t: string): (r: Option<(string, nat)>)
    requires |t| > 0 && t[0] == '\\'
    ensures r.Some? ==> r.value.1 < |t| && t[r.value.1] == '\''
    decreases |t|, 0
  {
    if |t| < 2 then None
    else
      match EscapeValue(t[1..])
      case None => None
      case Some(e) =>
        match Unquote(t[1 + e.1..])
        case None => None
        case Some(p) => Some(([e.0] + p.0, p.1 + 1 + e.1))
  }

  /**
    The text `JSON.parse` receives from an `APP_CONFIG` script: the HTML tokenizer must end the
    script element at the script's own end tag, and the literal must end where intended.
   */
  function EmbeddedText(script: string): Option<string> {
    if !StartsWith(script, ScriptPrefix) || ElementEnd(script, |ScriptOpen|) != Some(|script| - |ScriptClose|) then None
    else
      var body := script[|ScriptPrefix|..];
      match Unquote(body)
      case None => None
      case Some(p) => if body[p.1..] == ScriptSuffix then Some(p.0) else None
  }

  /** A script of the intended shape whose literal holds no `<` ends at its own end tag. */
  lemma EndsAtOwnTag(mid: string)
    requires '<' !in mid
    ensures var script := ScriptPrefix + mid + ScriptSuffix;
            ElementEnd(script, |ScriptOpen|) == Some(|script| - |ScriptClose|)
  {
    var script := ScriptPrefix + mid + ScriptSuffix;
    ScanToText(script, mid, 0);
    assert mid[|ScriptPrefix| - |ScriptPrefix|..] == mid;
    ScanToOwnTag(script, mid, |ScriptPrefix|);
  }

  /**
    For JSON text that a single-quoted literal carries as it is, the script as written hands
    `JSON.parse` exactly that text if and only if the tokenizer ends the element at the
    script's own end tag; otherwise `JSON.parse` gets nothing.
   */
  lemma AppConfigScriptAsWrittenCarries(appConfig: Json)
    requires LiteralSafe(Stringify(appConfig))
    ensures var script := AppConfigScriptAsWritten(appConfig);
            (EmbeddedText(script) == Some(Stringify(appConfig)) <==>
               ElementEnd(script, |ScriptOpen|) == Some(|script| - |ScriptClose|)) &&
            (EmbeddedText(script) == Some(Stringify(appConfig)) || EmbeddedText(script) == None)
  {
    var text := Stringify(appConfig);
    var body := text + ScriptSuffix;
    LiteralSafeRoundTrip(text, ScriptSuffix);
    StartsWithConcat(ScriptPrefix, body);
    StartsWithConcat(text, ScriptSuffix);
    assert AppConfigScriptAsWritten(appConfig) == ScriptPrefix + body;
    EmbeddedTextDecided(ScriptPrefix + body, text, |text|);
  }

  /** A script whose literal closes where intended embeds its text exactly when the element ends at its own end tag. */
  lemma EmbeddedTextDecided(script: string, text: string, close: nat)
    requires StartsWith(script, ScriptPrefix) && Unquote(script[|ScriptPrefix|..]) == Some((text, close))
    requires script[|ScriptPrefix|..][close..] == ScriptSuffix
    ensures EmbeddedText(script) == if ElementEnd(script, |ScriptOpen|) == Some(|script| - |ScriptClose|) then Some(text) else None
  {
  }

  /** A character `JSON.stringify` and a single-quoted literal both carry as they are. */
  predicate PlainChar(c: char) {
    c as int >= 0x20 && c != '"' && c != '\\' && c != '\''
  }

  /** The JSON text of a string of plain characters is the string in double quotes, and literal-safe. */
  lemma PlainJson(s: string)
    requires forall i :: 0 <= i < |s| ==> PlainChar(s[i])
    ensures Stringify(JString(s)) == "\"" + s + "\""
    ensures LiteralSafe(Stringify(JString(s)))
  {
    QuoteStringPlain(s);
    PlainLiteralSafe(s);
  }

  /**
    A configuration string of plain characters whose first `<` starts `</script`, in any case,
    followed by a space, `/` or `>` (a URL or an HTML snippet in a translation is enough) is
    safe for the literal, but the tokenizer ends the element there, inside the literal, so
    `JSON.parse` never runs.
   */
  lemma AppConfigScriptAsWrittenClosedEarly(s: string, j: nat)
    requires forall i :: 0 <= i < |s| ==> PlainChar(s[i])
    requires j <= |s| && '<' !in s[..j] && EndTagAt(s, j)
    ensures LiteralSafe(Stringify(JString(s)))
    ensures ElementEnd(AppConfigScriptAsWritten(JString(s)), |ScriptOpen|) == Some(|ScriptPrefix| + 1 + j)
    ensures EmbeddedText(AppConfigScriptAsWritten(JString(s))) == None
  {
    PlainJson(s);
    var script := ScriptPrefix + ("\"" + s + "\"") + ScriptSuffix;
    assert script == AppConfigScriptAsWritten(JString(s));
    ClosedEarlyScan(script, s, j);
  }

  lemma ClosedEarlyScan(script: string, s: string, j: nat)
    requires script == ScriptPrefix + ("\"" + s + "\"") + ScriptSuffix
    requires j <= |s| && '<' !in s[..j] && EndTagAt(s, j)
    ensures ElementEnd(script, |ScriptOpen|) == Some(|ScriptPrefix| + 1 + j)
  {
    var p := |ScriptPrefix| + 1 + j;
    var text := "\"" + s + "\"";
    assert text[..1 + j] == "\"" + s[..j];
    ScanToText(script, text, 1 + j);
    assert script[p..p + |EndTagStart|] == s[j..j + |EndTagStart|];
    assert script[p + |EndTagStart|] == s[j + |EndTagStart|];
    ScanEndTag(script, p);
  }

  lemma PlainLiteralSafe(s: string)
    requires forall i :: 0 <= i < |s| ==> PlainChar(s[i])
    ensures LiteralSafe("\"" + s + "\"")
  {
    var text := "\"" + s + "\"";
    forall i | 0 <= i < |text| ensures text[i] != '\\' && text[i] != '\'' && text[i] != '\n' && text[i] != '\r' {
      if 0 < i < |text| - 1 {
        assert text[i] == s[i - 1];
      }
    }
  }

  /**
    The script as written around the JSON text `text`, read as script data from its start up
    to the first `<` of the text.
   */
  lemma ScanToText(script: string, text: string, upTo: nat)
    requires script == ScriptPrefix + text + ScriptSuffix
    requires upTo <= |text| && '<' !in text[..upTo]
    ensures ElementEnd(script, |ScriptOpen|) == Scan(script, |ScriptPrefix| + upTo, Data)
  {
    forall k | |ScriptOpen| <= k < |ScriptPrefix| + upTo ensures script[k] != '<' {
      if k < |ScriptPrefix| {
        assert script[k] == ScriptCall[k - |ScriptOpen|];
      } else {
        assert script[k] == text[..upTo][k - |ScriptPrefix|];
      }
    }
    ScanPlain(script, |ScriptOpen|, |ScriptPrefix| + upTo);
  }

  /** From index `from` on, the script as written reads as script data up to its own end tag. */
  lemma ScanToOwnTag(script: string, text: string, from: nat)
    requires script == ScriptPrefix + text + ScriptSuffix
    requires |ScriptPrefix| <= from <= |ScriptPrefix| + |text| && '<' !in text[from - |ScriptPrefix|..]
    ensures Scan(script, from, Data) == Some(|script| - |ScriptClose|)
  {
    var e := |script| - |ScriptClose|;
    assert script[from..e] == text[from - |ScriptPrefix|..] + "');";
    forall k | from <= k < e ensures script[k] != '<' {
      assert script[k] == script[from..e][k - from];
    }
    ScanPlain(script, from, e);
    assert script[e..e + 9] == ScriptClose;
    EndTagLiteral(script, e);
    ScanEndTag(script, e);
  }

  /** What opens an HTML comment and then a script tag. */
  const CommentedScriptTag: string := "<!--<script>"

  /**
    A configuration string that starts with `<!--<script>` puts the tokenizer in the
    double-escaped state: the script's own end tag only leaves that state, the element runs on
    into the rest of the page, and `JSON.parse` never runs.
   */
  lemma AppConfigScriptAsWrittenRunsOn(r: string)
    requires forall i :: 0 <= i < |r| ==> PlainChar(r[i]) && r[i] != '<' && r[i] != '-'
    ensures LiteralSafe(Stringify(JString(CommentedScriptTag + r)))
    ensures ElementEnd(AppConfigScriptAsWritten(JString(CommentedScriptTag + r)), |ScriptOpen|) == None
    ensures EmbeddedText(AppConfigScriptAsWritten(JString(CommentedScriptTag + r))) == None
  {
    var s := CommentedScriptTag + r;
    forall i | 0 <= i < |s| ensures PlainChar(s[i]) {
      if i < |CommentedScriptTag| {
        assert s[i] in CommentedScriptTag;
      } else {
        assert s[i] == r[i - |CommentedScriptTag|];
      }
    }
    PlainJson(s);
    var text := "\"" + s + "\"";
    assert AppConfigScriptAsWritten(JString(s)) == ScriptPrefix + text + ScriptSuffix;
    RunsOnScan(ScriptPrefix + text + ScriptSuffix, text, r);
  }

  lemma RunsOnScan(script: string, text: string, r: string)
    requires forall i :: 0 <= i < |r| ==> r[i] != '<' && r[i] != '-'
    requires text == "\"" + (CommentedScriptTag + r) + "\"" && script == ScriptPrefix + text + ScriptSuffix
    ensures ElementEnd(script, |ScriptOpen|) == None
  {
    var p := |ScriptPrefix| + 1;
    assert text[..1] == "\"";
    ScanToText(script, text, 1);
    assert script[p..p + 12] == CommentedScriptTag;
    ScanDoubleEscapeOpen(script, p);
    var q := p + 12;
    var e := |script| - |ScriptClose|;
    assert script[q..e] == r + "\"');";
    forall k | q <= k < e ensures script[k] != '<' && script[k] != '-' {
      assert script[k] == script[q..e][k - q];
    }
    ScanDoubleEscapedPlain(script, q, e);
    assert script[e..] == ScriptClose;
    ScanDoubleEscapedClose(script, e);
  }

  /**
    `</script` followed by a character that neither ends a tag name nor is a letter (the closing
    `"` of the JSON string, when it ends the configuration string) is no end tag: a configuration
    string of plain characters holding one where it is the only `<` reaches `JSON.parse` intact.
   */
  lemma AppConfigScriptAsWrittenKeepsTagText(a: string, b: string)
    requires forall i :: 0 <= i < |a| ==> PlainChar(a[i]) && a[i] != '<'
    requires forall i :: 0 <= i < |b| ==> PlainChar(b[i]) && b[i] != '<'
    requires |b| > 0 ==> !EndsTagName(b[0]) && !IsAsciiAlpha(b[0])
    ensures var s := a + EndTagStart + b;
            LiteralSafe(Stringify(JString(s))) &&
            EmbeddedText(AppConfigScriptAsWritten(JString(s))) == Some(Stringify(JString(s)))
  {
    var s := a + EndTagStart + b;
    forall i | 0 <= i < |s| ensures PlainChar(s[i]) {
      if |a| <= i < |a| + |EndTagStart| {
        assert s[i] in EndTagStart;
      }
    }
    PlainJson(s);
    var text := "\"" + s + "\"";
    assert AppConfigScriptAsWritten(JString(s)) == ScriptPrefix + text + ScriptSuffix;
    KeepsTagTextScan(ScriptPrefix + text + ScriptSuffix, text, a, b);
    AppConfigScriptAsWrittenCarries(JString(s));
  }

  lemma KeepsTagTextScan(script: string, text: string, a: string, b: string)
    requires forall i :: 0 <= i < |a| ==> a[i] != '<'
    requires forall i :: 0 <= i < |b| ==> b[i] != '<'
    requires |b| > 0 ==> !EndsTagName(b[0]) && !IsAsciiAlpha(b[0])
    requires text == "\"" + (a + EndTagStart + b) + "\"" && script == ScriptPrefix + text + ScriptSuffix
    ensures ElementEnd(script, |ScriptOpen|) == Some(|script| - |ScriptClose|)
  {
    var u := 1 + |a|;
    assert text[..u] == "\"" + a;
    ScanToText(script, text, u);
    var p := |ScriptPrefix| + u;
    assert script[p..p + |EndTagStart|] == EndTagStart;
    LowerNoUpper(EndTagStart);
    assert script[p + |EndTagStart|] == if |b| > 0 then b[0] else '"';
    ScanNotEndTag(script, p);
    var v := u + |EndTagStart|;
    assert text[v..] == b + "\"";
    ScanToOwnTag(script, text, p + |EndTagStart| + 1);
  }

  /** A configuration string with a single quote ends the literal of the script as written early. */
  lemma AppConfigScriptAsWrittenEndsEarly()
    ensures Stringify(JString("'")) == "\"'\""
    ensures EmbeddedText(AppConfigScriptAsWritten(JString("'"))) == None
  {
    var body := ['"', '\'', '"'] + ScriptSuffix;
    var script := ScriptPrefix + body;
    WrittenScript("'", "'", body);
    StartsWithConcat(ScriptPrefix, body);
    QuoteEndsEarly(body, ScriptSuffix);
    EmbeddedTextMismatch(script, ['"'], 1);
  }

  /** `"'"` closes the literal after one character, leaving a stray `"` before the suffix. */
  lemma QuoteEndsEarly(body: string, suffix: string)
    requires |suffix| >= 2 && suffix[1] != '"' && body == ['"', '\'', '"'] + suffix
    ensures Unquote(body) == Some((['"'], 1)) && body[1..] != suffix
  {
    var rest := ['\'', '"'] + suffix;
    assert body == ['"'] + rest;
    QuoteEndsLiteral(rest);
    assert body[1..][1] == '"';
  }

  /** The script as written around the JSON of a one-character string that `QuoteString` maps to `q`. */
  lemma WrittenScript(c: string, q: string, body: string)
    requires |c| == 1 && QuoteString(c) == q && body == ['"'] + q + ['"'] + ScriptSuffix
    ensures Stringify(JString(c)) == ['"'] + q + ['"']
    ensures AppConfigScriptAsWritten(JString(c)) == ScriptPrefix + body
  {
  }

  lemma QuoteEndsLiteral(rest: string)
    requires |rest| > 0 && rest[0] == '\''
    ensures Unquote(['"'] + rest) == Some((['"'], 1))
  {
    assert Unquote(rest) == Some(("", 0));
    PlainCharStep('"', rest);
    assert ['"'] + "" == ['"'];
  }

  /**
    A configuration string with a double quote reaches `JSON.parse` from the script as written
    with its escape consumed, as text that is no longer the JSON of the configuration.
   */
  lemma AppConfigScriptAsWrittenLosesEscape()
    ensures Stringify(JString("\"")) == "\"\\\"\""
    ensures EmbeddedText(AppConfigScriptAsWritten(JString("\""))) == Some("\"\"\"")
  {
    var body := ['"', '\\', '"', '"'] + ScriptSuffix;
    var script := ScriptPrefix + body;
    WrittenScript("\"", "\\\"", body);
    StartsWithConcat(ScriptPrefix, body);
    EscapedQuoteConsumed(ScriptSuffix);
    assert body[4..] == ScriptSuffix;
    EndsAtOwnTag(['"', '\\', '"', '"']);
    assert ScriptPrefix + ['"', '\\', '"', '"'] + ScriptSuffix == script;
    EmbeddedTextOf(script, ['"', '"', '"'], 4);
  }

  /** `"\""` followed by the closing quote reads as three double quotes. */
  lemma EscapedQuoteConsumed(rest: string)
    requires |rest| > 0 && rest[0] == '\''
    ensures Unquote(['"', '\\', '"', '"'] + rest) == Some((['"', '"', '"'], 4))
  {
    var t1 := ['\\', '"', '"'] + rest;
    EscapedQuoteTail(rest);
    PlainCharStep('"', t1);
    assert ['"'] + ['"', '"'] == ['"', '"', '"'];
    assert ['"', '\\', '"', '"'] + rest == ['"'] + t1;
  }

  lemma EscapedQuoteTail(rest: string)
    requires |rest| > 0 && rest[0] == '\''
    ensures Unquote(['\\', '"', '"'] + rest) == Some((['"', '"'], 3))
  {
    var t3 := ['"'] + rest;
    QuoteEndsLiteral(rest);
    assert EscapeValue(['"'] + t3) == Some(('"', 1));
    ShortEscapeStep('"', '"', t3);
    assert ['"'] + ['"'] == ['"', '"'];
    assert ['\\', '"', '"'] + rest == ['\\', '"'] + t3;
  }

  /** A literal that closes anywhere but just before the intended suffix hands `JSON.parse` nothing. */
  lemma EmbeddedTextMismatch(script: string, text: string, close: nat)
    requires StartsWith(script, ScriptPrefix) && Unquote(script[|ScriptPrefix|..]) == Some((text, close))
    requires script[|ScriptPrefix|..][close..] != ScriptSuffix
    ensures EmbeddedText(script) == None
  {
  }

  /** The escape of one character for a single-quoted literal inside an HTML script element. */
  function JsEscapeChar(c: char): string {
    if c == '\\' then "\\\\"
    else if c == '\'' then "\\'"
    else if c == '\n' then "\\n"
    else if c == '\r' then "\\r"
    else if c == '<' then "\\x3C"
    else [c]
  }

  function JsEscape(s: string): string
    decreases |s|
  {
    if |s| == 0 then "" else JsEscapeChar(s[0]) + JsEscape(s[1..])
  }

  /** No `<` survives the escape, so the text cannot close the script element early. */
  lemma {:induction false} JsEscapeNoLessThan(s: string)
    ensures '<' !in JsEscape(s)
    decreases |s|
  {
    if |s| > 0 {
      JsEscapeNoLessThan(s[1..]);
      assert '<' !in JsEscapeChar(s[0]);
    }
  }

  /** A character that needs no escape stands for itself. */
  lemma PlainCharStep(c: char, tail: string)
    requires Unquote(tail).Some? && c != '\\' && c != '\'' && c != '\n' && c != '\r'
    ensures Unquote([c] + tail) == Some(([c] + Unquote(tail).value.0, Unquote(tail).value.1 + 1))
  {
    assert ([c] + tail)[1..] == tail;
  }

  /** A backslash and the escape sequence after it stand for the escape's character. */
  lemma EscapeStep(t: string, e: (char, nat), tail: string)
    requires |t| >= 2 && t[0] == '\\' && EscapeValue(t[1..]) == Some(e)
    requires t[1 + e.1..] == tail && Unquote(tail).Some?
    ensures Unquote(t) == Some(([e.0] + Unquote(tail).value.0, Unquote(tail).value.1 + 1 + e.1))
  {
  }

  /** A backslash and one character that `EscapeValue` reads as `c` stand for `c`. */
  lemma ShortEscapeStep(d: char, c: char, tail: string)
    requires Unquote(tail).Some? && EscapeValue([d] + tail) == Some((c, 1))
    ensures Unquote(['\\', d] + tail) == Some(([c] + Unquote(tail).value.0, Unquote(tail).value.1 + 2))
  {
    var t := ['\\', d] + tail;
    assert t[1..] == [d] + tail;
    assert t[2..] == tail;
    EscapeStep(t, (c, 1), tail);
  }

  /** The escape value of `x3C`. */
  lemma LessThanCode(u: string)
    requires |u| >= 3 && u[..3] == "x3C"
    ensures EscapeValue(u) == Some(('<', 3))
  {
    assert u[1..3] == "3C";
    assert HexValue('C') == Some(12) && HexValue('3') == Some(3);
    assert "3C"[..1] == "3" && "3"[..0] == "";
    assert HexNumber("3C") == Some(0x3C);
  }

  /** One escaped character in front of a literal's remaining text adds just that character. */
  lemma JsEscapeCharStep(c: char, tail: string)
    requires Unquote(tail).Some?
    ensures Unquote(JsEscapeChar(c) + tail) == Some(([c] + Unquote(tail).value.0, Unquote(tail).value.1 + |JsEscapeChar(c)|))
  {
    if c == '<' {
      LessThanCharStep(c, tail);
    } else if c == '\\' || c == '\'' || c == '\n' || c == '\r' {
      ShortEscapeCharStep(c, tail);
    } else {
      UnescapedCharStep(c, tail);
    }
  }

  lemma LessThanCharStep(c: char, tail: string)
    requires Unquote(tail).Some? && c == '<'
    ensures Unquote(JsEscapeChar(c) + tail) == Some(([c] + Unquote(tail).value.0, Unquote(tail).value.1 + |JsEscapeChar(c)|))
  {
    var t := JsEscapeChar(c) + tail;
    assert JsEscapeChar(c) == "\\x3C";
    var u := t[1..];
    assert u == "x3C" + tail;
    assert u[..3] == "x3C";
    LessThanCode(u);
    assert t[4..] == tail;
    EscapeStep(t, ('<', 3), tail);
  }

  lemma UnescapedCharStep(c: char, tail: string)
    requires Unquote(tail).Some? && c != '<' && c != '\\' && c != '\'' && c != '\n' && c != '\r'
    ensures Unquote(JsEscapeChar(c) + tail) == Some(([c] + Unquote(tail).value.0, Unquote(tail).value.1 + |JsEscapeChar(c)|))
  {
    PlainCharStep(c, tail);
    assert JsEscapeChar(c) == [c];
  }

  /** The four characters with a one-letter escape. */
  lemma ShortEscapeCharStep(c: char, tail: string)
    requires Unquote(tail).Some? && (c == '\\' || c == '\'' || c == '\n' || c == '\r')
    ensures Unquote(JsEscapeChar(c) + tail) == Some(([c] + Unquote(tail).value.0, Unquote(tail).value.1 + |JsEscapeChar(c)|))
  {
    var d := if c == '\n' then 'n' else if c == '\r' then 'r' else c;
    assert JsEscapeChar(c) == ['\\', d];
    assert EscapeValue([d] + tail) == Some((c, 1)) by {
      assert ([d] + tail)[0] == d;
    }
    ShortEscapeFinish(c, d, tail);
  }

  lemma ShortEscapeFinish(c: char, d: char, tail: string)
    requires Unquote(tail).Some? && JsEscapeChar(c) == ['\\', d] && EscapeValue([d] + tail) == Some((c, 1))
    ensures Unquote(JsEscapeChar(c) + tail) == Some(([c] + Unquote(tail).value.0, Unquote(tail).value.1 + |JsEscapeChar(c)|))
  {
    ShortEscapeStep(d, c, tail);
  }

  /** The escaped text reads back as the original up to the closing quote that follows it. */
  lemma JsEscapeRoundTrip(s: string, rest: string)
    requires |rest| > 0 && rest[0] == '\''
    ensures Unquote(JsEscape(s) + rest) == Some((s, |JsEscape(s)|))
  {
    EscapeThenRoundTrip(s, rest);
    EscapeThenIsConcat(s, rest);
  }

  /** `JsEscape(s) + rest`, built one escaped character at a time. */
  function EscapeThen(s: string, rest: string): string
    decreases |s|
  {
    if |s| == 0 then rest else JsEscapeChar(s[0]) + EscapeThen(s[1..], rest)
  }

  lemma {:induction false} EscapeThenIsConcat(s: string, rest: string)
    ensures EscapeThen(s, rest) == JsEscape(s) + rest
    decreases |s|
  {
    if |s| == 0 {
      assert JsEscape(s) + rest == rest;
    } else {
      EscapeThenIsConcat(s[1..], rest);
      ConcatAssoc(JsEscapeChar(s[0]), JsEscape(s[1..]), rest);
    }
  }

  /** The literal `EscapeThen(s, rest)` holds `s` and closes on the first character of `rest`. */
  predicate ReadsBack(s: string, rest: string) {
    var r := Unquote(EscapeThen(s, rest));
    r.Some? && r.value.0 == s && r.value.1 + |rest| == |EscapeThen(s, rest)|
  }

  lemma {:induction false} EscapeThenRoundTrip(s: string, rest: string)
    requires |rest| > 0 && rest[0] == '\''
    ensures ReadsBack(s, rest)
    decreases |s|
  {
    if |s| > 0 {
      EscapeThenRoundTrip(s[1..], rest);
      EscapeThenStep(s, rest);
    }
  }

  /** If the escape of all but the first character reads back, so does the escape of the whole string. */
  lemma EscapeThenStep(s: string, rest: string)
    requires |s| > 0 && ReadsBack(s[1..], rest)
    ensures ReadsBack(s, rest)
  {
    JsEscapeCharStep(s[0], EscapeThen(s[1..], rest));
    HeadTail(s);
  }

  /**
    `init`'s `APP_CONFIG` script with the JSON text escaped for a single-quoted literal: the
    literal ends where intended and hands `JSON.parse` exactly the JSON text, and no `<` can
    close the script element early.
   */
  function AppConfigScript(appConfig: Json): (script: string)
    ensures EmbeddedText(script) == Some(Stringify(appConfig))
    ensures |ScriptPrefix| + |ScriptSuffix| <= |script| &&
            '<' !in script[|ScriptPrefix|..|script| - |ScriptSuffix|]
  {
    EscapedScriptCarries(Stringify(appConfig));
    ScriptPrefix + JsEscape(Stringify(appConfig)) + ScriptSuffix
  }

  /** The escaped script around any text hands `JSON.parse` that text, and its literal holds no `<`. */
  lemma EscapedScriptCarries(text: string)
    ensures var script := ScriptPrefix + JsEscape(text) + ScriptSuffix;
            EmbeddedText(script) == Some(text) &&
            '<' !in script[|ScriptPrefix|..|script| - |ScriptSuffix|]
  {
    var escaped := JsEscape(text);
    JsEscapeNoLessThan(text);
    EscapedScriptEmbeds(text, escaped);
    var script := ScriptPrefix + escaped + ScriptSuffix;
    assert script[|ScriptPrefix|..|script| - |ScriptSuffix|] == escaped;
  }

  lemma EscapedScriptEmbeds(text: string, escaped: string)
    requires escaped == JsEscape(text) && '<' !in escaped
    ensures EmbeddedText(ScriptPrefix + escaped + ScriptSuffix) == Some(text)
  {
    var body := escaped + ScriptSuffix;
    var script := ScriptPrefix + body;
    assert ScriptPrefix + escaped + ScriptSuffix == script;
    JsEscapeRoundTrip(text, ScriptSuffix);
    StartsWithConcat(ScriptPrefix, body);
    StartsWithConcat(escaped, ScriptSuffix);
    EndsAtOwnTag(escaped);
    EmbeddedTextDecided(script, text, |escaped|);
  }

  /** Text a single-quoted literal carries through as it is: no backslash, quote or line break. */
  predicate LiteralSafe(s: string) {
    '\\' !in s && '\'' !in s && '\n' !in s && '\r' !in s
  }

  /** Literal-safe text followed by a closing quote reads back as itself. */
  lemma {:induction false} LiteralSafeRoundTrip(s: string, rest: string)
    requires LiteralSafe(s) && |rest| > 0 && rest[0] == '\''
    ensures Unquote(s + rest) == Some((s, |s|))
    decreases |s|
  {
    if |s| == 0 {
      assert s + rest == rest;
    } else {
      LiteralSafeTail(s);
      LiteralSafeRoundTrip(s[1..], rest);
      LiteralSafeStep(s, rest);
    }
  }

  lemma LiteralSafeTail(s: string)
    requires |s| > 0 && LiteralSafe(s)
    ensures LiteralSafe(s[1..]) && s[0] != '\\' && s[0] != '\'' && s[0] != '\n' && s[0] != '\r'
  {
    assert s[0] in s;
    assert forall c :: c in s[1..] ==> c in s;
  }

  lemma LiteralSafeStep(s: string, rest: string)
    requires |s| > 0 && LiteralSafe(s) && Unquote(s[1..] + rest) == Some((s[1..], |s| - 1))
    ensures Unquote(s + rest) == Some((s, |s|))
  {
    LiteralSafeTail(s);
    PlainCharStep(s[0], s[1..] + rest);
    assert [s[0]] + (s[1..] + rest) == s + rest;
    HeadTail(s);
  }

  /** Literal-safe text without a `<` is its own escape. */
  lemma {:induction false} JsEscapeIdentity(s: string)
    requires LiteralSafe(s) && '<' !in s
    ensures JsEscape(s) == s
    decreases |s|
  {
    if |s| > 0 {
      LiteralSafeTail(s);
      assert s[0] != '<' by { assert s[0] in s; }
      assert '<' !in s[1..] by { assert forall c :: c in s[1..] ==> c in s; }
      JsEscapeIdentity(s[1..]);
      HeadTail(s);
    }
  }

  /**
    When the JSON text of the configuration needs no escape inside a single-quoted literal and
    holds no `<`, the script as written is the escaped script itself, and so hands `JSON.parse`
    exactly that text.
   */
  lemma AppConfigScriptAsWrittenSafe(appConfig: Json)
    requires LiteralSafe(Stringify(appConfig)) && '<' !in Stringify(appConfig)
    ensures AppConfigScriptAsWritten(appConfig) == AppConfigScript(appConfig)
    ensures EmbeddedText(AppConfigScriptAsWritten(appConfig)) == Some(Stringify(appConfig))
  {
    var text := Stringify(appConfig);
    JsEscapeIdentity(text);
    assert ScriptPrefix + text + ScriptSuffix == ScriptPrefix + (text + ScriptSuffix);
  }

  /** A script whose literal body reads back as `text` up to the intended closing quote embeds `text`. */
  lemma EmbeddedTextOf(script: string, text: string, close: nat)
    requires StartsWith(script, ScriptPrefix) && Unquote(script[|ScriptPrefix|..]) == Some((text, close))
    requires script[|ScriptPrefix|..][close..] == ScriptSuffix
    requires ElementEnd(script, |ScriptOpen|) == Some(|script| - |ScriptClose|)
    ensures EmbeddedText(script) == Some(text)
  {
  }
}

=== FILE: proxy.dfy ===
/**
  The handler of the `/cors-proxy/` route the dev servers share: the fixed CORS headers, the rewrite of a
  request's `Location` header to go back through the proxy, the empty answer to `OPTIONS`,
  and the upstream URL taken from the request path. The upstream request itself is left out:
  a `Forward` names what would be fetched.
 */
module Proxy {
  import opened Wrappers
  import opened Text
  import opened Dict
  import AppConfig

  const RoutePrefix: string := "/cors-proxy/"

  /**
    The headers the proxy handler sets, in order. A forwarded response pipes the upstream
    status and headers over them.
   */
  const CorsHeaders: Dict<string> := [
    ("Access-Control-Allow-Origin", "*"),
    ("Access-Control-Allow-Methods", "GET, HEAD, OPTIONS"),
    ("Access-Control-Allow-Headers", "Range"),
    ("Access-Control-Expose-Headers", "Accept-Ranges, Content-Encoding, Content-Length, Content-Range, Hub-Name, Hub-Entity-Type"),
    ("Vary", "Origin"),
    ("X-Content-Type-Options", "nosniff")
  ]

  /** The parts of a request the proxy reads; `location` is its `Location` header, if any. */
  datatype Request = Request(verb: string, path: string, location: Option<string>)

  /** An empty response, or the upstream request whose answer is streamed back. */
  datatype Action = Respond | Forward(url: string, verb: string)

  datatype Response = Response(headers: Dict<string>, action: Action)

  /** The dev server's own origin; the root server always names port 8080. */
  function Origin(v: AppConfig.Variant, port: nat): string {
    "https://localhost:" + AppConfig.PortText(v, port)
  }

  /** Where a redirect is sent back through the proxy. */
  function LocationBase(v: AppConfig.Variant, port: nat): string {
    Origin(v, port) + RoutePrefix
  }

  /** The upstream URL: the request path with its first `/cors-proxy/` taken out. */
  function Target(path: string): (url: string)
    ensures StartsWith(path, RoutePrefix) ==> url == path[|RoutePrefix|..]
    ensures (forall j :: !OccursAt(path, RoutePrefix, j)) ==> url == path
  {
    assert StartsWith(path, RoutePrefix) ==> FirstOccurrence(path, RoutePrefix, 0);
    ReplaceFirst(path, RoutePrefix, "")
  }

  /** The handler of `app.all` on the `/cors-proxy/` prefix. */
  function Handle(v: AppConfig.Variant, port: nat, request: Request): (r: Response)
    ensures |r.headers| >= |CorsHeaders| && r.headers[..|CorsHeaders|] == CorsHeaders
    ensures |r.headers| == |CorsHeaders| + if request.location.Some? && request.location.value != "" then 1 else 0
    ensures Distinct(r.headers)
    ensures Get(r.headers, "Location") ==
              if request.location.Some? && request.location.value != "" then Some(LocationBase(v, port) + request.location.value)
              else None
    ensures r.action == Respond <==> request.verb == "OPTIONS"
    ensures r.action.Forward? ==> r.action == Forward(Target(request.path), request.verb)
  {
    CorsHeadersFacts();
    var headers :=
      if request.location.Some? && request.location.value != "" then
        Put(CorsHeaders, "Location", LocationBase(v, port) + request.location.value)
      else CorsHeaders;
    Response(headers, if request.verb == "OPTIONS" then Respond else Forward(Target(request.path), request.verb))
  }

  lemma CorsHeadersFacts()
    ensures Distinct(CorsHeaders)
    ensures "Location" !in Keys(CorsHeaders)
  {
  }

  /** The root server rewrites to `https://localhost:8080/cors-proxy/` whatever port it is given. */
  lemma LegacyLocationFixed(port: nat, request: Request)
    requires request.location.Some? && request.location.value != ""
    ensures Get(Handle(AppConfig.Legacy, port, request).headers, "Location") ==
            Some("https://localhost:8080/cors-proxy/" + request.location.value)
  {
    assert AppConfig.PortText(AppConfig.Legacy, port) == "8080";
    assert LocationBase(AppConfig.Legacy, port) == "https://localhost:8080/cors-proxy/";
  }

  /**
    The route matches `/CORS-PROXY/...` too, but the prefix is removed only in the exact
    spelling: such a path is forwarded whole.
   */
  lemma TargetCaseSensitive()
    ensures Target("/CORS-PROXY/https://example.org/x") == "/CORS-PROXY/https://example.org/x"
    ensures Target("/cors-proxy/https://example.org/x") == "https://example.org/x"
  {
    var p := "/CORS-PROXY/https://example.org/x";
    assert 'c' !in p;
    forall j ensures !OccursAt(p, RoutePrefix, j) {
      if 0 <= j && j + |RoutePrefix| <= |p| {
        assert p[j..j + |RoutePrefix|][1] == p[j + 1];
        assert p[j + 1] != 'c';
      }
    }
    assert StartsWith("/cors-proxy/https://example.org/x", RoutePrefix);
  }

  /**
    A redirect the proxy rewrites comes back through it: the new `Location` is the dev
    server's origin, the route prefix and the original location, and a request for that path
    is forwarded to the original location.
   */
  lemma RedirectComesBack(v: AppConfig.Variant, port: nat, request: Request, verb: string)
    requires request.location.Some? && request.location.value != ""
    ensures var location := request.location.value;
            Get(Handle(v, port, request).headers, "Location") == Some(Origin(v, port) + (RoutePrefix + location)) &&
            Handle(v, port, Request(verb, RoutePrefix + location, None)).action ==
              if verb == "OPTIONS" then Respond else Forward(location, verb)
  {
    var location := request.location.value;
    StartsWithConcat(RoutePrefix, location);
    assert LocationBase(v, port) + location == Origin(v, port) + (RoutePrefix + location);
  }
}

=== FILE: registry.dfy ===
/**
  The plugin registry of server/HubsDevServer.js: the hook entries built in the constructor
  from the `plugins` of hubs.config.js, the plugin entry points for the bundler, and
  `registerPlugin`, which adds entries afterwards.
 */
module Registry {
  import opened Wrappers
  import opened Dict
  import opened Json

  /** One entry of a hook's list, as `init` publishes it in `APP_CONFIG.plugins`. */
  datatype PluginEntry = PluginEntry(kind: string, url: string, options: Option<Json>)

  /** One `{ name, path }` of hubs.config.js. */
  datatype PluginDef = PluginDef(name: string, path: string)

  type Plugins = Dict<seq<PluginEntry>>

  /** The entry the constructor makes for a plugin named `name`. */
  function DefEntry(name: string): PluginEntry {
    PluginEntry("js", "/" + name + ".plugin.js", Some(JObject([("globalVar", JString("HubsPlugin_" + name))])))
  }

  function DefEntries(defs: seq<PluginDef>): (es: seq<PluginEntry>)
    ensures |es| == |defs|
    ensures forall i :: 0 <= i < |defs| ==> es[i] == DefEntry(defs[i].name)
  {
    seq(|defs|, i requires 0 <= i < |defs| => DefEntry(defs[i].name))
  }

  /**
    `this.plugins`, from `hubsConfig.plugins` (`None` when it is absent or falsy): for each
    hook key, one entry per definition, in order.
   */
  function BuildPlugins(pluginDefs: Option<Dict<seq<PluginDef>>>): (plugins: Plugins)
    ensures pluginDefs.None? ==> plugins == []
    ensures pluginDefs.Some? ==> Keys(plugins) == Keys(pluginDefs.value)
    ensures pluginDefs.Some? ==> forall i :: 0 <= i < |plugins| ==> plugins[i].1 == DefEntries(pluginDefs.value[i].1)
  {
    match pluginDefs
    case None => []
    case Some(defs) => seq(|defs|, i requires 0 <= i < |defs| => (defs[i].0, DefEntries(defs[i].1)))
  }

  /** Each plugin's URL and global are derived from its name alone. */
  lemma BuildPluginsEntries(defs: Dict<seq<PluginDef>>, i: nat, j: nat)
    requires Distinct(defs) && i < |defs| && j < |defs[i].1|
    ensures var name := defs[i].1[j].name;
            Get(BuildPlugins(Some(defs)), defs[i].0) == Some(DefEntries(defs[i].1)) &&
            Get(BuildPlugins(Some(defs)), defs[i].0).value[j] ==
              PluginEntry("js", "/" + name + ".plugin.js", Some(JObject([("globalVar", JString("HubsPlugin_" + name))])))
  {
    var plugins := BuildPlugins(Some(defs));
    assert Distinct(plugins) by {
      assert Keys(plugins) == Keys(defs);
      forall a, b | 0 <= a < b < |plugins| ensures plugins[a].0 != plugins[b].0 {
        assert Keys(defs)[a] == plugins[a].0 && Keys(defs)[b] == plugins[b].0;
      }
    }
    GetAt(plugins, i);
  }

  /** The definitions in iteration order: hook keys, then each key's definitions. */
  function AllDefs(defs: Dict<seq<PluginDef>>): seq<PluginDef>
    decreases |defs|
  {
    if |defs| == 0 then [] else AllDefs(defs[..|defs| - 1]) + defs[|defs| - 1].1
  }

  /** The `(name, path)` assignments to `pluginEntries`, in order, with paths resolved by `resolve`. */
  function EntryAssignments(defs: seq<PluginDef>, resolve: string -> string): seq<(string, string)> {
    seq(|defs|, i requires 0 <= i < |defs| => (defs[i].name, resolve(defs[i].path)))
  }

  /**
    `this.pluginEntries`: the bundler entry of each plugin name, `path.resolve(basePath, path)`
    being the function `resolve`.
   */
  function PluginEntries(pluginDefs: Option<Dict<seq<PluginDef>>>, resolve: string -> string): Dict<string> {
    match pluginDefs
    case None => []
    case Some(defs) => PutAll([], EntryAssignments(AllDefs(defs), resolve))
  }

  /**
    A name is an entry exactly when some definition carries it; when two definitions share a
    name, the one met last wins.
   */
  lemma PluginEntriesLastWins(defs: Dict<seq<PluginDef>>, resolve: string -> string, name: string)
    ensures Get(PluginEntries(Some(defs), resolve), name) == LastValue(EntryAssignments(AllDefs(defs), resolve), name)
    ensures Get(PluginEntries(Some(defs), resolve), name).Some? <==> exists d :: d in AllDefs(defs) && d.name == name
    ensures Distinct(PluginEntries(Some(defs), resolve))
  {
    var assignments := EntryAssignments(AllDefs(defs), resolve);
    PutAllLastWins([], assignments, name);
    LastValueExists(assignments, name);
    if Get(PluginEntries(Some(defs), resolve), name).Some? {
      var p :| p in assignments && p.0 == name;
      var i :| 0 <= i < |assignments| && assignments[i] == p;
      assert AllDefs(defs)[i] in AllDefs(defs);
    }
    if exists d :: d in AllDefs(defs) && d.name == name {
      var d :| d in AllDefs(defs) && d.name == name;
      var i :| 0 <= i < |AllDefs(defs)| && AllDefs(defs)[i] == d;
      assert assignments[i] in assignments;
    }
  }

  /**
    `registerPlugin(key, type, url, options)`: one entry appended to `plugins[key]`, the list
    created when the key is new; `options` is kept only when it is truthy.
   */
  function RegisterPlugin(plugins: Plugins, key: string, kind: string, url: string, options: Value): (r: Plugins)
    ensures var previous := if key in Keys(plugins) then Get(plugins, key).value else [];
            Get(r, key) == Some(previous + [PluginEntry(kind, url, if Truthy(options) then options else None)])
    ensures forall k :: k != key ==> Get(r, k) == Get(plugins, k)
    ensures Keys(r) == if key in Keys(plugins) then Keys(plugins) else Keys(plugins) + [key]
    ensures Distinct(plugins) ==> Distinct(r)
  {
    var previous := match Get(plugins, key) case Some(es) => es case None => [];
    Put(plugins, key, previous + [PluginEntry(kind, url, if Truthy(options) then options else None)])
  }

  /** Registering grows exactly one list by exactly one entry. */
  lemma RegisterPluginCounts(plugins: Plugins, key: string, kind: string, url: string, options: Value, k: string)
    ensures var before := if k in Keys(plugins) then |Get(plugins, k).value| else 0;
            var r := RegisterPlugin(plugins, key, kind, url, options);
            k in Keys(r) ==> |Get(r, k).value| == before + (if k == key then 1 else 0)
    ensures |RegisterPlugin(plugins, key, kind, url, options)| == |plugins| + (if key in Keys(plugins) then 0 else 1)
  {
    var r := RegisterPlugin(plugins, key, kind, url, options);
    assert |Keys(r)| == |r|;
  }

  function EntryJson(e: PluginEntry): Json {
    var fields := [("type", JString(e.kind)), ("url", JString(e.url))];
    JObject(if e.options.Some? then fields + [("options", e.options.value)] else fields)
  }

  /** The registry as `JSON.stringify` sees it. */
  function PluginsJson(plugins: Plugins): Json {
    JObject(seq(|plugins|, i requires 0 <= i < |plugins| =>
      (plugins[i].0, JArray(seq(|plugins[i].1|, j requires 0 <= j < |plugins[i].1| => EntryJson(plugins[i].1[j]))))))
  }
}

=== FILE: resolver.dfy ===
/**
  The external-dependency resolver of webpack/HubsWebpackPlugin.js: which import requests the
  build leaves out of the bundle and reads from a global of the host page instead, and the
  plugin's record of the requests it externalized.
 */
module Resolver {
  import opened Wrappers
  import opened Text

  const HubsNamespace: string := "@hubs/"

  /** The global a request is bound to: `window.THREE`, or `window.Hubs.<member>`. */
  datatype Binding = Global(name: string) | Member(namespace: string, member: string)

  /** The libraries the host page provides as flat globals. */
  const FlatGlobals: map<string, string> := map[
    "three" := "THREE",
    "react" := "React",
    "react-dom" := "ReactDOM",
    "react-intl" := "ReactIntl",
    "prop-types" := "PropTypes",
    "classnames" := "ClassNames"
  ]

  /** No two adjacent characters of `s` are a dash and a lower-case ASCII letter. */
  predicate NoDashLower(s: string) {
    forall i :: 0 <= i < |s| - 1 ==> !(s[i] == '-' && IsLowerAscii(s[i + 1]))
  }

  /**
    `camelCaseDash`: a global regular-expression replace of `-([a-z])` by the letter in upper
    case, scanning left to right over non-overlapping matches.
   */
  function CamelCaseDash(s: string): string
    decreases |s|
  {
    if |s| == 0 then ""
    else if |s| >= 2 && s[0] == '-' && IsLowerAscii(s[1]) then [UpperChar(s[1])] + CamelCaseDash(s[2..])
    else [s[0]] + CamelCaseDash(s[1..])
  }

  /** The rewrite never lengthens its input and leaves no dash followed by a lower-case letter. */
  lemma {:induction false} CamelCaseDashShape(s: string)
    ensures |CamelCaseDash(s)| <= |s|
    ensures |s| > 0 ==> |CamelCaseDash(s)| > 0 && (IsLowerAscii(CamelCaseDash(s)[0]) ==> CamelCaseDash(s)[0] == s[0])
    ensures NoDashLower(CamelCaseDash(s))
    decreases |s|
  {
    if |s| >= 2 && s[0] == '-' && IsLowerAscii(s[1]) {
      CamelCaseDashShape(s[2..]);
      ShapeStep([UpperChar(s[1])], s[2..]);
    } else if |s| > 0 {
      CamelCaseDashShape(s[1..]);
      ShapeStep([s[0]], s[1..]);
    }
  }

  /** One character that is not a dash, or one that is followed by no lower-case letter, keeps the shape. */
  lemma ShapeStep(c: string, t: string)
    requires |c| == 1 && (c[0] == '-' ==> |t| == 0 || !IsLowerAscii(CamelCaseDash(t)[0]))
    requires |t| > 0 ==> |CamelCaseDash(t)| > 0
    requires NoDashLower(CamelCaseDash(t))
    ensures NoDashLower(c + CamelCaseDash(t))
  {
    var r := c + CamelCaseDash(t);
    forall i | 0 <= i < |r| - 1 ensures !(r[i] == '-' && IsLowerAscii(r[i + 1])) {
      if i > 0 {
        assert r[i] == CamelCaseDash(t)[i - 1] && r[i + 1] == CamelCaseDash(t)[i];
      }
    }
  }

  /** A string is left unchanged exactly when it has no dash followed by a lower-case letter. */
  lemma {:induction false} CamelCaseDashFixedPoint(s: string)
    ensures CamelCaseDash(s) == s <==> NoDashLower(s)
    decreases |s|
  {
    CamelCaseDashShape(s);
    if NoDashLower(s) && |s| > 0 {
      assert NoDashLower(s[1..]) by {
        forall i | 0 <= i < |s[1..]| - 1 ensures !(s[1..][i] == '-' && IsLowerAscii(s[1..][i + 1])) {
          assert s[1..][i] == s[i + 1] && s[1..][i + 1] == s[i + 2];
        }
      }
      CamelCaseDashFixedPoint(s[1..]);
      if |s| >= 2 {
        assert !(s[0] == '-' && IsLowerAscii(s[1]));
      }
      assert CamelCaseDash(s) == [s[0]] + s[1..];
    }
  }

  /** Rewriting twice gives the same result as rewriting once. */
  lemma CamelCaseDashIdempotent(s: string)
    ensures CamelCaseDash(CamelCaseDash(s)) == CamelCaseDash(s)
  {
    CamelCaseDashShape(s);
    CamelCaseDashFixedPoint(CamelCaseDash(s));
  }

  /** The rewrite works piecewise across a split that does not separate a dash from its letter. */
  lemma {:induction false} CamelCaseDashAppend(a: string, b: string)
    requires |a| == 0 || a[|a| - 1] != '-'
    ensures CamelCaseDash(a + b) == CamelCaseDash(a) + CamelCaseDash(b)
    decreases |a|
  {
    if |a| == 0 {
      assert a + b == b;
    } else if |a| >= 2 && a[0] == '-' && IsLowerAscii(a[1]) {
      CamelCaseDashAppend(a[2..], b);
      DashLetterStep(a, b);
    } else {
      CamelCaseDashAppend(a[1..], b);
      PlainStep(a, b);
    }
  }

  lemma DashLetterStep(a: string, b: string)
    requires |a| >= 2 && a[0] == '-' && IsLowerAscii(a[1])
    requires CamelCaseDash(a[2..] + b) == CamelCaseDash(a[2..]) + CamelCaseDash(b)
    ensures CamelCaseDash(a + b) == CamelCaseDash(a) + CamelCaseDash(b)
  {
    var ab := a + b;
    assert ab[0] == a[0] && ab[1] == a[1] && ab[2..] == a[2..] + b;
    assert CamelCaseDash(ab) == [UpperChar(a[1])] + CamelCaseDash(ab[2..]);
    ConcatAssoc([UpperChar(a[1])], CamelCaseDash(a[2..]), CamelCaseDash(b));
  }

  lemma PlainStep(a: string, b: string)
    requires |a| >= 1 && a[|a| - 1] != '-' && !(|a| >= 2 && a[0] == '-' && IsLowerAscii(a[1]))
    requires CamelCaseDash(a[1..] + b) == CamelCaseDash(a[1..]) + CamelCaseDash(b)
    ensures CamelCaseDash(a + b) == CamelCaseDash(a) + CamelCaseDash(b)
  {
    var ab := a + b;
    assert ab[0] == a[0] && ab[1..] == a[1..] + b;
    assert !(|ab| >= 2 && ab[0] == '-' && IsLowerAscii(ab[1])) by {
      if |a| >= 2 { assert ab[1] == a[1]; }
    }
    assert CamelCaseDash(ab) == [a[0]] + CamelCaseDash(ab[1..]);
    ConcatAssoc([a[0]], CamelCaseDash(a[1..]), CamelCaseDash(b));
  }

  /** The dashed spelling of a camel-case name: each upper-case letter becomes `-` and its lower case. */
  function DashCase(t: string): string {
    if |t| == 0 then ""
    else (if IsUpperAscii(t[0]) then ['-', LowerChar(t[0])] else [t[0]]) + DashCase(t[1..])
  }

  /** `camelCaseDash` inverts the dashed spelling of any name without dashes. */
  lemma {:induction false} CamelCaseDashInvertsDashCase(t: string)
    requires '-' !in t
    ensures CamelCaseDash(DashCase(t)) == t
    decreases |t|
  {
    if |t| > 0 {
      assert '-' !in t[1..];
      CamelCaseDashInvertsDashCase(t[1..]);
      var rest := DashCase(t[1..]);
      if IsUpperAscii(t[0]) {
        assert (['-', LowerChar(t[0])] + rest)[2..] == rest;
      } else {
        assert ([t[0]] + rest)[1..] == rest;
      }
    }
  }

  /**
    `defaultRequestToExternal`: the six flat globals, then the `@hubs/` namespace as a member of
    the `Hubs` global, and no binding for anything else.
   */
  function RequestToExternal(request: string): (r: Option<Binding>)
    ensures request in FlatGlobals ==> r == Some(Global(FlatGlobals[request]))
    ensures request !in FlatGlobals && StartsWith(request, HubsNamespace) ==>
              r == Some(Member("Hubs", CamelCaseDash(request[|HubsNamespace|..])))
    ensures r.Some? <==> request in FlatGlobals || StartsWith(request, HubsNamespace)
  {
    match request
    case "three" => Some(Global("THREE"))
    case "react" => Some(Global("React"))
    case "react-dom" => Some(Global("ReactDOM"))
    case "react-intl" => Some(Global("ReactIntl"))
    case "prop-types" => Some(Global("PropTypes"))
    case "classnames" => Some(Global("ClassNames"))
    case _ =>
      if StartsWith(request, HubsNamespace) then Some(Member("Hubs", CamelCaseDash(request[|HubsNamespace|..])))
      else None
  }

  /** Two different requests never resolve to the same flat global. */
  lemma GlobalBindingsInjective(a: string, b: string)
    requires RequestToExternal(a).Some? && RequestToExternal(a).value.Global?
    requires RequestToExternal(a) == RequestToExternal(b)
    ensures a == b
  {
  }

  /** A module of the `@hubs/` namespace named by the dashed spelling of `t` binds to `Hubs.<t>`. */
  lemma HubsMemberRoundTrip(t: string)
    requires '-' !in t
    ensures RequestToExternal(HubsNamespace + DashCase(t)) == Some(Member("Hubs", t))
  {
    var request := HubsNamespace + DashCase(t);
    assert request[0] == '@';
    assert request !in FlatGlobals;
    assert StartsWith(request, HubsNamespace);
    assert request[|HubsNamespace|..] == DashCase(t);
    CamelCaseDashInvertsDashCase(t);
  }

  /** What the bundler's externals hook reports back, and the plugin's updated record. */
  datatype Externalized = Externalized(deps: set<string>, binding: Option<Binding>)

  /**
    `externalizeHubsDeps`: a request with a binding is recorded and its binding passed to the
    callback; any other request leaves the record alone and the callback gets no result.
   */
  function ExternalizeHubsDeps(deps: set<string>, request: string): (r: Externalized)
    ensures r.binding == RequestToExternal(request)
    ensures deps <= r.deps
    ensures r.deps - deps <= {request}
    ensures request in r.deps <==> request in deps || r.binding.Some?
  {
    var binding := RequestToExternal(request);
    if binding.Some? then Externalized(deps + {request}, binding) else Externalized(deps, binding)
  }

  /** The record after the bundler has asked about each request of `requests`, in order. */
  function ExternalizeAll(deps: set<string>, requests: seq<string>): set<string>
    decreases |requests|
  {
    if |requests| == 0 then deps
    else ExternalizeAll(ExternalizeHubsDeps(deps, requests[0]).deps, requests[1..])
  }

  /** The record gathers exactly the requests that have a binding. */
  lemma {:induction false} ExternalizeAllCollects(deps: set<string>, requests: seq<string>)
    ensures ExternalizeAll(deps, requests) ==
            deps + set r | r in requests && RequestToExternal(r).Some?
    decreases |requests|
  {
    if |requests| > 0 {
      var next := ExternalizeHubsDeps(deps, requests[0]).deps;
      ExternalizeAllCollects(next, requests[1..]);
      var rest := set r | r in requests[1..] && RequestToExternal(r).Some?;
      var all := set r | r in requests && RequestToExternal(r).Some?;
      assert all == rest + (if RequestToExternal(requests[0]).Some? then {requests[0]} else {}) by {
        forall x ensures x in all <==> x in rest + (if RequestToExternal(requests[0]).Some? then {requests[0]} else {}) {
          if x in requests {
            assert x == requests[0] || x in requests[1..];
          }
        }
      }
    }
  }
}

=== FILE: routes.dfy ===
/**
  The routing of `setupMiddleware` (and of the SDK server's `init`): which handler answers a
  request, in the order the routes are registered. String routes follow Express's matching:
  they ignore ASCII case, take an optional trailing slash, and `*` matches anything;
  `app.get` routes also answer `HEAD`. The regular-expression room routes are case-sensitive.
  Whether a static file exists is the predicate `isStatic`; page bodies are produced by the
  page handler from the file named here.
 */
module Routes {
  import opened Wrappers
  import opened Text
  import opened Dict
  import AppConfig
  import Proxy

  datatype Site = Hubs | Spoke

  /** The parts of a request routing reads; `acceptsHtml` is `req.accepts("html")`. */
  datatype Request = Request(verb: string, path: string, acceptsHtml: bool, location: Option<string>)

  datatype Outcome =
    | Proxied(response: Proxy.Response)
    | Page(site: Site, file: string, headers: Dict<string>)
    | Static(site: Site, path: string)
    | ServerError
    | NotHandled

  /** The methods an `app.get` route answers. */
  predicate IsGetOrHead(verb: string) {
    verb == "GET" || verb == "HEAD"
  }

  /** An exact string route such as `/whats-new`, with its optional trailing slash. */
  predicate MatchesRoute(path: string, route: string) {
    Lower(path) == route || Lower(path) == route + "/"
  }

  // A route ending in `*` (`/link/?*`, `/hub.html*`, `/cors-proxy/*`): any path with the prefix.
  predicate MatchesPrefix(path: string, prefix: string) {
    StartsWith(Lower(path), prefix)
  }

  /** The mount point `/spoke` of `app.use`: the path itself, or anything below it. */
  predicate UnderSpoke(path: string) {
    Lower(path) == "/spoke" || StartsWith(Lower(path), "/spoke/")
  }

  /** The path below the `/spoke` mount point, as the static files see it. */
  function SpokeRelative(path: string): string
    requires UnderSpoke(path)
  {
    if |path| == 6 then "/" else path[6..]
  }

  /** `/` followed by seven characters of `[a-zA-Z0-9]`. */
  predicate RoomPrefix(path: string) {
    |path| >= 8 && path[0] == '/' && forall i :: 1 <= i < 8 ==> IsAlnum(path[i])
  }

  // `/^\/([a-zA-Z0-9]{7})$/`: exactly a room code.
  predicate IsRoomCode(path: string) {
    |path| == 8 && RoomPrefix(path)
  }

  // The second room route: unanchored at the end in the plugin dev server
  // (`/^\/([a-zA-Z0-9]{7}\/*)/`, any path starting with a room code); a room code, a slash and
  // anything in the SDK server (`/^\/([a-zA-Z0-9]{7}\/.*)/`).
  predicate SecondRoomRoute(v: AppConfig.Variant, path: string) {
    if v == AppConfig.Server then RoomPrefix(path) else RoomPrefix(path) && |path| >= 9 && path[8] == '/'
  }

  /**
    A character Node accepts in a header value: tab, U+0020 to U+007E, and U+0080 to U+00FF.
    Anything else makes `setHeader` throw `ERR_INVALID_CHAR`.
   */
  predicate HeaderChar(c: char) {
    c == '\t' || (0x20 <= c as int <= 0x7E) || (0x80 <= c as int <= 0xFF)
  }

  predicate HeaderValue(v: string) {
    forall i :: 0 <= i < |v| ==> HeaderChar(v[i])
  }

  /** `addHubHeaders(type)`: the app name and the kind of page. */
  function HubHeaders(hubName: string, entityType: string): (headers: Dict<string>)
    ensures Distinct(headers) && Keys(headers) == ["hub-name", "hub-entity-type"]
    ensures Get(headers, "hub-name") == Some(hubName) && Get(headers, "hub-entity-type") == Some(entityType)
  {
    [("hub-name", hubName), ("hub-entity-type", entityType)]
  }

  /**
    A hubs page behind `addHubHeaders(type)`. `res.header` throws on a value Node does not
    accept, and Express answers the error with a 500 before the page handler runs.
   */
  function HubPage(file: string, hubName: string, entityType: string): Outcome {
    if HeaderValue(hubName) && HeaderValue(entityType) then Page(Hubs, file, HubHeaders(hubName, entityType))
    else ServerError
  }

  /** A page that the hub headers precede in the servers that set them; the root server sets none. */
  function WithHubHeaders(v: AppConfig.Variant, file: string, hubName: string, entityType: string): Outcome {
    if v == AppConfig.Legacy then Page(Hubs, file, []) else HubPage(file, hubName, entityType)
  }

  /** The spoke routes: its index page, its static files, and its page for any HTML request below it. */
  function SpokeRoute(request: Request, isStatic: (Site, string) -> bool): (r: Option<Outcome>)
    ensures r.Some? ==> IsGetOrHead(request.verb) && UnderSpoke(request.path)
    ensures r.Some? ==> r.value == Page(Spoke, "index.html", []) || r.value == Static(Spoke, SpokeRelative(request.path))
    ensures IsGetOrHead(request.verb) && MatchesPrefix(request.path, "/spoke/") && request.acceptsHtml ==> r.Some?
  {
    var path := request.path;
    var get := IsGetOrHead(request.verb);
    if get && Lower(path) in ["/spoke", "/spoke/", "/spoke//"] then Some(Page(Spoke, "index.html", []))
    else if get && UnderSpoke(path) && isStatic(Spoke, SpokeRelative(path)) then Some(Static(Spoke, SpokeRelative(path)))
    else if MatchesPrefix(path, "/spoke/") && get && request.acceptsHtml then Some(Page(Spoke, "index.html", []))
    else None
  }

  /** The named hubs pages, in registration order; the root server has no sign-in or verify page. */
  function HubsPage(v: AppConfig.Variant, path: string, hubName: string): (r: Option<Outcome>)
    ensures r.Some? ==> r.value.Page? || (r.value.ServerError? && v != AppConfig.Legacy && !HeaderValue(hubName))
    ensures r.Some? && r.value.Page? ==> r.value.site == Hubs
    ensures r.Some? && r.value.Page? && r.value.headers != [] ==>
              v != AppConfig.Legacy && Get(r.value.headers, "hub-name") == Some(hubName)
    ensures v == AppConfig.Legacy && r.Some? ==> r.value.Page? && r.value.headers == []
  {
    if Lower(path) == "/" || path == "" then Some(WithHubHeaders(v, "index.html", hubName, "hub"))
    else if MatchesRoute(path, "/whats-new") then Some(Page(Hubs, "whats-new.html", []))
    else if v != AppConfig.Legacy && MatchesRoute(path, "/signin") then Some(Page(Hubs, "signin.html", []))
    else if v != AppConfig.Legacy && MatchesRoute(path, "/verify") then Some(Page(Hubs, "verify.html", []))
    else if MatchesRoute(path, "/cloud") then Some(Page(Hubs, "cloud.html", []))
    else if MatchesRoute(path, "/discord") then Some(Page(Hubs, "discord.html", []))
    else if MatchesPrefix(path, "/link") then Some(Page(Hubs, "link.html", []))
    else if MatchesPrefix(path, "/scene") then Some(WithHubHeaders(v, "scene.html", hubName, "scene"))
    else if MatchesPrefix(path, "/avatar") then Some(WithHubHeaders(v, "avatar.html", hubName, "avatar"))
    else None
  }

  /** What answers a request; `hubName` is the app name the hub headers carry. */
  function Route(v: AppConfig.Variant, port: nat, request: Request, isStatic: (Site, string) -> bool, hubName: string): (r: Outcome)
    ensures r.Proxied? <==> MatchesPrefix(request.path, Proxy.RoutePrefix)
    ensures !r.Proxied? && r != NotHandled ==> IsGetOrHead(request.verb)
    ensures r.ServerError? ==> v != AppConfig.Legacy && !HeaderValue(hubName)
    ensures r.Page? && r.headers != [] ==> v != AppConfig.Legacy && r.site == Hubs && Get(r.headers, "hub-name") == Some(hubName)
  {
    var path := request.path;
    var get := IsGetOrHead(request.verb);
    if MatchesPrefix(path, Proxy.RoutePrefix) then
      Proxied(Proxy.Handle(v, port, Proxy.Request(request.verb, path, request.location)))
    else if SpokeRoute(request, isStatic).Some? then SpokeRoute(request, isStatic).value
    else if get && HubsPage(v, path, hubName).Some? then HubsPage(v, path, hubName).value
    else if get && isStatic(Hubs, path) then Static(Hubs, path)
    else if v == AppConfig.Legacy then
      (if get && request.acceptsHtml then Page(Hubs, "hub.html", []) else NotHandled)
    else if get && (MatchesPrefix(path, "/hub.html") || IsRoomCode(path) || SecondRoomRoute(v, path)) then
      HubPage("hub.html", hubName, "room")
    else NotHandled
  }

  /** Apart from the proxy, only `GET` and `HEAD` requests are answered. */
  lemma OnlyGetAndHeadAnswered(v: AppConfig.Variant, port: nat, request: Request, isStatic: (Site, string) -> bool, hubName: string)
    requires !IsGetOrHead(request.verb)
    ensures Route(v, port, request, isStatic, hubName).Proxied? <==> MatchesPrefix(request.path, Proxy.RoutePrefix)
    ensures !MatchesPrefix(request.path, Proxy.RoutePrefix) ==> Route(v, port, request, isStatic, hubName) == NotHandled
  {
  }

  /**
    The index page carries the hub headers in both servers that set them, and answers 500
    when the app name is no valid header value, such as one holding a character above U+00FF
    (an emoji or CJK text); the root server serves it without hub headers.
   */
  lemma IndexPageHeaders(v: AppConfig.Variant, port: nat, isStatic: (Site, string) -> bool, hubName: string)
    ensures v == AppConfig.Legacy ==> Route(v, port, PageRequest("/"), isStatic, hubName) == Page(Hubs, "index.html", [])
    ensures v != AppConfig.Legacy ==>
              Route(v, port, PageRequest("/"), isStatic, hubName) ==
              if HeaderValue(hubName) then Page(Hubs, "index.html", HubHeaders(hubName, "hub")) else ServerError
    ensures (exists i :: 0 <= i < |hubName| && hubName[i] as int > 0xFF) && v != AppConfig.Legacy ==>
              Route(v, port, PageRequest("/"), isStatic, hubName) == ServerError
  {
    var p := "/";
    LowerNoUpper(p);
    assert !StartsWith(p, Proxy.RoutePrefix);
    NotSpoke(PageRequest(p), isStatic);
    RoomHeaderValid();
  }

  /**
    Below `/spoke/`, a request gets the spoke index page or a spoke file exactly when it is a
    `GET` or `HEAD` that accepts HTML, names the index, or names an existing file; anything
    else falls through to the hubs routes.
   */
  lemma SpokeFallthrough(v: AppConfig.Variant, port: nat, request: Request, isStatic: (Site, string) -> bool, hubName: string)
    requires MatchesPrefix(request.path, "/spoke/")
    ensures var r := Route(v, port, request, isStatic, hubName);
            (r == Page(Spoke, "index.html", []) || r == Static(Spoke, SpokeRelative(request.path))) <==>
            IsGetOrHead(request.verb) &&
            (request.acceptsHtml || Lower(request.path) in ["/spoke/", "/spoke//"] || isStatic(Spoke, SpokeRelative(request.path)))
  {
    var lp := Lower(request.path);
    assert lp[..7] == "/spoke/";
    assert !StartsWith(lp, Proxy.RoutePrefix) by {
      assert lp[1] == 's';
    }
  }

  /** The two room routes of each server on the paths that tell them apart. */
  lemma RoomRouteExamples()
    ensures IsRoomCode("/abc1234") && !IsRoomCode("/abc123") && !IsRoomCode("/abcdefgh")
    ensures !SecondRoomRoute(AppConfig.Server, "/abc123") && !SecondRoomRoute(AppConfig.Sdk, "/abc123")
    ensures SecondRoomRoute(AppConfig.Server, "/abcdefgh") && !SecondRoomRoute(AppConfig.Sdk, "/abcdefgh")
    ensures SecondRoomRoute(AppConfig.Server, "/abc1234/x") && SecondRoomRoute(AppConfig.Sdk, "/abc1234/x")
  {
    assert "/abcdefgh"[8] == 'h';
  }

  /**
    A room code is a hub page in either room route of the plugin dev server, while in the SDK
    server the two routes never overlap.
   */
  lemma RoomRoutesOverlap(path: string)
    ensures IsRoomCode(path) ==> SecondRoomRoute(AppConfig.Server, path)
    ensures !(IsRoomCode(path) && SecondRoomRoute(AppConfig.Sdk, path))
    ensures SecondRoomRoute(AppConfig.Sdk, path) ==> SecondRoomRoute(AppConfig.Server, path)
  {
  }

  /** The request a browser sends for a page. */
  function PageRequest(path: string): Request {
    Request("GET", path, true, None)
  }

  /** The room page with its headers, or a 500 when Node refuses the app name as a header value. */
  function RoomPage(hubName: string): Outcome {
    if HeaderValue(hubName) then Page(Hubs, "hub.html", HubHeaders(hubName, "room")) else ServerError
  }

  lemma RoomHeaderValid()
    ensures HeaderValue("room") && HeaderValue("hub") && HeaderValue("scene") && HeaderValue("avatar")
  {
  }

  /**
    A `GET` of a room code reaches the room page with the room headers in both servers, unless
    a static file, `/discord` or one of the `/link`, `/scene` and `/avatar` pages takes it
    first; an app name that is no valid header value makes it a 500.
   */
  lemma RoomCodeRouted(v: AppConfig.Variant, port: nat, path: string, isStatic: (Site, string) -> bool, hubName: string)
    requires v != AppConfig.Legacy && IsRoomCode(path)
    requires !isStatic(Hubs, path) && Lower(path) != "/discord"
    requires !MatchesPrefix(path, "/link") && !MatchesPrefix(path, "/scene") && !MatchesPrefix(path, "/avatar")
    ensures Route(v, port, PageRequest(path), isStatic, hubName) == RoomPage(hubName)
  {
    RoomCodeNoPage(v, path, hubName);
    FallsToRoomRoutes(v, port, PageRequest(path), isStatic, hubName);
  }

  lemma RoomCodeNoPage(v: AppConfig.Variant, path: string, hubName: string)
    requires IsRoomCode(path) && Lower(path) != "/discord"
    requires !MatchesPrefix(path, "/link") && !MatchesPrefix(path, "/scene") && !MatchesPrefix(path, "/avatar")
    ensures !MatchesPrefix(path, Proxy.RoutePrefix)
    ensures forall isStatic: (Site, string) -> bool :: SpokeRoute(PageRequest(path), isStatic).None?
    ensures HubsPage(v, path, hubName).None?
  {
    var lp := Lower(path);
    RoomCodeLower(path);
    assert lp[6] != '/';
    forall isStatic: (Site, string) -> bool ensures SpokeRoute(PageRequest(path), isStatic).None? {
      NotSpoke(PageRequest(path), isStatic);
    }
    assert lp[5] != '-' && lp[7] != '/';
    assert !MatchesRoute(path, "/signin") && !MatchesRoute(path, "/verify") && !MatchesRoute(path, "/cloud");
    NoHubsPage(v, path, hubName);
  }

  /** The lower case of a room code is eight characters long, a slash and seven letters or digits. */
  lemma RoomCodeLower(path: string)
    requires IsRoomCode(path)
    ensures |Lower(path)| == 8 && Lower(path)[0] == '/'
    ensures forall i :: 1 <= i < 8 ==> Lower(path)[i] != '/' && Lower(path)[i] != '-'
  {
    forall i | 1 <= i < 8 ensures Lower(path)[i] != '/' && Lower(path)[i] != '-' {
      assert IsAlnum(path[i]);
    }
  }

  /** No spoke route takes a path that is neither the spoke index nor below `/spoke/`. */
  lemma NotSpoke(request: Request, isStatic: (Site, string) -> bool)
    requires |Lower(request.path)| != 6 && !StartsWith(Lower(request.path), "/spoke/")
    ensures SpokeRoute(request, isStatic).None?
  {
    assert !UnderSpoke(request.path);
    assert "/spoke//"[..7] == "/spoke/";
  }

  /** No named hubs page takes a path that none of their routes match. */
  lemma NoHubsPage(v: AppConfig.Variant, path: string, hubName: string)
    requires Lower(path) != "/" && path != "" && !MatchesRoute(path, "/whats-new") && !MatchesRoute(path, "/cloud")
    requires !MatchesRoute(path, "/signin") && !MatchesRoute(path, "/verify") && !MatchesRoute(path, "/discord")
    requires !MatchesPrefix(path, "/link") && !MatchesPrefix(path, "/scene") && !MatchesPrefix(path, "/avatar")
    ensures HubsPage(v, path, hubName).None?
  {
  }

  /**
    A `GET` or `HEAD` that neither the proxy, the spoke routes, the named pages nor a static
    file takes is a room page exactly when one of the room routes matches.
   */
  lemma FallsToRoomRoutes(v: AppConfig.Variant, port: nat, request: Request, isStatic: (Site, string) -> bool, hubName: string)
    requires v != AppConfig.Legacy && IsGetOrHead(request.verb)
    requires !MatchesPrefix(request.path, Proxy.RoutePrefix) && SpokeRoute(request, isStatic).None?
    requires HubsPage(v, request.path, hubName).None? && !isStatic(Hubs, request.path)
    ensures var path := request.path;
            Route(v, port, request, isStatic, hubName) ==
            if MatchesPrefix(path, "/hub.html") || IsRoomCode(path) || SecondRoomRoute(v, path)
            then RoomPage(hubName) else NotHandled
  {
    RoomHeaderValid();
  }

  /**
    With no static file in the way, `GET /abc1234` is a room, or a 500 for an app name that is
    no valid header value.
   */
  lemma RoomCodeScenario(v: AppConfig.Variant, port: nat, hubName: string)
    requires v != AppConfig.Legacy
    ensures Route(v, port, PageRequest("/abc1234"), (_, _) => false, hubName) == RoomPage(hubName)
  {
    var p := "/abc1234";
    LowerNoUpper(p);
    assert p[1] == 'a' && p[2] == 'b';
    assert !StartsWith(p, "/link") && !StartsWith(p, "/scene") && !StartsWith(p, "/avatar");
    assert p != "/discord";
    RoomCodeRouted(v, port, p, (_, _) => false, hubName);
  }

  /** One character short of a room code, `GET /abc123` is answered by no route of either server. */
  lemma ShortCodeNotHandled(v: AppConfig.Variant, port: nat, hubName: string)
    requires v != AppConfig.Legacy
    ensures Route(v, port, PageRequest("/abc123"), (_, _) => false, hubName) == NotHandled
  {
    var p := "/abc123";
    LowerNoUpper(p);
    assert p[1] == 'a' && p[2] == 'b';
    NotSpoke(PageRequest(p), (_, _) => false);
    ShortCodeNoPage(v, p, hubName);
    assert !StartsWith(p, Proxy.RoutePrefix);
    FallsToRoomRoutes(v, port, PageRequest(p), (_, _) => false, hubName);
    assert !IsRoomCode(p) && !SecondRoomRoute(v, p) && !StartsWith(p, "/hub.html");
  }

  lemma ShortCodeNoPage(v: AppConfig.Variant, p: string, hubName: string)
    requires p == "/abc123" && Lower(p) == p
    ensures HubsPage(v, p, hubName).None?
  {
    assert p[1] == 'a' && p[2] == 'b';
    assert !StartsWith(p, "/link") && !StartsWith(p, "/scene") && !StartsWith(p, "/avatar");
    assert !MatchesRoute(p, "/signin") && !MatchesRoute(p, "/verify") && !MatchesRoute(p, "/cloud");
    NoHubsPage(v, p, hubName);
  }

  /** `/discord` is also a room code, but the discord page is registered first. */
  lemma DiscordShadowsRoom(v: AppConfig.Variant, port: nat, hubName: string)
    ensures IsRoomCode("/discord")
    ensures Route(v, port, PageRequest("/discord"), (_, _) => false, hubName) == Page(Hubs, "discord.html", [])
  {
    var p := "/discord";
    LowerNoUpper(p);
    assert p[1] == 'd';
    NotSpoke(PageRequest(p), (_, _) => false);
    DiscordPage(v, p, hubName);
  }

  lemma DiscordPage(v: AppConfig.Variant, p: string, hubName: string)
    requires p == "/discord" && Lower(p) == p
    ensures HubsPage(v, p, hubName) == Some(Page(Hubs, "discord.html", []))
  {
    assert p[1] == 'd';
    assert !MatchesRoute(p, "/signin") && !MatchesRoute(p, "/verify") && !MatchesRoute(p, "/cloud");
  }

  /**
    The root server answers every `GET` or `HEAD` that accepts HTML, with the room page when no
    earlier route takes it, and never sets hub headers.
   */
  lemma LegacyCatchAll(port: nat, request: Request, isStatic: (Site, string) -> bool, hubName: string)
    ensures var r := Route(AppConfig.Legacy, port, request, isStatic, hubName);
            (r == NotHandled <==> !MatchesPrefix(request.path, Proxy.RoutePrefix) && !(IsGetOrHead(request.verb) && request.acceptsHtml) &&
                                  SpokeRoute(request, isStatic).None? &&
                                  !(IsGetOrHead(request.verb) && (HubsPage(AppConfig.Legacy, request.path, hubName).Some? || isStatic(Hubs, request.path))))
    ensures Route(AppConfig.Legacy, port, request, isStatic, hubName).Page? ==> Route(AppConfig.Legacy, port, request, isStatic, hubName).headers == []
  {
  }
}

=== FILE: sdk_webpack_config.dfy ===
/**
  scripts/hubs-sdk-webpack-config.js: the webpack configuration of a plugin project. Each
  hook's source files become webpack entry points named by the files' base names, and the
  manifest plugin is configured with the same hooks listing those entry-point names.
  `require(hubsConfigPath)` is the `HubsConfig` input and `path.resolve(projectPath, file)` is
  the function `resolve`.
 */
module SdkWebpackConfig {
  import opened Wrappers
  import opened Text
  import opened Dict
  import Manifest

  /** The project's hubs.config.js: hook name to source files. */
  datatype HubsConfig = HubsConfig(name: string, version: string, hooks: Dict<seq<string>>)

  /** The command-line arguments webpack passes; `mode` may be absent. */
  datatype Args = Args(mode: Option<string>)

  datatype WebpackConfig = WebpackConfig(
    mode: Option<string>,
    entry: Dict<string>,
    outputFilename: string,
    publicPath: string,
    devtool: string,
    plugin: Manifest.PluginConfig)

  const OutputFilename: string := "[name].plugin.js"

  /** The index of the last occurrence of `c` in `s`. */
  function LastIndexOf(s: string, c: char): (r: Option<nat>)
    ensures r.Some? ==> r.value < |s| && s[r.value] == c && forall k :: r.value < k < |s| ==> s[k] != c
    ensures r.None? ==> c !in s
  {
    if |s| == 0 then None
    else if s[|s| - 1] == c then Some(|s| - 1)
    else
      assert s == s[..|s| - 1] + [s[|s| - 1]];
      LastIndexOf(s[..|s| - 1], c)
  }

  /**
    `path.parse(file).name`: the last path segment without its extension, where the extension
    starts at the segment's last dot unless that dot begins the segment or the segment is `..`.
   */
  function BaseName(file: string): (r: string)
    ensures '/' !in r && |r| <= |file|
    ensures '/' !in file && '.' !in file ==> r == file
  {
    var base := match LastIndexOf(file, '/') case Some(i) => file[i + 1..] case None => file;
    if base == ".." then base
    else match LastIndexOf(base, '.')
      case Some(d) => if d > 0 then base[..d] else base
      case None => base
  }

  /** The entry-point names of one hook, in file order. */
  function EntryNames(files: seq<string>): (names: seq<string>)
    ensures |names| == |files| && forall j :: 0 <= j < |files| ==> names[j] == BaseName(files[j])
  {
    seq(|files|, j requires 0 <= j < |files| => BaseName(files[j]))
  }

  /** The assignments `entry[name] = path.resolve(projectPath, file)` of one hook's files. */
  function FileAssignments(files: seq<string>, resolve: string -> string): seq<(string, string)> {
    seq(|files|, j requires 0 <= j < |files| => (BaseName(files[j]), resolve(files[j])))
  }

  /** All assignments to `entry`, hook after hook and file after file. */
  function EntryAssignments(hooks: Dict<seq<string>>, resolve: string -> string): seq<(string, string)>
    decreases |hooks|
  {
    if |hooks| == 0 then [] else FileAssignments(hooks[0].1, resolve) + EntryAssignments(hooks[1..], resolve)
  }

  /**
    The exported function: `entry` gathers every hook file under its base name, the plugin
    configuration lists those names per hook, and the output, source-map and mode settings
    follow the arguments.
   */
  function WebpackConfigFor(config: HubsConfig, args: Option<Args>, resolve: string -> string): (w: WebpackConfig)
    ensures w.plugin.name == config.name && w.plugin.version == config.version
    ensures w.publicPath == "/" + config.name
    ensures w.outputFilename == OutputFilename
    ensures w.devtool == "source-map" <==> args.Some? && args.value.mode == Some("production")
    ensures w.devtool != "source-map" ==> w.devtool == "eval-source-map"
    ensures w.mode == if args.Some? then args.value.mode else None
    ensures Keys(w.plugin.hooks) == Keys(config.hooks)
    ensures forall i :: 0 <= i < |config.hooks| ==> w.plugin.hooks[i].1 == EntryNames(config.hooks[i].1)
    ensures Distinct(w.entry)
  {
    WebpackConfig(
      if args.Some? then args.value.mode else None,
      Entry(config.hooks, resolve),
      OutputFilename,
      "/" + config.name,
      if args.Some? && args.value.mode == Some("production") then "source-map" else "eval-source-map",
      Manifest.PluginConfig(config.name, config.version, PluginHooks(config.hooks)))
  }

  /** `entry`: the assignments applied in order to an empty object. */
  function Entry(hooks: Dict<seq<string>>, resolve: string -> string): (entry: Dict<string>)
    ensures Distinct(entry)
  {
    PutAllLastWins([], EntryAssignments(hooks, resolve), "");
    PutAll([], EntryAssignments(hooks, resolve))
  }

  /** The hooks the manifest plugin is given: each hook with its entry-point names. */
  function PluginHooks(hooks: Dict<seq<string>>): (r: Dict<seq<string>>)
    ensures Keys(r) == Keys(hooks)
    ensures forall i :: 0 <= i < |hooks| ==> r[i].1 == EntryNames(hooks[i].1)
  {
    seq(|hooks|, i requires 0 <= i < |hooks| => (hooks[i].0, EntryNames(hooks[i].1)))
  }

  lemma {:induction false} EntryAssignmentsNames(hooks: Dict<seq<string>>, resolve: string -> string, n: string)
    ensures (exists p :: p in EntryAssignments(hooks, resolve) && p.0 == n) <==>
            (exists i, j :: 0 <= i < |hooks| && 0 <= j < |hooks[i].1| && BaseName(hooks[i].1[j]) == n)
    decreases |hooks|
  {
    if |hooks| > 0 {
      EntryAssignmentsNames(hooks[1..], resolve, n);
      var here := FileAssignments(hooks[0].1, resolve);
      var rest := EntryAssignments(hooks[1..], resolve);
      if exists p: (string, string) :: p in here + rest && p.0 == n {
        var p: (string, string) :| p in here + rest && p.0 == n;
        if p in here {
          var j :| 0 <= j < |here| && here[j] == p;
          assert BaseName(hooks[0].1[j]) == n;
        } else {
          var i, j :| 0 <= i < |hooks[1..]| && 0 <= j < |hooks[1..][i].1| && BaseName(hooks[1..][i].1[j]) == n;
          assert hooks[i + 1] == hooks[1..][i];
        }
      }
      if exists i, j :: 0 <= i < |hooks| && 0 <= j < |hooks[i].1| && BaseName(hooks[i].1[j]) == n {
        var i, j :| 0 <= i < |hooks| && 0 <= j < |hooks[i].1| && BaseName(hooks[i].1[j]) == n;
        if i == 0 {
          assert here[j] in here + rest && here[j].0 == n;
        } else {
          assert hooks[1..][i - 1] == hooks[i];
        }
      }
    }
  }

  /**
    Every entry-point name listed under a hook is a key of `entry`, and every key of `entry` is
    such a name.
   */
  lemma EntryMatchesHookNames(config: HubsConfig, args: Option<Args>, resolve: string -> string, n: string)
    ensures var w := WebpackConfigFor(config, args, resolve);
            n in Keys(w.entry) <==>
            exists i, j :: 0 <= i < |w.plugin.hooks| && 0 <= j < |w.plugin.hooks[i].1| && w.plugin.hooks[i].1[j] == n
  {
    var w := WebpackConfigFor(config, args, resolve);
    var ps := EntryAssignments(config.hooks, resolve);
    PutAllLastWins([], ps, n);
    LastValueExists(ps, n);
    EntryAssignmentsNames(config.hooks, resolve, n);
    assert |w.plugin.hooks| == |config.hooks|;
    if exists i, j :: 0 <= i < |config.hooks| && 0 <= j < |config.hooks[i].1| && BaseName(config.hooks[i].1[j]) == n {
      var i, j :| 0 <= i < |config.hooks| && 0 <= j < |config.hooks[i].1| && BaseName(config.hooks[i].1[j]) == n;
      assert w.plugin.hooks[i].1[j] == n;
    }
    if exists i, j :: 0 <= i < |w.plugin.hooks| && 0 <= j < |w.plugin.hooks[i].1| && w.plugin.hooks[i].1[j] == n {
      var i, j :| 0 <= i < |w.plugin.hooks| && 0 <= j < |w.plugin.hooks[i].1| && w.plugin.hooks[i].1[j] == n;
      assert BaseName(config.hooks[i].1[j]) == n;
    }
  }

  /**
    When several files share a base name, `entry` keeps the resolved path of the last of them
    in hook-then-file order.
   */
  lemma EntryLastFileWins(config: HubsConfig, args: Option<Args>, resolve: string -> string, n: string)
    ensures Get(WebpackConfigFor(config, args, resolve).entry, n) == LastValue(EntryAssignments(config.hooks, resolve), n)
  {
    PutAllLastWins([], EntryAssignments(config.hooks, resolve), n);
  }

  /** Two files with one base name: the second one's path is the entry. */
  lemma SharedBaseNameExample(resolve: string -> string)
    ensures var config := HubsConfig("p", "1.0.0", [("a", ["src/a/index.js"]), ("b", ["lib/index.jsx"])]);
            Get(WebpackConfigFor(config, None, resolve).entry, "index") == Some(resolve("lib/index.jsx"))
  {
    var config := HubsConfig("p", "1.0.0", [("a", ["src/a/index.js"]), ("b", ["lib/index.jsx"])]);
    SharedBaseNameLast(config.hooks, resolve);
    EntryLastFileWins(config, None, resolve, "index");
  }

  lemma SharedBaseNameLast(hooks: Dict<seq<string>>, resolve: string -> string)
    requires hooks == [("a", ["src/a/index.js"]), ("b", ["lib/index.jsx"])]
    ensures LastValue(EntryAssignments(hooks, resolve), "index") == Some(resolve("lib/index.jsx"))
  {
    var ps := EntryAssignments(hooks, resolve);
    var last := EntryAssignments(hooks[1..], resolve);
    IndexJsxBaseName();
    assert hooks[1..][0].1 == ["lib/index.jsx"];
    assert EntryAssignments(hooks[1..][1..], resolve) == [];
    assert last == FileAssignments(["lib/index.jsx"], resolve) + [];
    assert last == [("index", resolve("lib/index.jsx"))];
    assert ps == FileAssignments(hooks[0].1, resolve) + last;
  }

  lemma IndexJsxBaseName()
    ensures BaseName("lib/index.jsx") == "index"
  {
    LastSlashOfPath();
    assert "lib/index.jsx"[4..] == "index.jsx";
    LastDotOfFile();
  }

  lemma LastSlashOfPath()
    ensures LastIndexOf("lib/index.jsx", '/') == Some(3)
  {
    var s := "lib/index.jsx";
    assert s[3] == '/' && forall k :: 3 < k < |s| ==> s[k] != '/';
    LastIndexOfIs(s, '/', 3);
  }

  lemma LastDotOfFile()
    ensures LastIndexOf("index.jsx", '.') == Some(5)
  {
    var s := "index.jsx";
    assert s[5] == '.' && forall k :: 5 < k < |s| ==> s[k] != '.';
    LastIndexOfIs(s, '.', 5);
  }

  /** `LastIndexOf` finds an occurrence with none after it. */
  lemma {:induction false} LastIndexOfIs(s: string, c: char, i: nat)
    requires i < |s| && s[i] == c && forall k :: i < k < |s| ==> s[k] != c
    ensures LastIndexOf(s, c) == Some(i)
    decreases |s|
  {
    if i < |s| - 1 {
      var front := s[..|s| - 1];
      assert forall k :: i < k < |front| ==> front[k] == s[k];
      LastIndexOfIs(front, c, i);
    }
  }
}

=== FILE: text.dfy ===
/**
  The string primitives of JavaScript that the dev toolchain relies on: ASCII case mapping,
  `startsWith`, `String.prototype.replace` with a string pattern (first occurrence only),
  `Array.prototype.join`, and the decimal rendering of integers in template literals.
 */
module Text {
  import opened Wrappers

  predicate IsLowerAscii(c: char) { 'a' <= c <= 'z' }

  predicate IsUpperAscii(c: char) { 'A' <= c <= 'Z' }

  predicate IsDigit(c: char) { '0' <= c <= '9' }

  /** The character class `[a-zA-Z0-9]` of a regular expression. */
  predicate IsAlnum(c: char) { IsLowerAscii(c) || IsUpperAscii(c) || IsDigit(c) }

  function UpperChar(c: char): char {
    if IsLowerAscii(c) then (c as int - 32) as char else c
  }

  function LowerChar(c: char): char {
    if IsUpperAscii(c) then (c as int + 32) as char else c
  }

  /** `toLowerCase`, on the ASCII letters. */
  function Lower(s: string): string {
    seq(|s|, i requires 0 <= i < |s| => LowerChar(s[i]))
  }

  /** A string without upper-case ASCII letters is its own lower case. */
  lemma LowerNoUpper(s: string)
    requires forall i :: 0 <= i < |s| ==> !IsUpperAscii(s[i])
    ensures Lower(s) == s
  {
  }

  predicate StartsWith(s: string, prefix: string) {
    |prefix| <= |s| && s[..|prefix|] == prefix
  }

  lemma ConcatAssoc(a: string, b: string, c: string)
    ensures (a + b) + c == a + (b + c)
  {
  }

  lemma HeadTail(s: string)
    requires |s| > 0
    ensures [s[0]] + s[1..] == s
  {
  }

  /** `a + b` starts with `a`, and what follows `a` is `b`. */
  lemma StartsWithConcat(a: string, b: string)
    ensures StartsWith(a + b, a) && (a + b)[|a|..] == b
  {
    assert (a + b)[..|a|] == a;
  }

  /** `pat` occurs in `s` starting at index `i`. */
  predicate OccursAt(s: string, pat: string, i: int) {
    0 <= i && i + |pat| <= |s| && s[i..i + |pat|] == pat
  }

  /** `i` is the index of the leftmost occurrence of `pat` in `s`. */
  predicate FirstOccurrence(s: string, pat: string, i: int) {
    OccursAt(s, pat, i) && forall j :: 0 <= j < i ==> !OccursAt(s, pat, j)
  }

  /** The leftmost occurrence of `pat` in `s` at or after `from`, as `indexOf` finds it. */
  function FindFrom(s: string, pat: string, from: nat): (r: Option<nat>)
    ensures r.Some? ==> from <= r.value && OccursAt(s, pat, r.value)
    ensures r.Some? ==> forall j :: from <= j < r.value ==> !OccursAt(s, pat, j)
    ensures r.None? ==> forall j :: from <= j ==> !OccursAt(s, pat, j)
    decreases |s| - from
  {
    if from + |pat| > |s| then None
    else if s[from..from + |pat|] == pat then Some(from)
    else FindFrom(s, pat, from + 1)
  }

  function FindFirst(s: string, pat: string): (r: Option<nat>)
    ensures r.Some? ==> FirstOccurrence(s, pat, r.value)
    ensures r.None? ==> forall j :: !OccursAt(s, pat, j)
  {
    FindFrom(s, pat, 0)
  }

  /**
    The leftmost occurrence of `pat` replaced by `rep` taken literally, and a string without an
    occurrence unchanged: `s.replace(pat, rep)` with a string pattern and a replacement that
    holds no `$`.
   */
  function ReplaceFirst(s: string, pat: string, rep: string): (r: string)
    ensures (forall j :: !OccursAt(s, pat, j)) ==> r == s
    ensures forall i :: FirstOccurrence(s, pat, i) ==> r == s[..i] + rep + s[i + |pat|..]
  {
    match FindFirst(s, pat)
    case None => s
    case Some(i) =>
      s[..i] + rep + s[i + |pat|..]
  }

  /** `parts.join(sep)`. */
  function Join(parts: seq<string>, sep: string): string {
    if |parts| == 0 then ""
    else if |parts| == 1 then parts[0]
    else parts[0] + sep + Join(parts[1..], sep)
  }

  function DigitChar(d: nat): char
    requires d < 10
  {
    ('0' as int + d) as char
  }

  /** The decimal rendering of a natural number, as a template literal prints it. */
  function NatToString(n: nat): string
    decreases n
  {
    if n < 10 then [DigitChar(n)] else NatToString(n / 10) + [DigitChar(n % 10)]
  }

  function IntToString(i: int): string {
    if i < 0 then "-" + NatToString(-i) else NatToString(i)
  }

  /** The value of a string of decimal digits, read most significant digit first. */
  function DigitsValue(s: string): nat {
    if s == [] then 0
    else
      var d := s[|s| - 1] as int - '0' as int;
      DigitsValue(s[..|s| - 1]) * 10 + (if 0 <= d then d else 0)
  }

  /** The decimal rendering is made of digits only and reads back as the number it renders. */
  lemma {:induction false} NatToStringRoundTrip(n: nat)
    ensures |NatToString(n)| >= 1
    ensures forall i :: 0 <= i < |NatToString(n)| ==> IsDigit(NatToString(n)[i])
    ensures DigitsValue(NatToString(n)) == n
    decreases n
  {
    if n >= 10 {
      NatToStringRoundTrip(n / 10);
      var s := NatToString(n / 10);
      assert NatToString(n) == s + [DigitChar(n % 10)];
      assert (s + [DigitChar(n % 10)])[..|s|] == s;
    }
  }
}

=== FILE: wrappers.dfy ===
/** Option and Result, the failure-carrying values used across the model. */
module Wrappers {

  /** A present or absent value; for JavaScript values `None` stands for `undefined`. */
  datatype Option<+T> = None | Some(value: T) {

    predicate IsFailure() {
      None?
    }

    function PropagateFailure<U>(): Option<U>
      requires None?
    {
      None
    }

    function Extract(): T
      requires Some?
    {
      value
    }

    function GetOr(default: T): T {
      match this
      case Some(v) => v
      case None => default
    }
  }

  /** The outcome of an operation that can throw: a value or the error it throws. */
  datatype Result<+R, +E> = Success(value: R) | Failure(error: E) {

    predicate IsFailure() {
      Failure?
    }

    function PropagateFailure<U>(): Result<U, E>
      requires Failure?
    {
      Failure(error)
    }

    function Extract(): R
      requires Success?
    {
      value
    }
  }
}
